=== FILE: README.md ===
# SudoDog core, modelled in Dafny

SudoDog supervises an untrusted AI-agent process. It has four main parts:

- A policy engine (`AgentBlocker`) that allows or denies file reads, file writes and shell commands.
- A supervisor (`AgentMonitor`) that gates the command, launches it (optionally under `unshare`), reports every file the process has open, and appends an audit trail of JSON entries.
- A rollback log (`FileRollback`) that keeps before-images of files and undoes changes newest-first.
- The small pure pieces around them:
  - sandbox argument builders and the Docker container configuration;
  - HTTP header and body redaction, and log statistics;
  - secret validation, masking and injection;
  - rate-limit lookup and usage classification;
  - the query side of the AI-decision log.

Each Python source file is one Dafny module. The model uses immutable datatypes and total functions.

- Everything the program gets from outside is a parameter:
  - the regular-expression engine (`Re.Search`, `Re.Substitute`);
  - the home directory, the current directory and the clock;
  - the process's open files and its exit;
  - the Docker engine's answers;
  - the content of files on disk.
- Errors Python raises are `Result` values.
- Python truthiness, slicing with negative indices, `str.lower`, `int()` truncation and `dict.get` defaults are written out explicitly.

Files:

| file | module | models |
|---|---|---|
| `wrappers.dfy` | `Wrappers` | `Option` and `Result` |
| `text.dfy` | `Text`, `Tally` | string predicates, ASCII case, Python slicing, decimal rendering, counting maps |
| `re.dfy` | `Re` | regular expressions as an abstract search and substitution |
| `blocker.dfy` | `Blocker` | `AgentBlocker` in `sudodog/blocker.py` |
| `rollback.dfy` | `FileRollback` | `FileRollback` in `sudodog/blocker.py` |
| `sandbox.dfy` | `Sandbox` | `sudodog/sandbox.py` |
| `monitor.dfy` | `Monitor` | `sudodog/monitor.py` |
| `docker_sandbox.dfy` | `DockerSandbox` | `sudodog/docker_sandbox.py` |
| `http_interceptor.dfy` | `HttpInterceptor` | `sudodog/http_interceptor.py` |
| `secret_manager.dfy` | `SecretManager` | `sudodog/secret_manager.py` |
| `rate_limiter.dfy` | `RateLimiter` | `sudodog/rate_limiter.py` |
| `decision_tracker.dfy` | `DecisionTracker` | `sudodog/ai_decision_tracker.py` |

Three behaviours of the code are worth stating plainly:

- Rollback undoes the selected operations newest first. After `create A`, `modify B`, `modify B`, a `rollback(2)` undoes both modifications, so B gets its original content back; one step gives the content after the first modification (`FileRollback.RollbackUnwindsNewestFirst`).
- `run` holds no sandbox handle and releases nothing on the normal or the error path; it terminates the launched process only on a keyboard interrupt (`Monitor.HandleFault`).
- The command gate in `run` refuses the commands `check_command` allows and launches the dangerous ones; see "Findings".

## Model

| member | source | states |
|---|---|---|
| Blocker.ExpandUser | sudodog/blocker.py:77-80 | `~` becomes the home directory without trailing slashes, or `/` when that is empty; `~/...` becomes that directory followed by the rest; every other path is left unchanged |
| Blocker.GlobToRegex | sudodog/blocker.py:92-93 | an entry without `*` is its own regular expression; the one-character entry `*` becomes `.*` and any other single character stays |
| Blocker.GlobToRegexAppend | sudodog/blocker.py:92-93 | the translation distributes over concatenation, so with the one-character cases every `*` becomes `.*` and every other character stays |
| Blocker.EntryVerdict | sudodog/blocker.py:83-95 | one entry refuses as a sensitive file iff the expanded paths are equal; a directory verdict needs an entry ending in `/` that is a strictly shorter prefix of the path; a pattern verdict needs `*` in the entry and a search hit; no verdict means none of the three tests fired |
| Blocker.CheckFileRead | sudodog/blocker.py:70-97 | a read is allowed iff no entry of the read list has a verdict on it; a refusal has a reason and it names the class of the FIRST entry in declaration order that has one; an allowed read has no reason |
| Blocker.FirstVerdict | sudodog/blocker.py:82-97 | the scan over the entries ends without a verdict iff no entry has one |
| Blocker.FirstVerdictAt | sudodog/blocker.py:82-97 | the loop returns at the first refusing entry: a verdict at position `i` with none before it is the verdict of the whole scan |
| Blocker.FirstVerdictIndex | sudodog/blocker.py:82-97 | a scan that ends with a verdict has a position that gives it and every earlier entry has none |
| Blocker.InsideGcloudIsNoEarlierEntry | sudodog/blocker.py:15-22 | for every home directory, no path inside the expanded `~/.config/gcloud/` equals the expansion of any of the six entries listed before it |
| Blocker.CheckFileWrite | sudodog/blocker.py:99-112 | a write is refused iff the expanded path starts with one of the eight system prefixes, with the "system directory" reason exactly then |
| Blocker.WritePrefixBoundaries | sudodog/blocker.py:99-112 | for every home directory, `/etc` itself and `/usr/local/bin/x` may be written, and every path that extends one of the eight listed directories is refused |
| Blocker.MatchedPatterns | sudodog/blocker.py:121-125 | the matches are the in-order subsequence of the patterns holding exactly the patterns the command matches case-insensitively; empty iff no pattern matches |
| Blocker.CheckCommand | sudodog/blocker.py:114-131 | a command is allowed iff no dangerous pattern matches; the matched list is the in-order subsequence of matching patterns; empty and without reason exactly when allowed |
| Blocker.ShouldBlock | sudodog/blocker.py:133-157 | the three action kinds answer (not allowed, reason) of their check; any other kind is let through with no reason; blocking always comes with a reason |
| Blocker.NoGlobEntries | sudodog/blocker.py:15-28 | no shipped read entry contains `*` |
| Blocker.PlainEntryNeverPattern | sudodog/blocker.py:92-95 | an entry without `*` never refuses by pattern |
| Blocker.ReadMessagesDistinct | sudodog/blocker.py:84-95 | the three refusal messages for a path are pairwise different, so the reason identifies the class |
| Blocker.GlobBranchUnreachable | sudodog/blocker.py:91-95 | for every home, regex engine and path, the "sensitive pattern" refusal is never given |
| Blocker.OnlyGcloudIsDirectory | sudodog/blocker.py:86-89 | for every home directory, `~/.config/gcloud/` is the only entry whose expansion ends in `/` |
| Blocker.GcloudDirectoryDenied | sudodog/blocker.py:79-89 | every path strictly inside the expanded `~/.config/gcloud/` is refused as a sensitive directory, whatever the home directory |
| Blocker.LaterEntriesOutsideGcloud | sudodog/blocker.py:15-28 | the entries after `~/.config/gcloud/` never expand into it |
| Blocker.DirectoryVerdictIsGcloud | sudodog/blocker.py:86-89 | a directory verdict comes only from the gcloud entry and only for paths strictly inside it |
| Blocker.ListedFileDenied | sudodog/blocker.py:79-84 | a path that expands to any listed entry is refused as a sensitive file, whatever the home directory |
| FileRollback.NewRollback | sudodog/blocker.py:163-167 | a new log is empty and belongs to its session |
| FileRollback.BaseName | sudodog/blocker.py:189 | the name used for a backup contains no `/` |
| FileRollback.Stem | sudodog/blocker.py:194 | stem followed by suffix gives back the name |
| FileRollback.BackupPathInjective | sudodog/blocker.py:192-195 | different counters give different backup paths |
| FileRollback.BackupPathsInjective | sudodog/blocker.py:192-195 | no backup name is tried twice |
| FileRollback.FirstFree | sudodog/blocker.py:192-195 | the collision loop ends at a candidate that is not taken, and every earlier candidate is taken |
| FileRollback.FreeBackupIndex | sudodog/blocker.py:189-195 | the chosen backup name is not on disk and all earlier candidates are, so no existing backup is overwritten |
| FileRollback.Copy | sudodog/blocker.py:198-200 | `shutil.copy2` succeeds iff the source exists and neither path is broken, and the destination then holds the source content; a missing source raises `[Errno 2] No such file or directory` naming it |
| FileRollback.BackupFile | sudodog/blocker.py:169-211 | a missing file logs `create` and succeeds without touching the disk; an existing one is copied to a fresh backup path and logged as `modify` iff neither path is broken; on failure the log and disk are unchanged; no existing file is changed |
| FileRollback.UndoOne | sudodog/blocker.py:234-248 | a `create` is skipped iff its file is gone, and undone iff the file exists and is not broken, removing only that file; a `modify` is skipped iff it has no backup, and undone iff the backup exists and neither path is broken, the file then holding the backup content and nothing else changing; a failure is one error naming the operation's path, with the `[Errno 2]` text for a missing backup |
| FileRollback.UndoAll | sudodog/blocker.py:232-248 | undone plus failed operations never exceed the operations, and every error names the path of one of them |
| FileRollback.UndoAllNewestFirst | sudodog/blocker.py:232-248 | for every list, the last operation is undone first on the given disk and the older ones then run on the disk it leaves; a success adds one to the count, a failure puts its error before the older ones' errors |
| FileRollback.UndoAllAppend | sudodog/blocker.py:232-248 | undoing `older + newer` is undoing `newer`, then `older` on the disk it leaves: the counts add up and the newer errors come first |
| FileRollback.UndoAllFrame | sudodog/blocker.py:232-248 | a path no operation names keeps its presence and content, and broken paths stay broken |
| FileRollback.RestorableRollsBackCleanly | sudodog/blocker.py:232-248 | when no path is broken and every backup is on disk and named by no operation, no error is reported and every `modify` with a backup is undone |
| FileRollback.Selected | sudodog/blocker.py:225-228 | `operations[-steps:]` with Python's slicing: `None`, 0 and too-large counts select everything, negative counts drop a prefix |
| FileRollback.DoRollback | sudodog/blocker.py:213-250 | undone plus failed never exceeds the selection and every error names a selected path; paths no selected operation names are unchanged; on a restorable disk nothing fails and every selected `modify` with a backup is undone |
| FileRollback.BackupThenRollbackRestores | sudodog/blocker.py:188-205 | back up, overwrite, roll back one step: exactly one operation undone, no error, and the disk is as it was after the backup, the file holding its original content |
| FileRollback.RestoreFromBackup | sudodog/blocker.py:241-245 | undoing a modification with an intact backup puts the backed-up content back |
| FileRollback.CreateThenRollbackRemoves | sudodog/blocker.py:234-239 | rolling back a creation gives the original disk back |
| FileRollback.RollbackUnwindsNewestFirst | sudodog/blocker.py:228-232 | after two backed-up modifications, one step restores the first modification's content and two steps restore the original |
| FileRollback.UndoTwoModifications | sudodog/blocker.py:232-245 | newest-first undo of two backups of one file ends with the older backup's content |
| FileRollback.PartialRollback | sudodog/blocker.py:232-248 | a missing backup fails only its own operation: the other is restored and exactly one error names the failed path |
| Sandbox.NewSandbox | sudodog/sandbox.py:18-38 | the flags are kept; a missing or empty path list becomes `[]` (read-only) or `['/tmp', home]` (writable) |
| Sandbox.BuildUnshareCommand | sudodog/sandbox.py:41-63 | the line starts `unshare --user`, ends `-- sh -c command`, has length 7 + net + 2·pid + ipc, and its flags are an in-order subsequence of net, pid, fork, ipc, mount, each present iff its setting is on, with `--mount` last |
| Sandbox.FlagsPresent | sudodog/sandbox.py:48-58 | which namespace flags the settings turn on, and that `--mount` is always last |
| Sandbox.FlagsInOrder | sudodog/sandbox.py:48-58 | the flags always come in the fixed order net, pid, fork, ipc, mount |
| Sandbox.UnshareRoundTrip | sudodog/sandbox.py:41-63 | the isolation settings and the command can be read back from the argument vector |
| Sandbox.UnshareInjective | sudodog/sandbox.py:41-63 | equal argument vectors mean equal isolation settings and equal commands |
| Sandbox.Paranoid | sudodog/sandbox.py:180-187 | all three namespaces isolated, system directories read-only, default writable paths |
| Sandbox.Standard | sudodog/sandbox.py:190-196 | network and PID isolation only |
| Sandbox.Minimal | sudodog/sandbox.py:199-205 | PID isolation only |
| Sandbox.Testing | sudodog/sandbox.py:208-214 | no namespace isolation |
| Sandbox.PresetsNested | sudodog/sandbox.py:176-214 | each preset's flags are a subsequence of the next stricter preset's, with lines of 7, 9, 10 and 11 arguments |
| Sandbox.DockerRunArgv | sudodog/sandbox.py:119-131 | `docker run --rm` with no network, a read-only root, all capabilities dropped and no new privileges, ending `image sh -c command` |
| Sandbox.DockerMountsCwd | sudodog/sandbox.py:127-128 | the current directory is mounted at `/workspace` |
| Sandbox.DockerRunRoundTrip | sudodog/sandbox.py:119-131 | the image is the fourth argument from the end, the command the last, and the `-v` argument mounts exactly the current directory |
| Sandbox.DockerRunInjective | sudodog/sandbox.py:119-131 | equal argument vectors come from equal directory, image and command |
| Monitor.NewMonitor | sudodog/monitor.py:22-33 | a fresh monitor has no actions, no blocks and no process; a missing or empty session id becomes the timestamp; the sandbox is the standard preset iff requested |
| Monitor.LogAction | sudodog/monitor.py:35-51 | the entry is appended to both the action list and the log file, and nothing else changes |
| Monitor.LogActionKeepsMirror | sudodog/monitor.py:45-49 | logging keeps the log file equal to its earlier content followed by the action list |
| Monitor.ReadGuardMeaning | sudodog/monitor.py:126 | the read guard blocks exactly the paths the read policy refuses |
| Monitor.CheckPolicy | sudodog/monitor.py:53-62 | the answer is the negation of the blocker's verdict, and the blocked count grows by one exactly when the answer is no |
| Monitor.CheckPolicyOnRead | sudodog/monitor.py:53-62 | on reads the answer is whether `check_file_read` allows the path |
| Monitor.InspectFiles | sudodog/monitor.py:123-135 | one `file_access` entry per open file, in order, carrying the policy's answer; blocked count grows by the number of refused reads |
| Monitor.HandleFault | sudodog/monitor.py:163-173 | an interrupt logs `interrupted`, terminates an existing process and exits 130; any other exception logs a refused `error` and exits 1 |
| Monitor.LaunchOf | sudodog/monitor.py:105-115 | the process runs sandboxed iff the monitor has a sandbox configuration, always with the monitor's command |
| Monitor.SandboxedLaunchArgv | sudodog/monitor.py:106-107 | a sandboxed launch runs `unshare --user ... -- sh -c command` |
| Monitor.Finish | sudodog/monitor.py:137-161 | a normal exit logs `complete` with the return code, the action count and the blocked count, and returns the code; no `blocked` entry is logged |
| Monitor.Supervise | sudodog/monitor.py:117-161 | supervising only logs, never logs `blocked`, and keeps the process |
| Monitor.Execute | sudodog/monitor.py:104-173 | the process is recorded iff starting it does not raise; nothing is logged as `blocked` |
| Monitor.Started | sudodog/monitor.py:70-75 | the start entry is logged and nothing else changes |
| Monitor.Run | sudodog/monitor.py:64-173 | `run` only appends to the log, and its first entry is `start` with the command, cwd and user |
| Monitor.AfterGate | sudodog/monitor.py:77-102 | a blocking gate logs start, `blocked`, `complete` with exit 1 and two actions, counts one block and starts nothing; an open gate starts the process unless that raises |
| Monitor.Refuse | sudodog/monitor.py:81-100 | the blocked branch logs `blocked` with the reason and patterns, then `complete` with exit code 1, and counts one block |
| Monitor.RefusedRun | sudodog/monitor.py:70-100 | from the start of `run`, the blocked branch leaves start, blocked and complete in the action list |
| Monitor.DangerousMeansNotAllowed | sudodog/blocker.py:127-131 | a command is dangerous iff `check_command` does not allow it; a safe command comes with no reason and no patterns |
| Monitor.RunGate | sudodog/monitor.py:77-81 | `run` uses the allowed flag of `check_command` as its should-block flag |
| Monitor.RefusedFreshRun | sudodog/monitor.py:81-100 | on a fresh monitor the blocked branch gives exactly three entries and a blocked count of 1 |
| Monitor.SafeCommandIsBlocked | sudodog/monitor.py:77-100 | as written, a command matching no dangerous pattern is refused with no reason and no patterns, and never started |
| Monitor.DangerousCommandIsLaunched | sudodog/monitor.py:77-107 | as written, a dangerous command is started, and nothing after the start entry is logged as blocked |
| Monitor.FinishExited | sudodog/monitor.py:149-161 | the `complete` entry carries the return code, the action count and the blocked count |
| Monitor.LaunchedRun | sudodog/monitor.py:102-161 | an open gate logs start, then exactly what the `try` block logs |
| Monitor.ExecuteLaunches | sudodog/monitor.py:104-118 | when the launch does not raise, the `try` block is supervision of the started process |
| Monitor.SupervisedCompletion | sudodog/monitor.py:117-161 | a completed process logs the file accesses, then `complete` with the total action count and the number of refused reads |
| Monitor.OpenGateRun | sudodog/monitor.py:70-161 | an open gate logs start, then exactly what supervision logs, and returns its exit code |
| Monitor.LaunchedCompletion | sudodog/monitor.py:104-161 | a launched process that completes gives start, one entry per open file, allowed iff the guard allows the path, and `complete` with the code and refused-read count |
| Monitor.NormalCompletion | sudodog/monitor.py:64-161 | a dangerous command on a fresh monitor runs to completion with exactly that event sequence, and `run` returns the process's code |
| Monitor.FileAccessFollowsReadPolicy | sudodog/monitor.py:124-130 | a `file_access` entry is marked allowed exactly when the read policy allows the path |
| Monitor.RunIntended | sudodog/monitor.py:77-81 | the corrected `run` also only appends to the log and starts with the start entry |
| Monitor.IntendedGateStopsDangerous | sudodog/monitor.py:77-100 | with the corrected gate a dangerous command is refused with its matched patterns, exits 1 and is never started |
| Monitor.IntendedGateLaunchesSafe | sudodog/monitor.py:77-107 | with the corrected gate a safe command is started |
| Monitor.GatesDisagree | sudodog/monitor.py:77-81 | on every command exactly one of the written and corrected gates starts the process |
| Monitor.LoggedKeepsMirror | sudodog/monitor.py:45-49 | appending entries keeps the log file mirroring the action list |
| Monitor.RunKeepsMirror | sudodog/monitor.py:35-51 | after `run` the log file is still its earlier content followed by the action list |
| Monitor.ListActive | sudodog/monitor.py:178-187 | a missing registry file lists nothing, otherwise its records |
| Monitor.AddSession | sudodog/monitor.py:189-203 | exactly one record is appended, after the existing ones |
| Monitor.Without | sudodog/monitor.py:211 | the kept records are an in-order subsequence, holding exactly the records of other sessions |
| Monitor.RemoveSession | sudodog/monitor.py:205-214 | every record of the session is dropped and the others keep their order |
| Monitor.WithoutAbsent | sudodog/monitor.py:211 | removing an unregistered id changes nothing |
| Monitor.WithoutAppend | sudodog/monitor.py:211 | removal distributes over concatenation |
| Monitor.AddThenRemove | sudodog/monitor.py:189-214 | adding a new session and removing it restores the registry |
| DockerSandbox.NewDockerSandbox | sudodog/docker_sandbox.py:20-51 | a new handle has no container, the options are kept, and a missing domain list becomes `[]` |
| DockerSandbox.Trunc | sudodog/docker_sandbox.py:116 | `int()` truncates toward zero |
| DockerSandbox.ContainerConfigOf | sudodog/docker_sandbox.py:70-117 | the network is `bridge` with `NET_BIND_SERVICE` iff enabled, else `none` with no added capability; all capabilities are dropped with no new privileges; the labels, environment and bind mount are fixed; the memory limit is present iff truthy, and the CPU quota iff truthy, with period 100000 and quota the truncation of the exact product of the limit and 100000 |
| DockerSandbox.ConfigRoundTrip | sudodog/docker_sandbox.py:85-113 | the session, image, network setting, memory limit and command can be read back from the configuration |
| DockerSandbox.NetworkAndCapabilitiesAgree | sudodog/docker_sandbox.py:71-94 | no network iff no added capability, and the only capability ever added is binding low ports |
| DockerSandbox.CpuQuotaBounds | sudodog/docker_sandbox.py:115-117 | a CPU limit of 0 sets nothing; a positive limit gives a quota within one microsecond below the exact product of the limit and the period |
| DockerSandbox.CreateContainer | sudodog/docker_sandbox.py:133-143 | a created container's id is kept shortened to 12 characters; an engine failure leaves the handle unchanged |
| DockerSandbox.Start | sudodog/docker_sandbox.py:145-152 | refused exactly when no container exists |
| DockerSandbox.Wait | sudodog/docker_sandbox.py:154-187 | refused exactly when no container exists; an engine failure becomes exit code -1 with the error as output, and is not raised |
| DockerSandbox.Stop | sudodog/docker_sandbox.py:189-197 | one stop request iff there is a container |
| DockerSandbox.Cleanup | sudodog/docker_sandbox.py:199-207 | one forced removal iff there is a container |
| DockerSandbox.Exit | sudodog/docker_sandbox.py:244-247 | leaving the context stops with timeout 10 and then removes |
| DockerSandbox.GetStats | sudodog/docker_sandbox.py:209-238 | a sample is reported iff there is a container and the engine answers |
| DockerSandbox.LifecycleGuards | sudodog/docker_sandbox.py:145-247 | before creation nothing can start or wait and exit asks nothing; after creation start and wait go through and exit stops and removes |
| HttpInterceptor.NewInterceptor | sudodog/http_interceptor.py:16-19 | the log directory defaults to `~/.sudodog/logs` and the file is `<session>_http.jsonl` in it |
| HttpInterceptor.FirstProvider | sudodog/http_interceptor.py:48-53 | the found provider matches and no earlier one does; none found means none matches |
| HttpInterceptor.DetectProvider | sudodog/http_interceptor.py:48-53 | `unknown` iff no pattern matches; otherwise the name of the first matching provider in declaration order |
| HttpInterceptor.RedactHeaders | sudodog/http_interceptor.py:55-66 | the same header names; a value is `[REDACTED]` iff its name is sensitive in lower case, else unchanged |
| HttpInterceptor.RedactHeadersIdempotent | sudodog/http_interceptor.py:55-66 | redacting twice equals redacting once |
| HttpInterceptor.RedactHeadersFixedPoints | sudodog/http_interceptor.py:55-66 | a header set is unchanged iff every sensitive value already reads `[REDACTED]` |
| HttpInterceptor.RedactBody | sudodog/http_interceptor.py:68-77 | an empty body is kept; otherwise the five substitutions are applied in list order |
| HttpInterceptor.RedactWithClean | sudodog/http_interceptor.py:73-75 | rules that match nothing change nothing |
| HttpInterceptor.CleanBodyUnchanged | sudodog/http_interceptor.py:68-77 | a body no pattern matches is logged unredacted |
| HttpInterceptor.TruncateBody | sudodog/http_interceptor.py:79-84 | a short body is kept; a long one keeps exactly its first `max_length` characters followed by the note naming how many were cut |
| HttpInterceptor.TruncationNoteInjective | sudodog/http_interceptor.py:84 | the note determines the number it names |
| HttpInterceptor.TruncationKeepsSize | sudodog/http_interceptor.py:79-84 | equal truncated bodies had equal lengths and equal beginnings |
| HttpInterceptor.LogRequest | sudodog/http_interceptor.py:86-118 | the request id is the given one or the clock; the method is upper-cased, the provider detected, the headers redacted, the body redacted then truncated |
| HttpInterceptor.LogResponse | sudodog/http_interceptor.py:120-141 | status, duration and error are kept; the headers are redacted and the body redacted then truncated |
| HttpInterceptor.LoggedEntryHidesSecrets | sudodog/http_interceptor.py:103-113 | no logged header shows a sensitive value, and a short clean body is logged as given |
| HttpInterceptor.CountLine | sudodog/http_interceptor.py:164-185 | for the field types the model holds, one line raises iff it is a non-object or has no `type` key; an undecodable line, `"type": null` or any other type leaves the statistics unchanged; a request is counted under its provider, under `None` for `"provider": null` and under `unknown` when the key is absent |
| HttpInterceptor.NullTypeSkipped | sudodog/http_interceptor.py:167-172 | an object whose `type` is `null` is skipped, while the same object without the key raises |
| HttpInterceptor.NullProviderCounted | sudodog/http_interceptor.py:168-170 | a request with `"provider": null` adds the key `None`; one without the key adds `unknown` |
| HttpInterceptor.CountLines | sudodog/http_interceptor.py:162-185 | for the field types the model holds, the loop raises iff some line is a non-object or has no `type` key; otherwise it adds the number of request lines to the total |
| HttpInterceptor.CountLinesInvariant | sudodog/http_interceptor.py:162-185 | for the field types the model holds, the loop fails iff some line is a non-object or has no `type` key; otherwise it counts every request once in total and once per provider key, never counts status 0, and counts one error per failed response |
| HttpInterceptor.CountLineKeeps | sudodog/http_interceptor.py:167-182 | a request adds one to the total and to its provider, a failed response adds one error, and status 0 is never counted |
| HttpInterceptor.GetStats | sudodog/http_interceptor.py:143-187 | no file gives zero statistics; otherwise, for the field types the model holds, it raises iff a line is a non-object or has no `type` key, the total is the number of request lines, the provider counts sum to it, status 0 is never a key, and the errors are the responses with an error text or a status of 400 and above |
| HttpInterceptor.UndecodableSkipped | sudodog/http_interceptor.py:184-185 | an undecodable line anywhere changes nothing |
| HttpInterceptor.StatsOfWrittenLog | sudodog/http_interceptor.py:143-187 | reading back a log the interceptor wrote never raises and counts exactly the logged requests |
| HttpInterceptor.WrittenRequestsCounted | sudodog/http_interceptor.py:167-168 | the request lines of a written log are the logged request entries |
| SecretManager.ValidateSecretName | sudodog/secret_manager.py:48-65 | valid iff 2 to 64 characters, an upper-case first letter, and only upper-case letters, digits and `_` |
| SecretManager.RejectedNames | sudodog/secret_manager.py:54-63 | one-character names and names starting with a digit or `_` are refused |
| SecretManager.ValidateSecretValue | sudodog/secret_manager.py:67-80 | valid iff 1 to 4096 characters with no newline and no NUL |
| SecretManager.LoadSecrets | sudodog/secret_manager.py:82-108 | an unreadable file raises and a non-object is refused with its message; otherwise an entry is kept iff its name and stringified value validate, in file order |
| SecretManager.KeepAcceptedSnoc | sudodog/secret_manager.py:92-101 | the reference filter treats a new last entry the way the loop does |
| SecretManager.KeepAcceptedMeaning | sudodog/secret_manager.py:92-101 | the filter keeps only valid entries, every accepted entry, in order |
| SecretManager.UnlistedNameNotKept | sudodog/secret_manager.py:92-101 | a name absent from the file is never loaded |
| SecretManager.InjectSecrets | sudodog/secret_manager.py:110-127 | one `NAME=value` string per secret, in order |
| SecretManager.ValidNameHasNoEquals | sudodog/secret_manager.py:54-55 | a valid name contains no `=` |
| SecretManager.EnvStringRoundTrip | sudodog/secret_manager.py:118 | splitting `NAME=value` at its first `=` gives the name and value back, whatever the value holds |
| SecretManager.InjectRoundTrip | sudodog/secret_manager.py:115-127 | injected secrets with valid names can be read back exactly |
| SecretManager.MaskSecret | sudodog/secret_manager.py:129-134 | the length is kept; a short value is all `*`; otherwise the first `show_chars` characters are kept and the rest become `*` |
| SecretManager.MaskIdempotent | sudodog/secret_manager.py:129-134 | masking twice equals masking once |
| SecretManager.MaskRevealsOnlyPrefix | sudodog/secret_manager.py:129-134 | values of equal length with the same visible prefix are masked alike |
| RateLimiter.LoadLimitsConfig | sudodog/rate_limiter.py:73-86 | a stored configuration is used as is; without one, no custom limits and thresholds 0.8 and 0.95 |
| RateLimiter.TableFor | sudodog/rate_limiter.py:97-112 | a custom table wins over the built-in one; an unknown provider has none |
| RateLimiter.ChooseModel | sudodog/rate_limiter.py:100-109 | a given, listed model gets its own limits, else `default`, else none |
| RateLimiter.GetProviderLimits | sudodog/rate_limiter.py:93-112 | the lower-cased provider selects the custom table, else the built-in one, else nothing; the model is chosen within it |
| RateLimiter.LookupIgnoresCase | sudodog/rate_limiter.py:95 | names equal up to ASCII case give the same limits |
| RateLimiter.CustomOverridesBuiltIn | sudodog/rate_limiter.py:97-102 | a custom table hides the built-in one, model entries included |
| RateLimiter.FreshConfigUsesBuiltIn | sudodog/rate_limiter.py:104-109 | with no configuration `gpt-4` gets 500 rpm and an unlisted model the provider default |
| RateLimiter.FreshConfigDefaults | sudodog/rate_limiter.py:104-112 | with no configuration `google` gets 1500 rpd and an unknown provider nothing |
| RateLimiter.WindowOf | sudodog/rate_limiter.py:139-150 | minute reads `rpm` over 60 s, hour reads `tpm` over 3600 s, day reads `rpd` over 86400 s, and anything else raises `ValueError` |
| RateLimiter.CountUsage | sudodog/rate_limiter.py:152-185 | the loop raises iff some line of the provider lacks a timestamp, or lacks a type inside the window; otherwise it counts the provider's requests and response tokens inside the window |
| RateLimiter.CountUsageAppend | sudodog/rate_limiter.py:156-185 | counting two batches adds their counts |
| RateLimiter.CountUsageOrderFree | sudodog/rate_limiter.py:156 | the order in which log files are found does not matter |
| RateLimiter.UsagePercent | sudodog/rate_limiter.py:192 | the percentage times the limit is 100 times the requests; 0 without a positive limit |
| RateLimiter.Remaining | sudodog/rate_limiter.py:210 | present iff the limit is positive; never negative; 0 iff the limit is reached; otherwise limit minus requests |
| RateLimiter.Classify | sudodog/rate_limiter.py:194-199 | critical iff at or above the critical threshold; warning iff between the thresholds; none below both |
| RateLimiter.ClassifyMonotone | sudodog/rate_limiter.py:194-199 | more usage never lowers the warning level |
| RateLimiter.ProviderName | sudodog/rate_limiter.py:203 | an unlisted provider is shown under its own name |
| RateLimiter.AnalyzeUsage | sudodog/rate_limiter.py:114-211 | without a log directory, the short answer, without checking the window; with one, an invalid window raises, and otherwise the report counts the window's lines against the provider's limit under the window's key and the configured thresholds |
| RateLimiter.UsageFor | sudodog/rate_limiter.py:152-211 | raises iff a line raises; otherwise the report holds the requests and tokens inside the window, a percentage proportional to the limit and the remaining count; it is critical at or above the critical threshold, a warning from the warning threshold up to the critical one, and has no warning below both |
| RateLimiter.MakeReport | sudodog/rate_limiter.py:187-211 | the percentage is proportional to the requests for a positive limit and 0 otherwise; the remaining count is the limit minus the requests, floored at 0, or absent without a limit; critical at or above the critical threshold, a warning from the warning threshold up to the critical one, none below both |
| RateLimiter.ExhaustedIsCritical | sudodog/rate_limiter.py:192-210 | once the limit is reached nothing remains and the report is critical, for any critical threshold up to 100% |
| RateLimiter.RemainingAgreesWithPercent | sudodog/rate_limiter.py:192-210 | nothing remains exactly when the percentage reaches 100 |
| RateLimiter.SetCustomLimit | sudodog/rate_limiter.py:272-281 | raises iff the provider exists without a `default` table; otherwise only `custom[provider]['default'][limit_type]` changes, missing levels are created, and thresholds and all other entries stay |
| RateLimiter.SetThenGet | sudodog/rate_limiter.py:272-281 | a limit set under a lower-case name is what the lookup then returns |
| RateLimiter.MixedCaseLimitIgnored | sudodog/rate_limiter.py:272-281 | a limit set for `OpenAI` is stored but the lookup still answers 500 rpm |
| RateLimiter.SetCustomLimitIntended | sudodog/rate_limiter.py:272-281 | the corrected setter stores the limit under the lower-cased name and leaves other providers unchanged |
| RateLimiter.IntendedSetThenGet | sudodog/rate_limiter.py:272-281 | with the corrected setter every spelling of the provider finds the limit |
| RateLimiter.Reports | sudodog/rate_limiter.py:233-238 | one minute report per provider, in order; fails iff some provider's report fails |
| RateLimiter.Busy | sudodog/rate_limiter.py:237-238 | exactly the reports with at least one request |
| RateLimiter.Insert | sudodog/rate_limiter.py:240 | inserting keeps the list sorted largest first and adds exactly one element |
| RateLimiter.SortBy | sudodog/rate_limiter.py:240 | the result is a permutation sorted largest first |
| RateLimiter.GetAllUsage | sudodog/rate_limiter.py:213-240 | no log directory gives `[]`; it fails iff some used provider's report fails; otherwise it holds a provider's minute report iff the provider is seen in the logs and made a request, no provider twice, sorted by percentage descending |
| RateLimiter.ListedProvider | sudodog/rate_limiter.py:233-240 | every provider seen has a report, kept iff it is busy |
| RateLimiter.SortedReport | sudodog/rate_limiter.py:233-240 | every kept report is the busy minute report of a provider seen in the logs |
| DecisionTracker.Cap | sudodog/ai_decision_tracker.py:120-121 | no cap for `None` or 0; a positive limit caps at itself; a negative limit stops after one decision |
| DecisionTracker.GetDecisions | sudodog/ai_decision_tracker.py:93-130 | no file gives `[]`; reaching a non-object under a filter before the cap gives `[]`; otherwise the first matches up to the cap, each passing the filters, in file order |
| DecisionTracker.TakeMeaning | sudodog/ai_decision_tracker.py:113-121 | the capped matches pass the filters and are an in-order subsequence of the decoded values |
| DecisionTracker.MatchingAppend | sudodog/ai_decision_tracker.py:105-118 | filtering distributes over concatenation |
| DecisionTracker.StopAfter | sudodog/ai_decision_tracker.py:120-121 | once the cap is met no later line is read, so a later fault does not matter |
| DecisionTracker.MatchingMeaning | sudodog/ai_decision_tracker.py:105-118 | the matches are decoded values in file order, each passing the filters |
| DecisionTracker.Matching | sudodog/ai_decision_tracker.py:105-118 | every decoded value that passes the filters is among the matches, and there are no more matches than lines |
| DecisionTracker.DecodedValues | sudodog/ai_decision_tracker.py:105-124 | a value is kept iff some line of the file decodes to it; undecodable lines are skipped |
| DecisionTracker.DecodedValuesAppend | sudodog/ai_decision_tracker.py:105-124 | the values of two runs of lines read one after the other are those of the first followed by those of the second, so the values keep file order |
| DecisionTracker.UnfilteredIsEverything | sudodog/ai_decision_tracker.py:93-126 | without filters or limit every decoded value is returned and nothing raises |
| DecisionTracker.ScanForIdMeaning | sudodog/ai_decision_tracker.py:135-138 | nothing is found iff all decisions are objects without the id; a find is the first decision with the id; it raises iff a non-object comes first |
| DecisionTracker.ScanForId | sudodog/ai_decision_tracker.py:135-138 | a find is one of the decisions and carries the id; an error needs a non-object among them; with objects only nothing raises |
| DecisionTracker.GetDecisionById | sudodog/ai_decision_tracker.py:132-138 | no file finds nothing; otherwise the first decision with the id, nothing, or the error of an earlier non-object |
| DecisionTracker.FoundStaysFound | sudodog/ai_decision_tracker.py:135-137 | decisions appended later do not change what an id finds |
| DecisionTracker.Breakdown | sudodog/ai_decision_tracker.py:166-180 | each value's count is the number of decisions with that value (`unknown` when absent); counts are positive and sum to the number of decisions |
| DecisionTracker.GetStatistics | sudodog/ai_decision_tracker.py:140-193 | no decisions gives zero statistics; it raises iff some decision is a non-object, has an unhashable risk level, action or model, or has a truthy number or boolean prompt or response; otherwise the total is the decision count and each breakdown counts every decision once |
| DecisionTracker.TallyHits | sudodog/ai_decision_tracker.py:226-229 | each listed keyword hit counts once more, and nothing else changes |
| DecisionTracker.HighRiskList | sudodog/ai_decision_tracker.py:207-213 | as many entries as high-risk decisions; the k-th entry is taken from the k-th high-risk decision in input order |
| DecisionTracker.Where | sudodog/ai_decision_tracker.py:206-222 | the positions of the decisions whose field holds the given string: each such position exactly once, in increasing order |
| DecisionTracker.BlockedList | sudodog/ai_decision_tracker.py:215-220 | as many entries as blocked decisions; the k-th entry is taken from the k-th blocked decision in input order |
| DecisionTracker.ReasoningTally | sudodog/ai_decision_tracker.py:222-229 | a keyword appears iff some reasoning mentions it, with the number of decisions that do |
| DecisionTracker.KeywordsDistinct | sudodog/ai_decision_tracker.py:226 | the keyword list has no duplicates |
| DecisionTracker.AnalyzePatterns | sudodog/ai_decision_tracker.py:195-231 | raises iff some decision is a non-object or has a truthy non-string reasoning; otherwise the k-th high-risk and the k-th blocked entry come from the k-th such decision in input order, and the keyword tally counts the decisions that mention each keyword |
| DecisionTracker.PatternsAgreeWithStatistics | sudodog/ai_decision_tracker.py:206-220 | there are as many high-risk and blocked entries as the statistics count under `high` and `blocked` |
| DecisionTracker.UnsafeCountsAsSafe | sudodog/ai_decision_tracker.py:226-227 | keywords are substrings, so a reasoning of `Unsafe` counts as `safe` |

## Left out

- Process launch and inspection (`Popen`, `communicate`, `psutil`), `run_sandboxed` and `check_sandbox_support`: what they return is a model input (`Monitor.Execution`), and the sandbox side is only the argument vector.
- Docker engine calls and `DockerSandboxManager`: the engine's answers are parameters. The float CPU and memory percentages of `get_stats` are a given sample.
- Real regular-expression semantics: `Re.Search` and `Re.Substitute` are parameters. Redaction lemmas assume only that a substitution which finds no match changes nothing.
- `os.path.expanduser` reads no environment: the home directory is a parameter, and `~user` forms are left unchanged.
- `glob` order and Python set iteration order are parameters. The usage counts are proved independent of file order.
- DockerSandbox.ContainerConfigOf: the CPU limit is an exact real, and the rounding of the floating-point product `cpu_limit * 100000` to the nearest double before `int()` truncates it is not modelled, so the source's quota may differ from the model's by one (0.7 gives 70000 in the source while its exact binary value gives 69999; the decimal 0.29 gives 29000 here and 28999 in the source).
- DockerSandbox.CpuQuotaBounds: the bound is stated for the exact product of the limit and 100000; the source's floating-point product can round across an integer, so its quota may lie one outside that bound.
- Floating-point rounding: percentages are exact `real` values, and `round(..., 1)` is not applied.
- RateLimiter.GetAllUsage: sorts by the exact percentage; the source sorts by the rounded one, so reports whose percentages round alike may come in a different order.
- `check_limit_warnings`, `get_usage_summary`, `reset_usage` and `_save_limits_config` (rate limiter): console and file plumbing.
- Rate-limiter lines that decode to something other than an object: each line is either undecodable or an object with the read fields.
- The body of a response is not parsed for `usage.total_tokens`: each line carries the tokens it adds.
- The decision tracker's average prompt and response lengths (floating point), `log_decision`, `generate_decision_id` (SHA-256 over a timestamp), and `export_report`.
- `escalation_trends` is always the empty list and is not part of the result.
- JSON numbers and booleans are opaque scalars. Python's equality of `1`, `1.0` and `True` as dictionary keys is not modelled.
- Character classes and case mapping are ASCII only. Python's `isupper`, `isdigit`, `isalpha` and `lower` also act on non-ASCII characters.
- The clock, the current directory, the home directory and the `USER` variable are parameters. Timestamps are not part of the log entries.
- `FileRollback.cleanup`, the unlocked read-modify-write of `sessions.json`, and the console output of every component.
- HTTP library patching (`patch_*`, `install_interceptor`), telemetry, the CLI and the daemon: plumbing outside the core.
- SecretManager.MaskSecret: for a negative `show_chars` the result is not stated; Python's negative slicing would keep a suffix-dependent prefix.
- HttpInterceptor.GetStats: the per-status counts and the summed duration are computed but not stated in the contract.
- UndoAll: its own contract states only the count bound and where errors come from; the newest-first order and each operation's effect are stated by `UndoOne`, `UndoAllNewestFirst`, `UndoAllAppend` and `UndoAllFrame`.
- DoRollback: the per-operation outcome is not restated in its contract; it is `UndoAll` over the selected operations, whose steps are stated as above.
- HttpInterceptor.CountLine: only the field types the model represents are covered: `type` and `provider` are strings or `null`, `status_code` an integer, `duration_ms` a number and `error` a string. The source raises on other values (a string `status_code` fails the `>= 400` comparison at http_interceptor.py:181, a string `duration_ms` fails the sum at :179, a list or object `status_code` is an unhashable key at :175), while the model cannot hold such values and so never raises for them; the same limit applies to CountLines, CountLinesInvariant and GetStats.

## Findings

| source | as written | input that shows it | evidently intended | confidence | as-written member | corrected member |
|---|---|---|---|---|---|---|
| sudodog/monitor.py:79 | the first value of `check_command`, which is the allowed flag, is bound to `should_block` | any command matching no dangerous pattern, e.g. `ls`: it is refused with no reason; `rm -rf /` is launched | refuse when the command is not allowed, as the comment on line 77 says | high, not executed | Monitor.SafeCommandIsBlocked | Monitor.IntendedGateStopsDangerous |
| sudodog/rate_limiter.py:272-281 | `set_custom_limit` stores the provider name as given, but `get_provider_limits` (line 95) looks it up lower-cased | `set_custom_limit("OpenAI", "rpm", 1000)`, then `get_provider_limits("OpenAI")` still gives 500 rpm | store the limit under the lower-cased name | high, not executed | RateLimiter.MixedCaseLimitIgnored | RateLimiter.IntendedSetThenGet |

=== FILE: blocker.dfy ===
/** The policy engine (`AgentBlocker`): allow/deny decisions for file reads, file writes and
    shell commands. Every check is a pure function of the home directory, the regex engine and
    the target string. */
module Blocker {
  import opened Wrappers
  import opened Text
  import opened Re

  type Path = string

  /** Sensitive files and directories, in declaration order. */
  const BlockedReadPaths: seq<string> := [
    "/etc/shadow",
    "/etc/passwd",
    "/etc/sudoers",
    "~/.ssh/id_rsa",
    "~/.ssh/id_ed25519",
    "~/.aws/credentials",
    "~/.config/gcloud/",
    ".env",
    ".env.local",
    ".env.production",
    "~/.docker/config.json",
    "~/.kube/config"
  ]

  /** Index of the one directory entry, `~/.config/gcloud/`. */
  const GcloudEntry: nat := 6

  /** System directories that may never be written. */
  const BlockedWritePaths: seq<string> := [
    "/etc/", "/usr/bin/", "/usr/sbin/", "/bin/", "/sbin/", "/boot/", "/sys/", "/proc/"
  ]

  /** Dangerous-command regular expressions, in declaration order. */
  const DangerousPatterns: seq<string> := [
    "DROP\\s+TABLE",
    "DROP\\s+DATABASE",
    "TRUNCATE\\s+TABLE",
    "DELETE\\s+FROM\\s+\\w+\\s*;?\\s*$",
    "rm\\s+-rf\\s+/",
    "rm\\s+-rf\\s+\\*",
    "sudo\\s+rm",
    "chmod\\s+777",
    "mkfs\\.",
    "dd\\s+if=",
    ":(){ :|:& };:",
    "curl.*pastebin",
    "wget.*pastebin"
  ]

  /** `(allowed, reason)` as returned by the file checks. */
  datatype Decision = Decision(allowed: bool, reason: Option<string>)

  /** `(allowed, reason, matched_patterns)` as returned by `check_command`. */
  datatype CommandDecision = CommandDecision(allowed: bool, reason: Option<string>, matched: seq<string>)

  /** The three reasons a read can be refused. */
  datatype ReadClass = SensitiveFile | SensitiveDirectory | SensitivePattern

  /** `os.path.expanduser` for the current user: `~` and `~/...` are replaced by the home
      directory with its trailing slashes removed; an empty result becomes `/`. */
  function ExpandUser(home: string, p: Path): (r: Path)
    ensures !(p == "~" || StartsWith(p, "~/")) ==> r == p
    ensures StartsWith(p, "~/") ==> r == RStrip(home, '/') + p[1..]
    ensures p == "~" ==> r == (if RStrip(home, '/') == "" then "/" else RStrip(home, '/'))
  {
    if p == "~" || StartsWith(p, "~/") then
      var e := RStrip(home, '/') + p[1..];
      if e == "" then "/" else e
    else p
  }

  /** A glob entry turned into a regular expression: every `*` becomes `.*`. */
  function GlobToRegex(entry: string): (r: string)
    ensures '*' !in entry ==> r == entry
    ensures |entry| == 1 ==> r == (if entry[0] == '*' then ".*" else entry)
  {
    if |entry| == 0 then ""
    else (if entry[0] == '*' then ".*" else [entry[0]]) + GlobToRegex(entry[1..])
  }

  /** The translation works character by character: it distributes over concatenation, so
      with the one-character cases every `*` becomes `.*` and everything else stays. */
  lemma {:induction false} GlobToRegexAppend(a: string, b: string)
    ensures GlobToRegex(a + b) == GlobToRegex(a) + GlobToRegex(b)
    decreases |a|
  {
    if |a| > 0 {
      assert (a + b)[0] == a[0];
      assert (a + b)[1..] == a[1..] + b;
      GlobToRegexAppend(a[1..], b);
    } else {
      assert a + b == b;
    }
  }

  function ReadMessage(path: Path, c: ReadClass): string {
    "Access to " + path + " is blocked " +
    match c
    case SensitiveFile => "(sensitive file)"
    case SensitiveDirectory => "(sensitive directory)"
    case SensitivePattern => "(matches sensitive pattern)"
  }

  /** What one entry of the read list says about `path`: the three tests in source order. */
  function EntryVerdict(home: string, search: Search, path: Path, entry: string): (v: Option<ReadClass>)
    ensures v == Some(SensitiveFile) <==> ExpandUser(home, path) == ExpandUser(home, entry)
    ensures v == Some(SensitiveDirectory) ==> EndsWith(ExpandUser(home, entry), "/") && StartsWith(ExpandUser(home, path), ExpandUser(home, entry))
    ensures v == Some(SensitiveDirectory) ==> |ExpandUser(home, path)| > |ExpandUser(home, entry)|
    ensures v == Some(SensitivePattern) ==> '*' in entry && search(Pattern(GlobToRegex(entry), false), path)
    ensures v.None? ==> (!EndsWith(ExpandUser(home, entry), "/") || !StartsWith(ExpandUser(home, path), ExpandUser(home, entry)))
    ensures v.None? ==> ('*' !in entry || !search(Pattern(GlobToRegex(entry), false), path))
  {
    var expanded := ExpandUser(home, path);
    var blocked := ExpandUser(home, entry);
    if expanded == blocked then Some(SensitiveFile)
    else if EndsWith(blocked, "/") && StartsWith(expanded, blocked) then Some(SensitiveDirectory)
    else if '*' in entry && search(Pattern(GlobToRegex(entry), false), path) then Some(SensitivePattern)
    else None
  }

  /** The first verdict of a scan, or `None` when no entry has one. */
  function FirstVerdict<T>(vs: seq<Option<T>>): (r: Option<T>)
    ensures r.None? <==> forall i :: 0 <= i < |vs| ==> vs[i].None?
  {
    if |vs| == 0 then None
    else if vs[0].Some? then vs[0]
    else
      assert forall i :: 1 <= i < |vs| ==> vs[i] == vs[1..][i - 1];
      FirstVerdict(vs[1..])
  }

  /** The verdict at `i` decides the scan when every earlier verdict is `None`. */
  lemma {:induction false} FirstVerdictAt<T>(vs: seq<Option<T>>, i: nat)
    requires i < |vs| && vs[i].Some?
    requires forall j :: 0 <= j < i ==> vs[j].None?
    ensures FirstVerdict(vs) == vs[i]
  {
    if i > 0 {
      assert vs[0].None?;
      assert forall j :: 0 <= j < i - 1 ==> vs[1..][j] == vs[j + 1];
      FirstVerdictAt(vs[1..], i - 1);
    }
  }

  /** A scan that has a verdict has a first deciding position. */
  lemma {:induction false} FirstVerdictIndex<T>(vs: seq<Option<T>>) returns (i: nat)
    requires FirstVerdict(vs).Some?
    ensures i < |vs| && vs[i].Some? && FirstVerdict(vs) == vs[i]
    ensures forall j :: 0 <= j < i ==> vs[j].None?
  {
    if vs[0].Some? {
      i := 0;
    } else {
      var k := FirstVerdictIndex(vs[1..]);
      i := k + 1;
      assert forall j :: 1 <= j < i ==> vs[j] == vs[1..][j - 1];
    }
  }

  /** The verdict of every read entry on `path`, in declaration order. */
  function ReadVerdicts(home: string, search: Search, path: Path): (vs: seq<Option<ReadClass>>)
    ensures |vs| == |BlockedReadPaths|
    ensures forall i :: 0 <= i < |vs| ==> vs[i] == EntryVerdict(home, search, path, BlockedReadPaths[i])
  {
    seq(|BlockedReadPaths|, i requires 0 <= i < |BlockedReadPaths| => EntryVerdict(home, search, path, BlockedReadPaths[i]))
  }

  /** `check_file_read`: the entries are tried in declaration order and the first one with a
      verdict refuses the read, naming its class; a read no entry refuses is allowed. */
  function CheckFileRead(home: string, search: Search, path: Path): (d: Decision)
    ensures d.allowed <==> forall i :: 0 <= i < |BlockedReadPaths| ==> EntryVerdict(home, search, path, BlockedReadPaths[i]).None?
    ensures d.allowed <==> d.reason == None
    ensures !d.allowed ==> d.reason == Some(ReadMessage(path, FirstVerdict(ReadVerdicts(home, search, path)).value))
  {
    match FirstVerdict(ReadVerdicts(home, search, path))
    case None => Decision(true, None)
    case Some(c) => Decision(false, Some(ReadMessage(path, c)))
  }

  /** `check_file_write`: refused iff the expanded path starts with a system-directory prefix. */
  function CheckFileWrite(home: string, path: Path): (d: Decision)
    ensures !d.allowed <==> exists i :: 0 <= i < |BlockedWritePaths| && StartsWith(ExpandUser(home, path), BlockedWritePaths[i])
    ensures d.reason == if d.allowed then None else Some("Write to " + path + " is blocked (system directory)")
  {
    var expanded := ExpandUser(home, path);
    if exists i :: 0 <= i < |BlockedWritePaths| && StartsWith(expanded, BlockedWritePaths[i]) then
      Decision(false, Some("Write to " + path + " is blocked (system directory)"))
    else Decision(true, None)
  }

  /** The write check compares prefixes with their trailing `/`: `/etc` itself and
      `/usr/local/bin/...` are writable, while anything under a listed directory is refused. */
  lemma WritePrefixBoundaries(home: string)
    ensures CheckFileWrite(home, "/etc").allowed
    ensures CheckFileWrite(home, "/usr/local/bin/x").allowed
    ensures forall i, s :: 0 <= i < |BlockedWritePaths| ==> !CheckFileWrite(home, BlockedWritePaths[i] + s).allowed
  {
    forall i, s | 0 <= i < |BlockedWritePaths|
      ensures !CheckFileWrite(home, BlockedWritePaths[i] + s).allowed
    {
      var p := BlockedWritePaths[i] + s;
      AbsoluteUnexpanded(home, p);
      assert p[..|BlockedWritePaths[i]|] == BlockedWritePaths[i];
    }
    var x := "/usr/local/bin/x";
    AbsoluteUnexpanded(home, x);
    forall i | 0 <= i < |BlockedWritePaths| ensures !StartsWith(x, BlockedWritePaths[i]) {
      var b := BlockedWritePaths[i];
      if |b| <= |x| {
        assert x[..|b|] != b by {
          if i == 0 { assert x[1] != b[1]; }
          else if i == 1 { assert x[5] != b[5]; }
          else if i == 2 { assert x[5] != b[5]; }
          else if i == 3 { assert x[1] != b[1]; }
          else if i == 4 { assert x[1] != b[1]; }
          else if i == 5 { assert x[1] != b[1]; }
          else if i == 6 { assert x[2] != b[2]; }
          else { assert x[1] != b[1]; }
        }
      }
    }
    AbsoluteUnexpanded(home, "/etc");
  }

  /** An absolute path is not expanded. */
  lemma AbsoluteUnexpanded(home: string, p: Path)
    requires |p| > 0 && p[0] == '/'
    ensures ExpandUser(home, p) == p
  {
  }

  /** The loop of `check_command`: every pattern that the command matches, in list order. */
  function MatchedPatterns(search: Search, command: string, patterns: seq<string>): (m: seq<string>)
    ensures IsSubsequence(m, patterns)
    ensures forall p :: p in m <==> p in patterns && search(Pattern(p, true), command)
    ensures |m| == 0 <==> forall i :: 0 <= i < |patterns| ==> !search(Pattern(patterns[i], true), command)
  {
    if |patterns| == 0 then []
    else
      var rest := MatchedPatterns(search, command, patterns[1..]);
      assert forall i :: 1 <= i < |patterns| ==> patterns[i] == patterns[1..][i - 1];
      if search(Pattern(patterns[0], true), command) then [patterns[0]] + rest else rest
  }

  function CommandReason(matched: seq<string>): string
    requires |matched| > 0
  {
    "Command contains dangerous patterns: " + Join(", ", PyTake(matched, 2))
  }

  /** `check_command`: every dangerous pattern is tried, case-insensitively, against the raw
      command; the command is allowed iff none matches. */
  function CheckCommand(search: Search, command: string): (d: CommandDecision)
    ensures IsSubsequence(d.matched, DangerousPatterns)
    ensures forall p :: p in d.matched <==> p in DangerousPatterns && search(Pattern(p, true), command)
    ensures d.allowed <==> forall i :: 0 <= i < |DangerousPatterns| ==> !search(Pattern(DangerousPatterns[i], true), command)
    ensures d.allowed <==> d.matched == []
    ensures d.allowed ==> d.reason == None
    ensures !d.allowed ==> d.reason == Some(CommandReason(d.matched))
  {
    var matched := MatchedPatterns(search, command, DangerousPatterns);
    if |matched| > 0 then CommandDecision(false, Some(CommandReason(matched)), matched)
    else CommandDecision(true, None, [])
  }

  /** `should_block`: `(block, reason)` for a named action kind; unknown kinds are let through. */
  function ShouldBlock(home: string, search: Search, actionType: string, target: string): (r: (bool, Option<string>))
    ensures actionType == "file_read" ==>
      r == (!CheckFileRead(home, search, target).allowed, CheckFileRead(home, search, target).reason)
    ensures actionType == "file_write" ==>
      r == (!CheckFileWrite(home, target).allowed, CheckFileWrite(home, target).reason)
    ensures actionType == "command" ==>
      r == (!CheckCommand(search, target).allowed, CheckCommand(search, target).reason)
    ensures actionType !in {"file_read", "file_write", "command"} ==> r == (false, None)
    ensures r.0 <==> r.1.Some?
  {
    if actionType == "file_read" then
      var d := CheckFileRead(home, search, target);
      (!d.allowed, d.reason)
    else if actionType == "file_write" then
      var d := CheckFileWrite(home, target);
      (!d.allowed, d.reason)
    else if actionType == "command" then
      var d := CheckCommand(search, target);
      (!d.allowed, d.reason)
    else (false, None)
  }

  lemma NoGlobEntries()
    ensures forall i :: 0 <= i < |BlockedReadPaths| ==> '*' !in BlockedReadPaths[i]
  {
  }

  /** An entry without `*` never refuses by pattern. */
  lemma PlainEntryNeverPattern(home: string, search: Search, path: Path, entry: string)
    requires '*' !in entry
    ensures EntryVerdict(home, search, path, entry) != Some(SensitivePattern)
  {
  }

  /** The three refusal messages for one path are pairwise distinct. */
  lemma ReadMessagesDistinct(path: Path, c: ReadClass, c': ReadClass)
    requires c != c'
    ensures ReadMessage(path, c) != ReadMessage(path, c')
  {
  }

  /** No shipped read entry contains `*`, so the "sensitive pattern" refusal can never be given. */
  lemma GlobBranchUnreachable(home: string, search: Search, path: Path)
    ensures forall i :: 0 <= i < |BlockedReadPaths| ==> EntryVerdict(home, search, path, BlockedReadPaths[i]) != Some(SensitivePattern)
    ensures CheckFileRead(home, search, path).reason != Some(ReadMessage(path, SensitivePattern))
  {
    NoGlobEntries();
    forall i | 0 <= i < |BlockedReadPaths|
      ensures EntryVerdict(home, search, path, BlockedReadPaths[i]) != Some(SensitivePattern)
    {
      PlainEntryNeverPattern(home, search, path, BlockedReadPaths[i]);
    }
    var vs := ReadVerdicts(home, search, path);
    if !CheckFileRead(home, search, path).allowed {
      var i := FirstVerdictIndex(vs);
      ReadMessagesDistinct(path, vs[i].value, SensitivePattern);
    }
  }

  /** The last character of a concatenation with a non-empty right part. */
  lemma LastOfConcat(a: string, b: string)
    requires |b| > 0
    ensures (a + b)[|a + b| - 1] == b[|b| - 1]
  {
  }

  /** For every home directory, `~/.config/gcloud/` is the only read entry whose expansion ends
      in `/`, so it is the only one that refuses a whole directory. */
  lemma OnlyGcloudIsDirectory(home: string)
    ensures forall i :: 0 <= i < |BlockedReadPaths| ==>
      (EndsWith(ExpandUser(home, BlockedReadPaths[i]), "/") <==> i == GcloudEntry)
  {
    var h := RStrip(home, '/');
    forall i | 0 <= i < |BlockedReadPaths|
      ensures EndsWith(ExpandUser(home, BlockedReadPaths[i]), "/") <==> i == GcloudEntry
    {
      var e := BlockedReadPaths[i];
      if StartsWith(e, "~/") {
        LastOfConcat(h, e[1..]);
        assert ExpandUser(home, e) == h + e[1..];
      }
    }
  }

  /** The expansion of `~/.config/gcloud/`. */
  function GcloudDir(home: string): string {
    RStrip(home, '/') + "/.config/gcloud/"
  }

  /** An entry that neither equals the expanded path, nor is a directory, nor a glob has no
      verdict. */
  lemma NoVerdict(home: string, search: Search, path: Path, entry: string)
    requires ExpandUser(home, path) != ExpandUser(home, entry)
    requires !EndsWith(ExpandUser(home, entry), "/")
    requires '*' !in entry
    ensures EntryVerdict(home, search, path, entry) == None
  {
  }

  /** Nothing inside `~/.config/gcloud/` is one of the six entries listed before it. */
  lemma InsideGcloudIsNoEarlierEntry(home: string, e: Path, j: nat)
    requires StartsWith(e, GcloudDir(home))
    requires j < GcloudEntry
    ensures e != ExpandUser(home, BlockedReadPaths[j])
  {
    var h := RStrip(home, '/');
    var b := ExpandUser(home, BlockedReadPaths[j]);
    assert e[|h| + 2] == GcloudDir(home)[|h| + 2] == 'c';
    if j >= 3 {
      assert b == h + BlockedReadPaths[j][1..];
      assert b[|h| + 2] == BlockedReadPaths[j][3];
    }
  }

  /** Every path that expands to something strictly inside `~/.config/gcloud/` is refused as a
      sensitive directory: no earlier entry can claim it first. */
  lemma GcloudDirectoryDenied(home: string, search: Search, path: Path)
    requires StartsWith(ExpandUser(home, path), GcloudDir(home))
    requires ExpandUser(home, path) != GcloudDir(home)
    ensures CheckFileRead(home, search, path) == Decision(false, Some(ReadMessage(path, SensitiveDirectory)))
  {
    var e := ExpandUser(home, path);
    assert ExpandUser(home, BlockedReadPaths[GcloudEntry]) == GcloudDir(home);
    NoGlobEntries();
    OnlyGcloudIsDirectory(home);
    var vs := ReadVerdicts(home, search, path);
    forall j | 0 <= j < GcloudEntry
      ensures vs[j].None?
    {
      InsideGcloudIsNoEarlierEntry(home, e, j);
      NoVerdict(home, search, path, BlockedReadPaths[j]);
    }
    assert vs[GcloudEntry] == Some(SensitiveDirectory);
    FirstVerdictAt(vs, GcloudEntry);
  }

  /** The entries listed after `~/.config/gcloud/` do not expand to paths inside it. */
  lemma LaterEntriesOutsideGcloud(home: string, k: nat)
    requires GcloudEntry < k < |BlockedReadPaths|
    ensures !StartsWith(ExpandUser(home, BlockedReadPaths[k]), GcloudDir(home))
  {
    var h := RStrip(home, '/');
    var b := ExpandUser(home, BlockedReadPaths[k]);
    if k >= 10 {
      assert b == h + BlockedReadPaths[k][1..];
      assert b[|h| + 2] == BlockedReadPaths[k][3] != 'c';
      assert GcloudDir(home)[|h| + 2] == 'c';
    }
  }

  /** An entry whose expansion equals the expanded path refuses it as a sensitive file. */
  lemma ExactVerdict(home: string, search: Search, path: Path, entry: string)
    requires ExpandUser(home, path) == ExpandUser(home, entry)
    ensures EntryVerdict(home, search, path, entry) == Some(SensitiveFile)
  {
  }

  /** What a directory verdict says about an entry and the path. */
  lemma DirectoryVerdictMeaning(home: string, search: Search, path: Path, entry: string)
    requires EntryVerdict(home, search, path, entry) == Some(SensitiveDirectory)
    ensures EndsWith(ExpandUser(home, entry), "/")
    ensures StartsWith(ExpandUser(home, path), ExpandUser(home, entry))
    ensures ExpandUser(home, path) != ExpandUser(home, entry)
  {
  }

  lemma GcloudEntryExpansion(home: string)
    ensures ExpandUser(home, BlockedReadPaths[GcloudEntry]) == GcloudDir(home)
  {
  }

  /** Only `~/.config/gcloud/` refuses by directory, and only for paths strictly inside it. */
  lemma DirectoryVerdictIsGcloud(home: string, search: Search, path: Path, i: nat)
    requires i < |BlockedReadPaths|
    ensures EntryVerdict(home, search, path, BlockedReadPaths[i]) == Some(SensitiveDirectory) ==>
      i == GcloudEntry && StartsWith(ExpandUser(home, path), GcloudDir(home)) && ExpandUser(home, path) != GcloudDir(home)
  {
    var entry := BlockedReadPaths[i];
    if EntryVerdict(home, search, path, entry) == Some(SensitiveDirectory) {
      DirectoryVerdictMeaning(home, search, path, entry);
      OnlyGcloudIsDirectory(home);
      GcloudEntryExpansion(home);
    }
  }

  /** No entry up to a listed entry that the path expands to refuses it as a directory. */
  lemma NoDirectoryVerdictBefore(home: string, search: Search, path: Path, k: nat, i: nat)
    requires i <= k < |BlockedReadPaths|
    requires ExpandUser(home, path) == ExpandUser(home, BlockedReadPaths[k])
    ensures EntryVerdict(home, search, path, BlockedReadPaths[i]) != Some(SensitiveDirectory)
  {
    if EntryVerdict(home, search, path, BlockedReadPaths[i]) == Some(SensitiveDirectory) {
      DirectoryVerdictIsGcloud(home, search, path, i);
      GcloudEntryExpansion(home);
      if GcloudEntry < k {
        LaterEntriesOutsideGcloud(home, k);
      }
      assert false;
    }
  }

  /** A path that expands to any listed entry is refused as a sensitive file, whatever the home
      directory: no earlier entry claims it under another class. */
  lemma ListedFileDenied(home: string, search: Search, path: Path, k: nat)
    requires k < |BlockedReadPaths|
    requires ExpandUser(home, path) == ExpandUser(home, BlockedReadPaths[k])
    ensures CheckFileRead(home, search, path) == Decision(false, Some(ReadMessage(path, SensitiveFile)))
  {
    var vs := ReadVerdicts(home, search, path);
    ExactVerdict(home, search, path, BlockedReadPaths[k]);
    assert vs[k] == Some(SensitiveFile);
    var i := FirstVerdictIndex(vs);
    assert i <= k;
    GlobBranchUnreachable(home, search, path);
    NoDirectoryVerdictBefore(home, search, path, k, i);
  }
}

=== FILE: decision_tracker.dfy ===
/** The reading side of the AI decision log (`AIDecisionTracker`): filtering the JSONL file,
    finding a decision by id, and the statistics and patterns computed over all decisions.
    Writing a decision (with its SHA-256 id and UTC timestamp) is not modelled. */
module DecisionTracker {
  import opened Wrappers
  import opened Text
  import opened Tally

  /** A field value of a decoded decision: JSON `null`, a string, a scalar (number or
      boolean, hashable), or a container (list or object, not hashable). `truthy` is Python's
      truth value of the scalar or container. */
  datatype JsonValue =
    | Null
    | Str(s: string)
    | Scalar(repr: string, truthy: bool)
    | Container(repr: string, truthy: bool)

  /** A decoded line: an object with its fields, or any other JSON value. */
  datatype Json = Object(fields: map<string, JsonValue>) | NonObject(repr: string)

  /** One line of the log file: blank (only white space), not valid JSON, or decoded. */
  datatype Line = Blank | Undecodable | Decoded(value: Json)

  /** `decision.get(key)`, where an absent key reads as `None` like JSON `null`. */
  function Get(v: Json, key: string): JsonValue {
    if v.Object? && key in v.fields then v.fields[key] else Null
  }

  /** `decision.get(key, 'unknown')`. */
  function GetOrUnknown(v: Json, key: string): JsonValue {
    if v.Object? && key in v.fields then v.fields[key] else Str("unknown")
  }

  /** `decision.get(key) == value` for a string `value`. */
  predicate FieldIs(v: Json, key: string, value: string) {
    v.Object? && key in v.fields && v.fields[key] == Str(value)
  }

  predicate Truthy(x: JsonValue) {
    match x
    case Null => false
    case Str(s) => s != ""
    case Scalar(_, t) => t
    case Container(_, t) => t
  }

  /** A filter argument that is set: neither `None` nor the empty string. */
  predicate Given(filter: Option<string>) {
    filter.Some? && filter.value != ""
  }

  // ----- get_decisions -----

  /** A decoded value the filters let through. */
  predicate Passes(v: Json, risk: Option<string>, action: Option<string>) {
    && (!Given(risk) || FieldIs(v, "risk_level", risk.value))
    && (!Given(action) || FieldIs(v, "action_taken", action.value))
  }

  /** A line on which a filter calls `.get` on a value that is not an object, which raises. */
  predicate Faults(line: Line, risk: Option<string>, action: Option<string>) {
    line.Decoded? && line.value.NonObject? && (Given(risk) || Given(action))
  }

  /** All decoded values, in file order. */
  function DecodedValues(lines: seq<Line>): (r: seq<Json>)
    ensures |r| <= |lines|
    ensures forall v :: v in r <==> exists i :: 0 <= i < |lines| && lines[i].Decoded? && lines[i].value == v
    decreases |lines|
  {
    if |lines| == 0 then []
    else
      assert forall i :: 0 < i < |lines| ==> lines[i] == lines[1..][i - 1];
      if lines[0].Decoded? then [lines[0].value] + DecodedValues(lines[1..])
      else DecodedValues(lines[1..])
  }

  /** Decoding the lines of two files read one after the other gives the values of the first,
      then those of the second: the values keep the order of their lines. */
  lemma {:induction false} DecodedValuesAppend(a: seq<Line>, b: seq<Line>)
    ensures DecodedValues(a + b) == DecodedValues(a) + DecodedValues(b)
    decreases |a|
  {
    if |a| > 0 {
      assert (a + b)[1..] == a[1..] + b;
      DecodedValuesAppend(a[1..], b);
    } else {
      assert a + b == b;
    }
  }

  /** The decoded values the filters let through, in file order. */
  function Matching(lines: seq<Line>, risk: Option<string>, action: Option<string>): (r: seq<Json>)
    ensures |r| <= |lines|
    ensures forall i :: 0 <= i < |lines| && lines[i].Decoded? && Passes(lines[i].value, risk, action) ==> lines[i].value in r
    decreases |lines|
  {
    assert forall i :: 1 <= i < |lines| ==> lines[i] == lines[1..][i - 1];
    if |lines| == 0 then []
    else if lines[0].Decoded? && Passes(lines[0].value, risk, action) then
      [lines[0].value] + Matching(lines[1..], risk, action)
    else Matching(lines[1..], risk, action)
  }

  /** The number of decisions after which reading stops: `None` for no limit (`None` or 0);
      a negative limit stops after the first decision, since any length is at least it. */
  function Cap(limit: Option<int>): (c: Option<nat>)
    ensures c.None? <==> limit.None? || limit.value == 0
    ensures c.Some? ==> c.value >= 1
    ensures c.Some? && limit.value > 0 ==> c.value == limit.value
  {
    if limit.None? || limit.value == 0 then None
    else if limit.value > 0 then Some(limit.value)
    else Some(1)
  }

  predicate Full<T>(kept: seq<T>, cap: Option<nat>) {
    cap.Some? && |kept| >= cap.value
  }

  /** The first `cap` elements, or all when there is no cap. */
  function Take<T>(xs: seq<T>, cap: Option<nat>): (r: seq<T>)
    ensures cap.Some? ==> |r| <= cap.value
    ensures |r| <= |xs| && r == xs[..|r|]
    ensures cap.None? ==> r == xs
  {
    if cap.Some? && cap.value < |xs| then xs[..cap.value] else xs
  }

  /** Reading reaches a faulting line before the limit has been met. */
  predicate ReachesFault(lines: seq<Line>, limit: Option<int>, risk: Option<string>, action: Option<string>) {
    exists i :: 0 <= i < |lines| && Faults(lines[i], risk, action) &&
      !Full(Matching(lines[..i], risk, action), Cap(limit))
  }

  /** `get_decisions(limit, risk_level, action_taken)`; `file` is `None` when the log does not
      exist or cannot be read. A raised error is caught and gives the empty list. */
  method GetDecisions(file: Option<seq<Line>>, limit: Option<int>, risk: Option<string>, action: Option<string>)
    returns (r: seq<Json>)
    ensures file.None? ==> r == []
    ensures file.Some? && ReachesFault(file.value, limit, risk, action) ==> r == []
    ensures file.Some? && !ReachesFault(file.value, limit, risk, action) ==>
      r == Take(Matching(file.value, risk, action), Cap(limit))
    ensures Cap(limit).Some? ==> |r| <= Cap(limit).value
    ensures forall i :: 0 <= i < |r| ==> Passes(r[i], risk, action)
    ensures file.Some? ==> IsSubsequence(r, DecodedValues(file.value))
  {
    if file.None? {
      return [];
    }
    var lines := file.value;
    var cap := Cap(limit);
    var kept: seq<Json> := [];
    var i := 0;
    while i < |lines|
      invariant 0 <= i <= |lines|
      invariant kept == Matching(lines[..i], risk, action)
      invariant forall j :: 0 <= j < i ==> !Faults(lines[j], risk, action)
      invariant !Full(kept, cap)
    {
      MatchingSnoc(lines, i, risk, action);
      if lines[i].Decoded? {
        var v := lines[i].value;
        if v.NonObject? && (Given(risk) || Given(action)) {
          assert Faults(lines[i], risk, action) && !Full(Matching(lines[..i], risk, action), cap);
          return [];
        }
        if Passes(v, risk, action) {
          kept := kept + [v];
          if cap.Some? && |kept| >= cap.value {
            StopAfter(lines, i + 1, limit, risk, action);
            TakeMeaning(lines, limit, risk, action);
            return kept;
          }
        }
      }
      i := i + 1;
    }
    assert lines[..i] == lines;
    assert !ReachesFault(lines, limit, risk, action);
    TakeMeaning(lines, limit, risk, action);
    return kept;
  }

  /** The first matches up to the cap pass the filters and come from the file in order. */
  lemma TakeMeaning(lines: seq<Line>, limit: Option<int>, risk: Option<string>, action: Option<string>)
    ensures var r := Take(Matching(lines, risk, action), Cap(limit));
      && (forall i :: 0 <= i < |r| ==> Passes(r[i], risk, action))
      && IsSubsequence(r, DecodedValues(lines))
  {
    MatchingMeaning(lines, risk, action);
    var m := Matching(lines, risk, action);
    var r := Take(m, Cap(limit));
    assert r == m[..|r|];
  }

  /** The filter handles one more line the way the loop does. */
  lemma MatchingSnoc(lines: seq<Line>, i: nat, risk: Option<string>, action: Option<string>)
    requires i < |lines|
    ensures Matching(lines[..i + 1], risk, action) == Matching(lines[..i], risk, action) +
      (if lines[i].Decoded? && Passes(lines[i].value, risk, action) then [lines[i].value] else [])
  {
    assert lines[..i + 1] == lines[..i] + [lines[i]];
    MatchingAppend(lines[..i], [lines[i]], risk, action);
  }

  lemma {:induction false} MatchingAppend(a: seq<Line>, b: seq<Line>, risk: Option<string>, action: Option<string>)
    ensures Matching(a + b, risk, action) == Matching(a, risk, action) + Matching(b, risk, action)
    decreases |a|
  {
    if |a| == 0 {
      assert a + b == b;
    } else {
      assert (a + b)[1..] == a[1..] + b;
      MatchingAppend(a[1..], b, risk, action);
    }
  }

  /** Once the loop has kept `cap` decisions after `k` lines without a fault, no later line
      is read and the kept list is the first `cap` matches. */
  lemma StopAfter(lines: seq<Line>, k: nat, limit: Option<int>, risk: Option<string>, action: Option<string>)
    requires k <= |lines|
    requires forall j :: 0 <= j < k ==> !Faults(lines[j], risk, action)
    requires Full(Matching(lines[..k], risk, action), Cap(limit))
    requires |Matching(lines[..k], risk, action)| == Cap(limit).value
    ensures !ReachesFault(lines, limit, risk, action)
    ensures Take(Matching(lines, risk, action), Cap(limit)) == Matching(lines[..k], risk, action)
  {
    var head := Matching(lines[..k], risk, action);
    forall j | k <= j <= |lines|
      ensures Full(Matching(lines[..j], risk, action), Cap(limit))
    {
      assert lines[..j] == lines[..k] + lines[k..j];
      MatchingAppend(lines[..k], lines[k..j], risk, action);
    }
    assert lines == lines[..k] + lines[k..];
    MatchingAppend(lines[..k], lines[k..], risk, action);
  }

  /** The matches are decoded values in file order, and each passes the filters. */
  lemma {:induction false} MatchingMeaning(lines: seq<Line>, risk: Option<string>, action: Option<string>)
    ensures IsSubsequence(Matching(lines, risk, action), DecodedValues(lines))
    ensures forall i :: 0 <= i < |Matching(lines, risk, action)| ==> Passes(Matching(lines, risk, action)[i], risk, action)
    ensures forall k :: 0 <= k <= |Matching(lines, risk, action)| ==>
      IsSubsequence(Matching(lines, risk, action)[..k], DecodedValues(lines))
    decreases |lines|
  {
    var m := Matching(lines, risk, action);
    if |lines| > 0 {
      MatchingMeaning(lines[1..], risk, action);
      var rest := Matching(lines[1..], risk, action);
      if lines[0].Decoded? && Passes(lines[0].value, risk, action) {
        assert m[1..] == rest;
        assert forall i :: 0 < i < |m| ==> m[i] == rest[i - 1];
      } else if lines[0].Decoded? {
        SubsequenceFromTail(rest, DecodedValues(lines[1..]), lines[0].value);
      }
      forall k | 0 <= k <= |m| ensures IsSubsequence(m[..k], DecodedValues(lines)) {
        SubsequencePrefix(m, DecodedValues(lines), k);
      }
    }
  }

  /** Without filters and limit every decoded value is returned: what the other queries read. */
  lemma {:induction false} UnfilteredIsEverything(lines: seq<Line>)
    ensures !ReachesFault(lines, None, None, None)
    ensures Take(Matching(lines, None, None), Cap(None)) == DecodedValues(lines)
    decreases |lines|
  {
    if |lines| > 0 {
      UnfilteredIsEverything(lines[1..]);
    }
  }

  /** The decisions the other queries work on: `get_decisions()` without arguments. */
  function Decisions(file: Option<seq<Line>>): seq<Json> {
    if file.None? then [] else DecodedValues(file.value)
  }

  // ----- get_decision_by_id -----

  /** The loop of `get_decision_by_id`: the first decision carrying the id, if any; a value
      that is not an object raises once it is reached. */
  function ScanForId(ds: seq<Json>, id: string): (r: Result<Option<Json>>)
    ensures r.Ok? && r.value.Some? ==> r.value.value in ds && FieldIs(r.value.value, "decision_id", id)
    ensures r.Err? ==> exists i :: 0 <= i < |ds| && ds[i].NonObject?
    ensures (forall i :: 0 <= i < |ds| ==> ds[i].Object?) ==> r.Ok?
    decreases |ds|
  {
    assert forall i :: 1 <= i < |ds| ==> ds[i] == ds[1..][i - 1];
    if |ds| == 0 then Ok(None)
    else if ds[0].NonObject? then Err("AttributeError: 'get'")
    else if FieldIs(ds[0], "decision_id", id) then Ok(Some(ds[0]))
    else ScanForId(ds[1..], id)
  }

  /** What the scan finds: nothing when every decision is an object without the id, else the
      first decision with the id, unless a non-object comes first. */
  lemma {:induction false} ScanForIdMeaning(ds: seq<Json>, id: string)
    ensures ScanForId(ds, id) == Ok(None) <==> NoneBefore(ds, id, |ds|)
    ensures ScanForId(ds, id).Ok? && ScanForId(ds, id).value.Some? ==> FoundAt(ds, id, ScanForId(ds, id).value.value)
    ensures ScanForId(ds, id).Err? <==> FaultBeforeId(ds, id)
    decreases |ds|
  {
    if |ds| > 0 {
      if ds[0].NonObject? {
        assert ds[0].NonObject? && NoneBefore(ds, id, 0);
      } else if FieldIs(ds[0], "decision_id", id) {
        assert ds[0] == ds[0] && NoneBefore(ds, id, 0);
        assert !NoneBefore(ds, id, |ds|);
      } else {
        var r := ScanForId(ds[1..], id);
        ScanForIdMeaning(ds[1..], id);
        FindByIdShift(ds, id, r);
        NoneBeforeShift(ds, id);
      }
    }
  }

  lemma NoneBeforeShift(ds: seq<Json>, id: string)
    requires |ds| > 0 && ds[0].Object? && !FieldIs(ds[0], "decision_id", id)
    ensures NoneBefore(ds, id, |ds|) <==> NoneBefore(ds[1..], id, |ds| - 1)
  {
    assert forall j :: 0 < j < |ds| ==> ds[j] == ds[1..][j - 1];
  }

  /** No decision before index `i` carries the id, and all of them are objects. */
  predicate NoneBefore(ds: seq<Json>, id: string, i: int) {
    forall j :: 0 <= j < i && j < |ds| ==> ds[j].Object? && !FieldIs(ds[j], "decision_id", id)
  }

  /** `d` is the first decision carrying the id. */
  predicate FoundAt(ds: seq<Json>, id: string, d: Json) {
    exists i :: 0 <= i < |ds| && ds[i] == d && FieldIs(ds[i], "decision_id", id) && NoneBefore(ds, id, i)
  }

  /** A value that is not an object is reached before any decision carrying the id. */
  predicate FaultBeforeId(ds: seq<Json>, id: string) {
    exists i :: 0 <= i < |ds| && ds[i].NonObject? && NoneBefore(ds, id, i)
  }

  lemma FindByIdShift(ds: seq<Json>, id: string, r: Result<Option<Json>>)
    requires |ds| > 0 && ds[0].Object? && !FieldIs(ds[0], "decision_id", id)
    requires r.Ok? && r.value.Some? ==> FoundAt(ds[1..], id, r.value.value)
    requires r.Err? <==> FaultBeforeId(ds[1..], id)
    ensures r.Ok? && r.value.Some? ==> FoundAt(ds, id, r.value.value)
    ensures r.Err? <==> FaultBeforeId(ds, id)
  {
    if r.Ok? && r.value.Some? {
      var i :| 0 <= i < |ds[1..]| && ds[1..][i] == r.value.value &&
        FieldIs(ds[1..][i], "decision_id", id) && NoneBefore(ds[1..], id, i);
      assert ds[i + 1] == ds[1..][i];
      assert NoneBefore(ds, id, i + 1) by {
        forall j | 0 <= j < i + 1 ensures ds[j].Object? && !FieldIs(ds[j], "decision_id", id) {
          if j > 0 { assert ds[j] == ds[1..][j - 1]; }
        }
      }
    }
    if FaultBeforeId(ds[1..], id) {
      var i :| 0 <= i < |ds[1..]| && ds[1..][i].NonObject? && NoneBefore(ds[1..], id, i);
      assert ds[i + 1] == ds[1..][i];
      assert NoneBefore(ds, id, i + 1) by {
        forall j | 0 <= j < i + 1 ensures ds[j].Object? && !FieldIs(ds[j], "decision_id", id) {
          if j > 0 { assert ds[j] == ds[1..][j - 1]; }
        }
      }
    }
    if FaultBeforeId(ds, id) {
      var i :| 0 <= i < |ds| && ds[i].NonObject? && NoneBefore(ds, id, i);
      assert i > 0;
      assert ds[1..][i - 1] == ds[i];
      assert NoneBefore(ds[1..], id, i - 1) by {
        forall j | 0 <= j < i - 1 ensures ds[1..][j].Object? && !FieldIs(ds[1..][j], "decision_id", id) {
          assert ds[1..][j] == ds[j + 1];
        }
      }
    }
  }

  /** `get_decision_by_id(decision_id)`. */
  function GetDecisionById(file: Option<seq<Line>>, id: string): (r: Result<Option<Json>>)
    ensures file.None? ==> r == Ok(None)
    ensures r == Ok(None) <==> NoneBefore(Decisions(file), id, |Decisions(file)|)
    ensures r.Ok? && r.value.Some? ==> FoundAt(Decisions(file), id, r.value.value)
    ensures r.Err? <==> FaultBeforeId(Decisions(file), id)
  {
    ScanForIdMeaning(Decisions(file), id);
    ScanForId(Decisions(file), id)
  }

  /** The log only grows: decisions appended later do not change which one an id finds. */
  lemma {:induction false} FoundStaysFound(ds: seq<Json>, more: seq<Json>, id: string)
    requires ScanForId(ds, id).Ok? && ScanForId(ds, id).value.Some?
    ensures ScanForId(ds + more, id) == ScanForId(ds, id)
    decreases |ds|
  {
    assert (ds + more)[0] == ds[0];
    if !FieldIs(ds[0], "decision_id", id) {
      assert (ds + more)[1..] == ds[1..] + more;
      FoundStaysFound(ds[1..], more, id);
    }
  }

  // ----- get_statistics -----

  /** How many decisions have `value` (or `unknown` when absent) under `key`. */
  function CountWhere(ds: seq<Json>, key: string, value: JsonValue): (n: nat)
    ensures n <= |ds|
    decreases |ds|
  {
    if |ds| == 0 then 0
    else CountWhere(ds[..|ds| - 1], key, value) + (if GetOrUnknown(ds[|ds| - 1], key) == value then 1 else 0)
  }

  /** `breakdown.get(value, 0)`. */
  function CountOf(m: map<JsonValue, nat>, k: JsonValue): nat {
    if k in m then m[k] else 0
  }

  /** The breakdown loop of `get_statistics` for one field: a count per value. */
  function Breakdown(ds: seq<Json>, key: string): (m: map<JsonValue, nat>)
    ensures MapSum(m) == |ds|
    ensures forall k :: CountOf(m, k) == CountWhere(ds, key, k)
    ensures forall k :: k in m ==> m[k] > 0
    decreases |ds|
  {
    if |ds| == 0 then map[]
    else
      var init := ds[..|ds| - 1];
      var k0 := GetOrUnknown(ds[|ds| - 1], key);
      var m0 := Breakdown(init, key);
      MapSumIncrement(m0, k0);
      Increment(m0, k0)
  }

  /** `stats[...][value] = stats[...].get(value, 0) + 1` raises on a decision that is not an
      object, on an unhashable value of a counted field, and `len(...)` on a truthy prompt or
      response that is a number or boolean. */
  predicate StatsFault(v: Json) {
    || v.NonObject?
    || GetOrUnknown(v, "risk_level").Container?
    || GetOrUnknown(v, "action_taken").Container?
    || GetOrUnknown(v, "model").Container?
    || (Get(v, "prompt").Scalar? && Truthy(Get(v, "prompt")))
    || (Get(v, "response").Scalar? && Truthy(Get(v, "response")))
  }

  /** The statistics; the first and last timestamps are `None` when there are no decisions. */
  datatype Stats = Stats(
    total: nat,
    riskLevels: map<JsonValue, nat>,
    actions: map<JsonValue, nat>,
    models: map<JsonValue, nat>,
    first: Option<JsonValue>,
    last: Option<JsonValue>)

  /** `get_statistics()`, without the average prompt and response lengths. */
  function GetStatistics(file: Option<seq<Line>>): (r: Result<Stats>)
    ensures Decisions(file) == [] ==> r == Ok(Stats(0, map[], map[], map[], None, None))
    ensures r.Err? <==> exists i :: 0 <= i < |Decisions(file)| && StatsFault(Decisions(file)[i])
    ensures r.Ok? ==> r.value.total == |Decisions(file)|
    ensures r.Ok? ==> MapSum(r.value.riskLevels) == r.value.total
    ensures r.Ok? ==> MapSum(r.value.actions) == r.value.total
    ensures r.Ok? ==> MapSum(r.value.models) == r.value.total
    ensures r.Ok? ==> forall k :: CountOf(r.value.riskLevels, k) == CountWhere(Decisions(file), "risk_level", k)
    ensures r.Ok? ==> forall k :: CountOf(r.value.actions, k) == CountWhere(Decisions(file), "action_taken", k)
    ensures r.Ok? ==> forall k :: CountOf(r.value.models, k) == CountWhere(Decisions(file), "model", k)
    ensures r.Ok? && r.value.total > 0 ==>
      r.value.first == Some(Get(Decisions(file)[0], "timestamp")) &&
      r.value.last == Some(Get(Decisions(file)[r.value.total - 1], "timestamp"))
  {
    var ds := Decisions(file);
    if |ds| == 0 then Ok(Stats(0, map[], map[], map[], None, None))
    else if exists i :: 0 <= i < |ds| && StatsFault(ds[i]) then Err("AttributeError or TypeError")
    else Ok(Stats(
      |ds|,
      Breakdown(ds, "risk_level"),
      Breakdown(ds, "action_taken"),
      Breakdown(ds, "model"),
      Some(Get(ds[0], "timestamp")),
      Some(Get(ds[|ds| - 1], "timestamp"))))
  }

  // ----- analyze_patterns -----

  const Keywords: seq<string> := ["dangerous", "malicious", "suspicious", "safe", "benign"]

  datatype HighRisk = HighRisk(command: JsonValue, timestamp: JsonValue, reasoning: JsonValue)
  datatype Blocked = Blocked(command: JsonValue, timestamp: JsonValue)
  datatype Patterns = Patterns(highRisk: seq<HighRisk>, blocked: seq<Blocked>, commonReasoning: map<string, nat>)

  predicate IsHighRisk(v: Json) {
    FieldIs(v, "risk_level", "high")
  }

  predicate IsBlocked(v: Json) {
    FieldIs(v, "action_taken", "blocked")
  }

  /** `reasoning.lower()` raises on a truthy reasoning that is not a string, and `.get` on a
      decision that is not an object. */
  predicate PatternFault(v: Json) {
    v.NonObject? || (Truthy(Get(v, "reasoning")) && !Get(v, "reasoning").Str?)
  }

  /** Whether a decision's reasoning mentions `keyword`, in any letter case. */
  predicate Mentions(v: Json, keyword: string) {
    var reasoning := Get(v, "reasoning");
    reasoning.Str? && reasoning.s != "" && Contains(Lower(reasoning.s), keyword)
  }

  /** One more decision in the keyword tally: each listed keyword it hits counts once more. */
  function TallyHits(m: map<string, nat>, hits: set<string>, keywords: seq<string>): (r: map<string, nat>)
    requires forall i, j :: 0 <= i < j < |keywords| ==> keywords[i] != keywords[j]
    ensures forall k :: k in r <==> k in m || (k in keywords && k in hits)
    ensures forall k :: k in r ==> r[k] == (if k in m then m[k] else 0) + (if k in keywords && k in hits then 1 else 0)
    decreases |keywords|
  {
    if |keywords| == 0 then m
    else
      var m1 := if keywords[0] in hits then Increment(m, keywords[0]) else m;
      assert forall i, j :: 0 <= i < j < |keywords[1..]| ==> keywords[1..][i] == keywords[i + 1] && keywords[1..][j] == keywords[j + 1];
      var r := TallyHits(m1, hits, keywords[1..]);
      assert forall k :: k in keywords <==> k == keywords[0] || k in keywords[1..];
      assert keywords[0] !in keywords[1..] by {
        forall j | 0 <= j < |keywords[1..]| ensures keywords[1..][j] != keywords[0] {
          assert keywords[1..][j] == keywords[j + 1];
        }
      }
      r
  }

  /** How many decisions mention `keyword`. */
  function CountMentions(ds: seq<Json>, keyword: string): (n: nat)
    ensures n <= |ds|
    decreases |ds|
  {
    if |ds| == 0 then 0
    else CountMentions(ds[..|ds| - 1], keyword) + (if Mentions(ds[|ds| - 1], keyword) then 1 else 0)
  }

  function HighRiskOf(v: Json): HighRisk {
    HighRisk(Get(v, "command_analyzed"), Get(v, "timestamp"), Get(v, "reasoning"))
  }

  /** The positions of the decisions whose `key` holds the string `value`: each such position
      exactly once, in increasing order. */
  ghost function Where(ds: seq<Json>, key: string, value: string): (idx: seq<int>)
    ensures forall k :: 0 <= k < |idx| ==> 0 <= idx[k] < |ds| && FieldIs(ds[idx[k]], key, value)
    ensures forall k, l :: 0 <= k < l < |idx| ==> idx[k] < idx[l]
    ensures forall i :: 0 <= i < |ds| && FieldIs(ds[i], key, value) ==> i in idx
    decreases |ds|
  {
    if |ds| == 0 then []
    else
      var init := ds[..|ds| - 1];
      assert forall i :: 0 <= i < |init| ==> ds[i] == init[i];
      Where(init, key, value) + (if FieldIs(ds[|ds| - 1], key, value) then [|ds| - 1] else [])
  }

  /** The `high_risk_commands` list: one entry per high-risk decision, in order. */
  function HighRiskList(ds: seq<Json>): (hs: seq<HighRisk>)
    ensures |hs| == CountWhere(ds, "risk_level", Str("high"))
    ensures |hs| == |Where(ds, "risk_level", "high")|
    ensures forall k :: 0 <= k < |hs| ==> hs[k] == HighRiskOf(ds[Where(ds, "risk_level", "high")[k]])
    decreases |ds|
  {
    if |ds| == 0 then []
    else
      var init := ds[..|ds| - 1];
      var v := ds[|ds| - 1];
      var hs := HighRiskList(init);
      assert forall i :: 0 <= i < |init| ==> ds[i] == init[i];
      assert IsHighRisk(v) <==> GetOrUnknown(v, "risk_level") == Str("high");
      hs + (if IsHighRisk(v) then [HighRiskOf(v)] else [])
  }

  function BlockedOf(v: Json): Blocked {
    Blocked(Get(v, "command_analyzed"), Get(v, "timestamp"))
  }

  /** The `blocked_commands` list: one entry per blocked decision, in order. */
  function BlockedList(ds: seq<Json>): (bs: seq<Blocked>)
    ensures |bs| == CountWhere(ds, "action_taken", Str("blocked"))
    ensures |bs| == |Where(ds, "action_taken", "blocked")|
    ensures forall k :: 0 <= k < |bs| ==> bs[k] == BlockedOf(ds[Where(ds, "action_taken", "blocked")[k]])
    decreases |ds|
  {
    if |ds| == 0 then []
    else
      var init := ds[..|ds| - 1];
      var v := ds[|ds| - 1];
      var bs := BlockedList(init);
      assert forall i :: 0 <= i < |init| ==> ds[i] == init[i];
      assert IsBlocked(v) <==> GetOrUnknown(v, "action_taken") == Str("blocked");
      bs + (if IsBlocked(v) then [BlockedOf(v)] else [])
  }

  /** The `common_reasoning` tally: each keyword some decision mentions, with the number of
      decisions that mention it. */
  function ReasoningTally(ds: seq<Json>): (m: map<string, nat>)
    ensures forall k :: k in m <==> k in Keywords && CountMentions(ds, k) > 0
    ensures forall k :: k in m ==> m[k] == CountMentions(ds, k)
    decreases |ds|
  {
    if |ds| == 0 then map[]
    else
      var init := ds[..|ds| - 1];
      var v := ds[|ds| - 1];
      var m0 := ReasoningTally(init);
      var hits := set k | k in Keywords && Mentions(v, k);
      KeywordsDistinct();
      assert forall k :: CountMentions(ds, k) == CountMentions(init, k) + (if Mentions(v, k) then 1 else 0);
      TallyHits(m0, hits, Keywords)
  }

  lemma KeywordsDistinct()
    ensures forall i, j :: 0 <= i < j < |Keywords| ==> Keywords[i] != Keywords[j]
  {
  }

  /** The loop of `analyze_patterns`. */
  function Scan(ds: seq<Json>): Patterns {
    Patterns(HighRiskList(ds), BlockedList(ds), ReasoningTally(ds))
  }

  /** `analyze_patterns()`; the `escalation_trends` list it returns is always empty. */
  function AnalyzePatterns(file: Option<seq<Line>>): (r: Result<Patterns>)
    ensures r.Err? <==> exists i :: 0 <= i < |Decisions(file)| && PatternFault(Decisions(file)[i])
    ensures r.Ok? ==> |r.value.highRisk| == CountWhere(Decisions(file), "risk_level", Str("high"))
    ensures r.Ok? ==> |r.value.blocked| == CountWhere(Decisions(file), "action_taken", Str("blocked"))
    ensures r.Ok? ==> |r.value.highRisk| == |Where(Decisions(file), "risk_level", "high")|
    ensures r.Ok? ==> forall k :: 0 <= k < |r.value.highRisk| ==>
      r.value.highRisk[k] == HighRiskOf(Decisions(file)[Where(Decisions(file), "risk_level", "high")[k]])
    ensures r.Ok? ==> |r.value.blocked| == |Where(Decisions(file), "action_taken", "blocked")|
    ensures r.Ok? ==> forall k :: 0 <= k < |r.value.blocked| ==>
      r.value.blocked[k] == BlockedOf(Decisions(file)[Where(Decisions(file), "action_taken", "blocked")[k]])
    ensures r.Ok? ==> forall k :: k in r.value.commonReasoning <==>
      k in Keywords && CountMentions(Decisions(file), k) > 0
    ensures r.Ok? ==> forall k :: k in r.value.commonReasoning ==>
      r.value.commonReasoning[k] == CountMentions(Decisions(file), k)
  {
    var ds := Decisions(file);
    if exists i :: 0 <= i < |ds| && PatternFault(ds[i]) then Err("AttributeError")
    else Ok(Scan(ds))
  }

  /** The pattern lists agree with the statistics: as many high-risk entries as decisions
      counted under risk level `high`, as many blocked entries as under action `blocked`. */
  lemma PatternsAgreeWithStatistics(file: Option<seq<Line>>)
    requires GetStatistics(file).Ok? && AnalyzePatterns(file).Ok?
    ensures |AnalyzePatterns(file).value.highRisk| == CountOf(GetStatistics(file).value.riskLevels, Str("high"))
    ensures |AnalyzePatterns(file).value.blocked| == CountOf(GetStatistics(file).value.actions, Str("blocked"))
  {
    StatisticsCount(file, "risk_level", Str("high"));
    StatisticsCount(file, "action_taken", Str("blocked"));
    PatternCounts(file);
  }

  lemma StatisticsCount(file: Option<seq<Line>>, key: string, k: JsonValue)
    requires GetStatistics(file).Ok?
    requires key in {"risk_level", "action_taken"}
    ensures key == "risk_level" ==> CountOf(GetStatistics(file).value.riskLevels, k) == CountWhere(Decisions(file), key, k)
    ensures key == "action_taken" ==> CountOf(GetStatistics(file).value.actions, k) == CountWhere(Decisions(file), key, k)
  {
  }

  lemma PatternCounts(file: Option<seq<Line>>)
    requires AnalyzePatterns(file).Ok?
    ensures |AnalyzePatterns(file).value.highRisk| == CountWhere(Decisions(file), "risk_level", Str("high"))
    ensures |AnalyzePatterns(file).value.blocked| == CountWhere(Decisions(file), "action_taken", Str("blocked"))
  {
  }

  /** Keywords are matched as substrings: a reasoning of `unsafe` counts as `safe`. */
  lemma UnsafeCountsAsSafe()
    ensures Mentions(Object(map["reasoning" := Str("Unsafe")]), "safe")
  {
    var r := Lower("Unsafe");
    assert r == "unsafe";
    assert r[1..] == "nsafe";
    assert StartsWith(r[2..], "safe");
  }
}

=== FILE: docker_sandbox.dfy ===
/** Container sandbox (`DockerSandbox`): the container configuration handed to the Docker engine
    and the guards of the container's lifecycle. The engine itself is not modelled: what it
    answers (the new container's id, the result of waiting, a stats sample) is a parameter. */
module DockerSandbox {
  import opened Wrappers
  import opened Text

  /** The settings given to `DockerSandbox(...)`. The CPU limit is a number of cores, taken as an
      exact real; the memory limit is passed to the engine as written (`"512m"`, `"1g"`). */
  datatype Options = Options(
    sessionId: string,
    image: string,
    networkEnabled: bool,
    allowedDomains: seq<string>,
    cpuLimit: Option<real>,
    memoryLimit: Option<string>)

  /** The sandbox handle: its options and, once created, the short id of its container. */
  datatype DockerSandbox = DockerSandbox(options: Options, container: Option<string>)

  /** `DockerSandbox(...)` (the engine connection aside): no container yet, and a missing or
      empty domain list becomes `[]`. */
  function NewDockerSandbox(sessionId: string, image: string, networkEnabled: bool,
                            allowedDomains: Option<seq<string>>, cpuLimit: Option<real>,
                            memoryLimit: Option<string>): (d: DockerSandbox)
    ensures d.container == None
    ensures d.options.allowedDomains == (if allowedDomains.Some? then allowedDomains.value else [])
    ensures (d.options.sessionId, d.options.image, d.options.networkEnabled) == (sessionId, image, networkEnabled)
    ensures d.options.cpuLimit == cpuLimit && d.options.memoryLimit == memoryLimit
  {
    DockerSandbox(Options(sessionId, image, networkEnabled, allowedDomains.GetOr([]), cpuLimit, memoryLimit), None)
  }

  /** The CPU period, in microseconds, that `cpu_quota` is measured against. */
  const CpuPeriod: int := 100000

  /** A bind mount: the path inside the container and the access mode. */
  datatype Bind = Bind(bind: string, mode: string)

  /** The CPU entries of the configuration: `cpu_quota` and `cpu_period`. */
  datatype CpuShare = CpuShare(quota: int, period: int)

  /** The `container_config` dictionary; `mem_limit` and the CPU entries are absent when `None`. */
  datatype ContainerConfig = ContainerConfig(
    image: string,
    command: seq<string>,
    workingDir: string,
    detach: bool,
    networkMode: string,
    readOnly: bool,
    securityOpt: seq<string>,
    capDrop: seq<string>,
    capAdd: seq<string>,
    labels: map<string, string>,
    volumes: map<string, Bind>,
    environment: map<string, string>,
    memLimit: Option<string>,
    cpu: Option<CpuShare>)

  /** Python truthiness of an optional number: `None` and `0` are false. */
  predicate CpuTruthy(x: Option<real>) {
    x.Some? && x.value != 0.0
  }

  /** Python truthiness of an optional string: `None` and `""` are false. */
  predicate TextTruthy(x: Option<string>) {
    x.Some? && |x.value| > 0
  }

  /** `int(x)`: truncation toward zero. */
  function Trunc(x: real): (n: int)
    ensures x >= 0.0 ==> n as real <= x < n as real + 1.0
    ensures x < 0.0 ==> n as real - 1.0 < x <= n as real
  {
    if x >= 0.0 then x.Floor else -((-x).Floor)
  }

  /** The labels that mark a container as managed by this session. */
  function Labels(o: Options): map<string, string> {
    map["sudodog.session_id" := o.sessionId, "sudodog.managed" := "true", "sudodog.image" := o.image]
  }

  /** The configuration `create_container(command, working_dir)` hands to the engine; `cwd` is
      `Path.cwd()`, mounted read-write at the working directory. */
  function ContainerConfigOf(o: Options, command: string, workingDir: string, cwd: string): (c: ContainerConfig)
    ensures c.image == o.image && c.workingDir == workingDir && c.detach && !c.readOnly
    ensures c.command == ["sh", "-c", command]
    ensures c.networkMode == (if o.networkEnabled then "bridge" else "none")
    ensures c.capAdd == (if o.networkEnabled then ["NET_BIND_SERVICE"] else [])
    ensures c.capDrop == ["ALL"] && c.securityOpt == ["no-new-privileges"]
    ensures c.labels.Keys == {"sudodog.session_id", "sudodog.managed", "sudodog.image"}
    ensures c.labels["sudodog.session_id"] == o.sessionId && c.labels["sudodog.managed"] == "true"
    ensures c.labels["sudodog.image"] == o.image
    ensures c.volumes.Keys == {cwd} && c.volumes[cwd] == Bind(workingDir, "rw")
    ensures c.environment.Keys == {"SUDODOG_SESSION", "PYTHONUNBUFFERED"}
    ensures c.environment["SUDODOG_SESSION"] == o.sessionId && c.environment["PYTHONUNBUFFERED"] == "1"
    ensures c.memLimit.Some? <==> TextTruthy(o.memoryLimit)
    ensures c.memLimit.Some? ==> c.memLimit.value == o.memoryLimit.value
    ensures c.cpu.Some? <==> CpuTruthy(o.cpuLimit)
    ensures c.cpu.Some? ==> c.cpu.value.period == CpuPeriod
    ensures c.cpu.Some? ==> c.cpu.value.quota == Trunc(o.cpuLimit.value * CpuPeriod as real)
  {
    ContainerConfig(
      o.image, ["sh", "-c", command], workingDir, true,
      if o.networkEnabled then "bridge" else "none",
      false, ["no-new-privileges"], ["ALL"],
      if o.networkEnabled then ["NET_BIND_SERVICE"] else [],
      Labels(o),
      map[cwd := Bind(workingDir, "rw")],
      map["SUDODOG_SESSION" := o.sessionId, "PYTHONUNBUFFERED" := "1"],
      if TextTruthy(o.memoryLimit) then Some(o.memoryLimit.value) else None,
      if CpuTruthy(o.cpuLimit) then Some(CpuShare(Trunc(o.cpuLimit.value * CpuPeriod as real), CpuPeriod)) else None)
  }

  /** What the configuration says about the options it came from. */
  datatype Recovered = Recovered(sessionId: string, image: string, networkEnabled: bool,
                                 memoryLimit: Option<string>, command: string)

  /** Reads the options back from a configuration. */
  function RecoverOptions(c: ContainerConfig): (r: Option<Recovered>) {
    if "sudodog.session_id" in c.labels && |c.command| == 3 then
      Some(Recovered(c.labels["sudodog.session_id"], c.image, c.networkMode == "bridge", c.memLimit, c.command[2]))
    else None
  }

  /** The configuration determines the session, image, network setting, memory limit (as `None`
      when it is not truthy) and command it was built from. */
  lemma ConfigRoundTrip(o: Options, command: string, workingDir: string, cwd: string)
    ensures RecoverOptions(ContainerConfigOf(o, command, workingDir, cwd)) ==
      Some(Recovered(o.sessionId, o.image, o.networkEnabled,
                     if TextTruthy(o.memoryLimit) then o.memoryLimit else None, command))
  {
  }

  /** A container without network has no added capability, and one with network gets exactly
      the capability to bind low ports. */
  lemma NetworkAndCapabilitiesAgree(o: Options, command: string, workingDir: string, cwd: string)
    ensures var c := ContainerConfigOf(o, command, workingDir, cwd);
      (c.networkMode == "none" <==> c.capAdd == []) && (c.capAdd == [] || c.capAdd == ["NET_BIND_SERVICE"])
  {
  }

  /** A CPU limit of 0 means no limit, and a positive limit gives a quota within one microsecond
      below the exact product of the limit and the period. */
  lemma CpuQuotaBounds(o: Options, command: string, workingDir: string, cwd: string)
    ensures var c := ContainerConfigOf(o, command, workingDir, cwd);
      && (o.cpuLimit == Some(0.0) ==> c.cpu == None)
      && (o.cpuLimit.Some? && o.cpuLimit.value > 0.0 ==>
            c.cpu.Some? && 0 <= c.cpu.value.quota
            && c.cpu.value.quota as real <= o.cpuLimit.value * 100000.0 < c.cpu.value.quota as real + 1.0)
  {
  }

  /** `create_container`: the engine either creates the container, whose id is then kept
      shortened to 12 characters, or raises and leaves the handle unchanged. */
  function CreateContainer(d: DockerSandbox, created: Result<string>): (r: (DockerSandbox, Result<string>))
    ensures r.0.options == d.options
    ensures created.Err? ==> r.0 == d && r.1 == created
    ensures created.Ok? ==> r.0.container == Some(PyTake(created.value, 12)) && r.1 == Ok(PyTake(created.value, 12))
    ensures created.Ok? ==> |r.1.value| == if |created.value| < 12 then |created.value| else 12
  {
    match created
    case Err(e) => (d, Err(e))
    case Ok(id) =>
      var short := PyTake(id, 12);
      (d.(container := Some(short)), Ok(short))
  }

  /** `start()`: refused before a container exists. */
  function Start(d: DockerSandbox): (r: Result<()>)
    ensures r.Err? <==> d.container.None?
    ensures r.Err? ==> r.error == "Container not created yet"
  {
    if d.container.None? then Err("Container not created yet") else Ok(())
  }

  /** What the engine answers when waited on: the status code and the logs, or an exception. */
  datatype WaitAnswer = Finished(statusCode: int, logs: string) | WaitFailed(message: string)

  /** The dictionary `wait()` returns. */
  datatype WaitResult = WaitResult(exitCode: int, output: string, containerId: Option<string>)

  /** `wait()`: refused before a container exists; afterwards every engine failure is turned
      into exit code -1 with the error text as output, so nothing is raised. */
  function Wait(d: DockerSandbox, answer: WaitAnswer): (r: Result<WaitResult>)
    ensures r.Err? <==> d.container.None?
    ensures r.Err? ==> r.error == "Container not started yet"
    ensures r.Ok? ==> r.value.containerId == d.container
    ensures r.Ok? && answer.Finished? ==> r.value.exitCode == answer.statusCode && r.value.output == answer.logs
    ensures r.Ok? && answer.WaitFailed? ==> r.value.exitCode == -1 && r.value.output == answer.message
  {
    if d.container.None? then Err("Container not started yet")
    else match answer
      case Finished(code, logs) => Ok(WaitResult(code, logs, d.container))
      case WaitFailed(msg) => Ok(WaitResult(-1, msg, d.container))
  }

  /** The requests `stop` and `cleanup` send to the engine; their exceptions are caught. */
  datatype EngineRequest = StopContainer(timeout: int) | RemoveContainer(force: bool)

  /** `stop(timeout)`: a stop request when there is a container, nothing otherwise. */
  function Stop(d: DockerSandbox, timeout: int): (r: seq<EngineRequest>)
    ensures d.container.None? <==> r == []
    ensures d.container.Some? ==> r == [StopContainer(timeout)]
  {
    if d.container.Some? then [StopContainer(timeout)] else []
  }

  /** `cleanup()`: a forced removal when there is a container, nothing otherwise. */
  function Cleanup(d: DockerSandbox): (r: seq<EngineRequest>)
    ensures d.container.None? <==> r == []
    ensures d.container.Some? ==> r == [RemoveContainer(true)]
  {
    if d.container.Some? then [RemoveContainer(true)] else []
  }

  /** `__exit__`: stop with the default timeout of 10 seconds, then clean up. */
  function Exit(d: DockerSandbox): (r: seq<EngineRequest>)
    ensures d.container.None? ==> r == []
    ensures d.container.Some? ==> r == [StopContainer(10), RemoveContainer(true)]
  {
    Stop(d, 10) + Cleanup(d)
  }

  /** A stats sample as the engine reports it, already converted to the percentages and
      megabytes `get_stats` returns; the conversion itself is floating point and not modelled. */
  datatype Usage = Usage(cpuPercent: real, memoryUsageMb: real, memoryPercent: real)

  /** The dictionary `get_stats()` returns when it is not empty. */
  datatype Stats = Stats(usage: Usage, containerId: string)

  /** `get_stats()`: `{}` (here `None`) without a container or when the engine fails. */
  function GetStats(d: DockerSandbox, sample: Option<Usage>): (r: Option<Stats>)
    ensures r.Some? <==> d.container.Some? && sample.Some?
    ensures r.Some? ==> r.value == Stats(sample.value, d.container.value)
  {
    if d.container.None? then None
    else match sample
      case None => None
      case Some(u) => Some(Stats(u, d.container.value))
  }

  /** The lifecycle guards: a fresh handle refuses to start or wait and asks nothing of the engine
      on exit; once the engine has created a container, start and wait go through and exit stops
      and removes it. */
  lemma LifecycleGuards(d: DockerSandbox, id: string, answer: WaitAnswer, sample: Option<Usage>)
    requires d.container.None?
    ensures Start(d).Err? && Wait(d, answer).Err? && Exit(d) == [] && GetStats(d, sample) == None
    ensures var c := CreateContainer(d, Ok(id)).0;
      && Start(c) == Ok(())
      && Wait(c, answer).Ok?
      && Exit(c) == [StopContainer(10), RemoveContainer(true)]
  {
  }
}

=== FILE: http_interceptor.dfy ===
/** HTTP capture (`HTTPInterceptor`): provider detection, redaction of headers and bodies,
    truncation, the entries written per request and response, and the statistics read back from
    the log. Regular-expression matching and substitution are parameters; the clock is a
    parameter; writing the log file is not modelled beyond the entries it receives. */
module HttpInterceptor {
  import opened Wrappers
  import opened Text
  import opened Re
  import opened Tally

  /** The interceptor of one session: its log file is `<log_dir>/<session_id>_http.jsonl`. */
  datatype Interceptor = Interceptor(sessionId: string, logDir: string, logFile: string)

  /** `HTTPInterceptor(session_id, log_dir)`; `home` is `Path.home()`. */
  function NewInterceptor(sessionId: string, logDir: Option<string>, home: string): (i: Interceptor)
    ensures i.sessionId == sessionId
    ensures logDir.Some? && logDir.value != "" ==> i.logDir == logDir.value
    ensures logDir.None? || logDir.value == "" ==> i.logDir == home + "/.sudodog/logs"
    ensures i.logFile == i.logDir + "/" + sessionId + "_http.jsonl"
  {
    var dir := if logDir.Some? && logDir.value != "" then logDir.value else home + "/.sudodog/logs";
    Interceptor(sessionId, dir, dir + "/" + sessionId + "_http.jsonl")
  }

  /** Provider names and URL patterns, in declaration order; matched ignoring case. */
  const Providers: seq<(string, string)> := [
    ("openai", "api\\.openai\\.com"),
    ("anthropic", "api\\.anthropic\\.com"),
    ("google", "(generativelanguage\\.googleapis\\.com|aiplatform\\.googleapis\\.com)"),
    ("cohere", "api\\.cohere\\.(ai|com)"),
    ("huggingface", "api-inference\\.huggingface\\.co"),
    ("replicate", "api\\.replicate\\.com")
  ]

  const Unknown: string := "unknown"

  /** Whether the `i`-th provider pattern matches the URL. */
  predicate ProviderMatches(search: Search, url: string, i: nat)
    requires i < |Providers|
  {
    search(Pattern(Providers[i].1, true), url)
  }

  /** The first provider from `k` on whose pattern matches. */
  function FirstProvider(search: Search, url: string, k: nat): (r: Option<nat>)
    requires k <= |Providers|
    ensures r.Some? ==> k <= r.value < |Providers| && ProviderMatches(search, url, r.value)
    ensures r.Some? ==> forall j :: k <= j < r.value ==> !ProviderMatches(search, url, j)
    ensures r.None? ==> forall j :: k <= j < |Providers| ==> !ProviderMatches(search, url, j)
    decreases |Providers| - k
  {
    if k == |Providers| then None
    else if ProviderMatches(search, url, k) then Some(k)
    else FirstProvider(search, url, k + 1)
  }

  /** `detect_provider(url)`: the first provider in declaration order whose pattern matches,
      `unknown` when none does. */
  function DetectProvider(search: Search, url: string): (r: string)
    ensures r == Unknown <==> forall j :: 0 <= j < |Providers| ==> !ProviderMatches(search, url, j)
    ensures r != Unknown ==>
      exists i :: (0 <= i < |Providers| && Providers[i].0 == r && ProviderMatches(search, url, i)
                   && forall j :: 0 <= j < i ==> !ProviderMatches(search, url, j))
  {
    match FirstProvider(search, url, 0)
    case None => Unknown
    case Some(i) => Providers[i].0
  }

  /** Header names, lower case, whose values are never logged. */
  const SensitiveHeaders: set<string> := {
    "authorization", "api-key", "x-api-key", "apikey",
    "auth-token", "x-auth-token", "bearer", "cookie",
    "x-openai-api-key", "x-anthropic-api-key"
  }

  const Redacted: string := "[REDACTED]"

  /** Whether a header name is sensitive, compared in lower case. */
  predicate Sensitive(key: string) {
    Lower(key) in SensitiveHeaders
  }

  /** `redact_headers(headers)`: the same names; a sensitive header's value is replaced, every
      other value is kept. */
  function RedactHeaders(headers: map<string, string>): (r: map<string, string>)
    ensures r.Keys == headers.Keys
    ensures forall k :: k in r && Sensitive(k) ==> r[k] == Redacted
    ensures forall k :: k in r && !Sensitive(k) ==> r[k] == headers[k]
  {
    map k | k in headers :: if Sensitive(k) then Redacted else headers[k]
  }

  /** Redacting twice is redacting once. */
  lemma RedactHeadersIdempotent(headers: map<string, string>)
    ensures RedactHeaders(RedactHeaders(headers)) == RedactHeaders(headers)
  {
    var once := RedactHeaders(headers);
    var twice := RedactHeaders(once);
    assert forall k :: k in twice ==> twice[k] == once[k];
  }

  /** A header set is left alone exactly when every sensitive header already reads `[REDACTED]`. */
  lemma RedactHeadersFixedPoints(headers: map<string, string>)
    ensures RedactHeaders(headers) == headers <==> forall k :: k in headers && Sensitive(k) ==> headers[k] == Redacted
  {
    var r := RedactHeaders(headers);
    if forall k :: k in headers && Sensitive(k) ==> headers[k] == Redacted {
      assert forall k :: k in r ==> r[k] == headers[k];
    }
  }

  /** Body patterns and their replacements, in the order they are applied; matched ignoring
      case. */
  const BodyRules: seq<(string, string)> := [
    ("\"api_key\"\\s*:\\s*\"([^\"]+)\"", "\"api_key\": \"[REDACTED]\""),
    ("\"apiKey\"\\s*:\\s*\"([^\"]+)\"", "\"apiKey\": \"[REDACTED]\""),
    ("\"token\"\\s*:\\s*\"([^\"]+)\"", "\"token\": \"[REDACTED]\""),
    ("\"password\"\\s*:\\s*\"([^\"]+)\"", "\"password\": \"[REDACTED]\""),
    ("Bearer\\s+([A-Za-z0-9\\-._~+/]+)", "Bearer [REDACTED]")
  ]

  /** Apply the substitutions of `rules` one after the other. */
  function RedactWith(sub: Substitute, rules: seq<(string, string)>, s: string): string
    decreases |rules|
  {
    if |rules| == 0 then s else RedactWith(sub, rules[1..], sub(Pattern(rules[0].0, true), rules[0].1, s))
  }

  /** `redact_body(body)`: an empty body is returned as is; otherwise every rule is applied in
      order, each to the result of the previous one. */
  function RedactBody(sub: Substitute, body: string): (r: string)
    ensures body == "" ==> r == ""
    ensures body != "" ==> r == RedactWith(sub, BodyRules, body)
  {
    if body == "" then body else RedactWith(sub, BodyRules, body)
  }

  /** Rules that match nothing change nothing. */
  lemma {:induction false} RedactWithClean(search: Search, sub: Substitute, rules: seq<(string, string)>, s: string)
    requires SubstitutionRespectsSearch(search, sub)
    requires forall i :: 0 <= i < |rules| ==> !search(Pattern(rules[i].0, true), s)
    ensures RedactWith(sub, rules, s) == s
    decreases |rules|
  {
    if |rules| > 0 {
      assert !search(Pattern(rules[0].0, true), s);
      assert sub(Pattern(rules[0].0, true), rules[0].1, s) == s;
      assert forall i :: 0 <= i < |rules[1..]| ==> rules[1..][i] == rules[i + 1];
      RedactWithClean(search, sub, rules[1..], s);
    }
  }

  /** A body none of the patterns matches is logged unredacted. */
  lemma CleanBodyUnchanged(search: Search, sub: Substitute, body: string)
    requires SubstitutionRespectsSearch(search, sub)
    requires forall i :: 0 <= i < |BodyRules| ==> !search(Pattern(BodyRules[i].0, true), body)
    ensures RedactBody(sub, body) == body
  {
    if body != "" {
      RedactWithClean(search, sub, BodyRules, body);
    }
  }

  const MaxBodyLength: int := 5000

  /** The marker appended to a truncated body, naming how many characters were cut. */
  function TruncationNote(n: nat): string {
    "\n... [TRUNCATED " + NatToString(n) + " chars]"
  }

  /** `truncate_body(body, max_length)`: a body within the limit is kept; a longer one is cut
      to its first `max_length` characters and followed by the note. */
  function TruncateBody(body: string, maxLength: int): (r: string)
    ensures |body| <= maxLength ==> r == body
    ensures 0 <= maxLength < |body| ==>
      && |r| == maxLength + |TruncationNote(|body| - maxLength)|
      && r[..maxLength] == body[..maxLength]
      && r[maxLength..] == TruncationNote(|body| - maxLength)
  {
    if body == "" || |body| <= maxLength then body
    else PyTake(body, maxLength) + TruncationNote(|body| - maxLength)
  }

  /** The note gives back the number it was built from. */
  lemma {:induction false} TruncationNoteInjective(a: nat, b: nat)
    requires TruncationNote(a) == TruncationNote(b)
    ensures a == b
  {
    var pre, post := "\n... [TRUNCATED ", " chars]";
    var na, nb := NatToString(a), NatToString(b);
    assert |na| == |nb|;
    assert na == TruncationNote(a)[|pre|..|pre| + |na|];
    assert nb == TruncationNote(b)[|pre|..|pre| + |nb|];
    NatToStringInjective(a, b);
  }

  /** Two bodies cut to the same logged text had the same beginning and the same length: the
      log loses the tail of a body but never its size. */
  lemma TruncationKeepsSize(b1: string, b2: string, maxLength: nat)
    requires maxLength < |b1| && maxLength < |b2|
    requires TruncateBody(b1, maxLength) == TruncateBody(b2, maxLength)
    ensures |b1| == |b2| && b1[..maxLength] == b2[..maxLength]
  {
    TruncationNoteInjective(|b1| - maxLength, |b2| - maxLength);
  }

  /** One line of the log as written by `log_request` or `log_response`. The timestamp is not
      modelled. */
  datatype HttpEntry =
    | RequestEntry(sessionId: string, requestId: string, httpMethod: string, url: string, provider: string,
                   headers: map<string, string>, body: string)
    | ResponseEntry(sessionId: string, requestId: string, statusCode: int, headers: map<string, string>,
                    body: string, durationMs: Option<real>, error: Option<string>)

  /** `headers or {}` and `body or ''`: redact, then truncate to the default length. */
  function LoggedHeaders(headers: Option<map<string, string>>): map<string, string> {
    RedactHeaders(headers.GetOr(map[]))
  }

  function LoggedBody(sub: Substitute, body: Option<string>): string {
    TruncateBody(RedactBody(sub, body.GetOr("")), MaxBodyLength)
  }

  /** `log_request(...)`: the request id (the clock in milliseconds when none is given) and the
      entry appended to the log. */
  function LogRequest(i: Interceptor, search: Search, sub: Substitute, httpMethod: string, url: string,
                      headers: Option<map<string, string>>, body: Option<string>,
                      requestId: Option<string>, nowMillis: int): (r: (string, HttpEntry))
    ensures r.0 == (if requestId.Some? then requestId.value else IntToString(nowMillis))
    ensures r.1.RequestEntry? && r.1.requestId == r.0 && r.1.sessionId == i.sessionId && r.1.url == url
    ensures r.1.httpMethod == Upper(httpMethod) && r.1.provider == DetectProvider(search, url)
    ensures r.1.headers == LoggedHeaders(headers) && r.1.body == LoggedBody(sub, body)
  {
    var id := if requestId.Some? then requestId.value else IntToString(nowMillis);
    (id, RequestEntry(i.sessionId, id, Upper(httpMethod), url, DetectProvider(search, url),
                      LoggedHeaders(headers), LoggedBody(sub, body)))
  }

  /** `log_response(...)`: the entry appended to the log. */
  function LogResponse(i: Interceptor, sub: Substitute, requestId: string, statusCode: int,
                       headers: Option<map<string, string>>, body: Option<string>,
                       durationMs: Option<real>, error: Option<string>): (e: HttpEntry)
    ensures e.ResponseEntry? && e.sessionId == i.sessionId && e.requestId == requestId
    ensures e.statusCode == statusCode && e.durationMs == durationMs && e.error == error
    ensures e.headers == LoggedHeaders(headers) && e.body == LoggedBody(sub, body)
  {
    ResponseEntry(i.sessionId, requestId, statusCode, LoggedHeaders(headers), LoggedBody(sub, body), durationMs, error)
  }

  /** What a logged entry never shows: the value of a sensitive header; and what it keeps: a
      short body none of the patterns matches. */
  lemma LoggedEntryHidesSecrets(search: Search, sub: Substitute, headers: Option<map<string, string>>, body: Option<string>)
    requires SubstitutionRespectsSearch(search, sub)
    ensures forall k :: k in LoggedHeaders(headers) && Sensitive(k) ==> LoggedHeaders(headers)[k] == Redacted
    ensures var b := body.GetOr("");
      (|b| <= MaxBodyLength && forall i :: 0 <= i < |BodyRules| ==> !search(Pattern(BodyRules[i].0, true), b))
        ==> LoggedBody(sub, body) == b
  {
    var b := body.GetOr("");
    if forall i :: 0 <= i < |BodyRules| ==> !search(Pattern(BodyRules[i].0, true), b) {
      CleanBodyUnchanged(search, sub, b);
    }
  }

  /** A string-valued key of a decoded object: absent, `null`, or present with a string. */
  datatype Field = Absent | Null | Text(text: string)

  /** The fields `get_stats` reads from a decoded object. `type` and `provider` keep an absent key
      and `null` apart, because `entry['type']` raises only on the former and `null` is a key of
      its own in the provider table; for the fields read with `.get`, `None` is an absent key or
      `null`, which Python does not tell apart there. */
  datatype Record = Record(kind: Field, provider: Field, statusCode: Option<int>,
                           durationMs: Option<real>, error: Option<string>)

  /** What `json.loads` gives for one line. */
  datatype Json = JsonObject(record: Record) | JsonOther

  /** One line of the log file: undecodable, or a decoded JSON value. */
  datatype Line = Undecodable | Decoded(value: Json)

  /** The JSON object `json.dumps(entry)` writes for an entry. */
  function RecordOf(e: HttpEntry): Record {
    match e
    case RequestEntry(_, _, _, _, provider, _, _) => Record(Text("http_request"), Text(provider), None, None, None)
    case ResponseEntry(_, _, status, _, _, duration, error) => Record(Text("http_response"), Absent, Some(status), duration, error)
  }

  /** The statistics `get_stats` returns. A provider key is `None` for a request logged with
      `"provider": null`. */
  datatype Stats = Stats(totalRequests: nat, byProvider: map<Option<string>, nat>, byStatus: map<int, nat>,
                         totalDurationMs: real, errors: nat)

  const NoStats: Stats := Stats(0, map[], map[], 0.0, 0)

  /** A line that makes `get_stats` raise: a decoded value that is not an object (`TypeError`)
      or an object without `type` (`KeyError`). Only decoding errors are skipped. */
  predicate Malformed(line: Line) {
    line.Decoded? && (line.value.JsonOther? || line.value.record.kind.Absent?)
  }

  predicate IsRequest(line: Line) {
    line.Decoded? && line.value.JsonObject? && line.value.record.kind == Text("http_request")
  }

  predicate IsResponse(line: Line) {
    line.Decoded? && line.value.JsonObject? && line.value.record.kind == Text("http_response")
  }

  function CountRequests(lines: seq<Line>): nat {
    if |lines| == 0 then 0 else (if IsRequest(lines[0]) then 1 else 0) + CountRequests(lines[1..])
  }

  function CountResponses(lines: seq<Line>): nat {
    if |lines| == 0 then 0 else (if IsResponse(lines[0]) then 1 else 0) + CountResponses(lines[1..])
  }

  /** A response that counts as an error: it carries an error text, or a status of 400 and
      above. */
  predicate IsFailedResponse(line: Line) {
    && IsResponse(line)
    && var rec := line.value.record;
       (rec.error.Some? && rec.error.value != "") || (rec.statusCode.Some? && rec.statusCode.value >= 400)
  }

  function CountFailed(lines: seq<Line>): (n: nat)
    ensures n <= CountResponses(lines)
  {
    if |lines| == 0 then 0 else (if IsFailedResponse(lines[0]) then 1 else 0) + CountFailed(lines[1..])
  }

  /** The key a request is counted under: `entry.get('provider', 'unknown')`. */
  function ProviderKey(provider: Field): Option<string> {
    match provider
    case Absent => Some(Unknown)
    case Null => None
    case Text(p) => Some(p)
  }

  /** The loop body of `get_stats` for one line. A status of 0 or `null` is not counted by
      status; an error text or a status of 400 and above counts as an error. */
  function CountLine(s: Stats, line: Line): (r: Result<Stats>)
    ensures r.Err? <==> Malformed(line)
    ensures (line.Undecodable? || (!Malformed(line) && !IsRequest(line) && !IsResponse(line))) ==> r == Ok(s)
    ensures IsRequest(line) ==> r.Ok? && r.value.byProvider == Increment(s.byProvider, ProviderKey(line.value.record.provider))
  {
    match line
    case Undecodable => Ok(s)
    case Decoded(JsonOther) => Err("TypeError: entry is not an object")
    case Decoded(JsonObject(rec)) =>
      if rec.kind.Absent? then Err("KeyError: 'type'")
      else if rec.kind == Text("http_request") then
        Ok(s.(totalRequests := s.totalRequests + 1,
              byProvider := Increment(s.byProvider, ProviderKey(rec.provider))))
      else if rec.kind == Text("http_response") then
        var statusTruthy := rec.statusCode.Some? && rec.statusCode.value != 0;
        var durationTruthy := rec.durationMs.Some? && rec.durationMs.value != 0.0;
        var failed := (rec.error.Some? && rec.error.value != "") || (statusTruthy && rec.statusCode.value >= 400);
        Ok(s.(byStatus := if statusTruthy then Increment(s.byStatus, rec.statusCode.value) else s.byStatus,
              totalDurationMs := s.totalDurationMs + (if durationTruthy then rec.durationMs.value else 0.0),
              errors := s.errors + (if failed then 1 else 0)))
      else Ok(s)
  }

  /** The `for line in f` loop: lines in file order; the first malformed line aborts. */
  function CountLines(s: Stats, lines: seq<Line>): (r: Result<Stats>)
    ensures r.Err? <==> exists i :: 0 <= i < |lines| && Malformed(lines[i])
    ensures r.Ok? ==> r.value.totalRequests == s.totalRequests + CountRequests(lines)
    decreases |lines|
  {
    assert forall i :: 1 <= i < |lines| ==> lines[i] == lines[1..][i - 1];
    if |lines| == 0 then Ok(s)
    else match CountLine(s, lines[0])
      case Err(e) => Err(e)
      case Ok(s1) => CountLines(s1, lines[1..])
  }

  /** What the loop keeps: requests counted one by one and once per provider, no status 0, one
      error per failed response; and it fails exactly when some line is malformed. */
  lemma {:induction false} CountLinesInvariant(s: Stats, lines: seq<Line>)
    requires 0 !in s.byStatus
    ensures CountLines(s, lines).Err? <==> exists i :: 0 <= i < |lines| && Malformed(lines[i])
    ensures var r := CountLines(s, lines);
      r.Ok? ==>
        && r.value.totalRequests == s.totalRequests + CountRequests(lines)
        && MapSum(r.value.byProvider) + s.totalRequests == MapSum(s.byProvider) + r.value.totalRequests
        && 0 !in r.value.byStatus
        && r.value.errors == s.errors + CountFailed(lines)
    decreases |lines|
  {
    if |lines| > 0 {
      var step := CountLine(s, lines[0]);
      assert forall i :: 1 <= i < |lines| ==> lines[i] == lines[1..][i - 1];
      if step.Ok? {
        CountLineKeeps(s, lines[0]);
        CountLinesInvariant(step.value, lines[1..]);
        if (exists i :: 1 <= i < |lines| && Malformed(lines[i])) {
          var i :| 1 <= i < |lines| && Malformed(lines[i]);
          assert Malformed(lines[1..][i - 1]);
        }
      }
    }
  }

  /** One line of the loop: a request adds one to the total and one to its provider, a failed
      response adds one error, and status 0 is never counted. */
  lemma CountLineKeeps(s: Stats, line: Line)
    requires 0 !in s.byStatus
    requires CountLine(s, line).Ok?
    ensures var r := CountLine(s, line).value;
      && r.totalRequests == s.totalRequests + (if IsRequest(line) then 1 else 0)
      && MapSum(r.byProvider) + s.totalRequests == MapSum(s.byProvider) + r.totalRequests
      && 0 !in r.byStatus
      && r.errors == s.errors + (if IsFailedResponse(line) then 1 else 0)
  {
    if IsRequest(line) {
      MapSumIncrement(s.byProvider, ProviderKey(line.value.record.provider));
    }
  }

  /** `{"type": null}` is neither a request nor a response: the comparisons at lines 167 and 172
      are both false and the line is skipped, while an object without `type` raises. */
  lemma NullTypeSkipped(s: Stats, rec: Record)
    requires rec.kind.Null?
    ensures CountLine(s, Decoded(JsonObject(rec))) == Ok(s)
    ensures CountLine(s, Decoded(JsonObject(rec.(kind := Absent)))).Err?
  {
  }

  /** A request with `"provider": null` is counted under the key `None`, one without the key
      under `unknown`. */
  lemma NullProviderCounted(s: Stats)
    ensures var r := CountLine(s, Decoded(JsonObject(Record(Text("http_request"), Null, None, None, None))));
      r.Ok? && None in r.value.byProvider && r.value.byProvider.Keys == s.byProvider.Keys + {None}
    ensures var r := CountLine(s, Decoded(JsonObject(Record(Text("http_request"), Absent, None, None, None))));
      r.Ok? && r.value.byProvider.Keys == s.byProvider.Keys + {Some(Unknown)}
  {
  }

  /** `get_stats()`: zero statistics when there is no log file; otherwise the counts over its
      lines, or the exception a malformed line raises. */
  function GetStats(file: Option<seq<Line>>): (r: Result<Stats>)
    ensures file.None? ==> r == Ok(NoStats)
    ensures file.Some? ==> (r.Err? <==> exists i :: 0 <= i < |file.value| && Malformed(file.value[i]))
    ensures file.Some? && r.Ok? ==>
      && r.value.totalRequests == CountRequests(file.value)
      && MapSum(r.value.byProvider) == r.value.totalRequests
      && 0 !in r.value.byStatus
      && r.value.errors == CountFailed(file.value)
      && r.value.errors <= CountResponses(file.value)
  {
    match file
    case None => Ok(NoStats)
    case Some(lines) =>
      CountLinesInvariant(NoStats, lines);
      CountLines(NoStats, lines)
  }

  /** An undecodable line is skipped wherever it appears. */
  lemma {:induction false} UndecodableSkipped(s: Stats, before: seq<Line>, after: seq<Line>)
    ensures CountLines(s, before + [Undecodable] + after) == CountLines(s, before + after)
    decreases |before|
  {
    if |before| == 0 {
      assert before + [Undecodable] + after == [Undecodable] + after;
      assert ([Undecodable] + after)[1..] == after;
      assert before + after == after;
      assert CountLine(s, Undecodable) == Ok(s);
    } else {
      var step := CountLine(s, before[0]);
      assert (before + [Undecodable] + after)[0] == before[0];
      assert (before + after)[0] == before[0];
      assert (before + [Undecodable] + after)[1..] == before[1..] + [Undecodable] + after;
      assert (before + after)[1..] == before[1..] + after;
      if step.Ok? {
        UndecodableSkipped(step.value, before[1..], after);
      }
    }
  }

  /** The lines written for a sequence of entries. */
  function LinesOf(entries: seq<HttpEntry>): (lines: seq<Line>)
    ensures |lines| == |entries|
    ensures forall i :: 0 <= i < |entries| ==> lines[i] == Decoded(JsonObject(RecordOf(entries[i])))
  {
    seq(|entries|, i requires 0 <= i < |entries| => Decoded(JsonObject(RecordOf(entries[i]))))
  }

  function CountRequestEntries(entries: seq<HttpEntry>): nat {
    if |entries| == 0 then 0 else (if entries[0].RequestEntry? then 1 else 0) + CountRequestEntries(entries[1..])
  }

  /** Reading back a log the interceptor wrote never raises, and counts exactly the requests it
      logged. */
  lemma {:induction false} StatsOfWrittenLog(entries: seq<HttpEntry>)
    ensures GetStats(Some(LinesOf(entries))).Ok?
    ensures GetStats(Some(LinesOf(entries))).value.totalRequests == CountRequestEntries(entries)
  {
    var lines := LinesOf(entries);
    assert forall i :: 0 <= i < |lines| ==> !Malformed(lines[i]);
    WrittenRequestsCounted(entries);
  }

  lemma {:induction false} WrittenRequestsCounted(entries: seq<HttpEntry>)
    ensures CountRequests(LinesOf(entries)) == CountRequestEntries(entries)
    decreases |entries|
  {
    if |entries| > 0 {
      assert LinesOf(entries)[1..] == LinesOf(entries[1..]);
      WrittenRequestsCounted(entries[1..]);
    }
  }
}

=== FILE: monitor.dfy ===
/** The supervisor (`AgentMonitor`) as a function from abstract inputs to an event log and an exit
    code, and the session registry (`AgentSession`). The process itself is an input: whether
    starting or inspecting it raises, which files it has open, and how it ends. Console output
    and timestamps are not modelled. */
module Monitor {
  import opened Wrappers
  import opened Text
  import opened Re
  import Blocker
  import Sandbox

  /** The `details` dictionary of each kind of log entry. */
  datatype Details =
    | StartDetails(command: string, cwd: string, user: Option<string>)
    | BlockedDetails(command: string, reason: Option<string>, patterns: seq<string>)
    | FileAccessDetails(path: string, mode: string)
    | CompleteDetails(exitCode: int, totalActions: nat, blockedActions: nat)
    | InterruptedDetails(cause: string)
    | ErrorDetails(error: string)

  /** The `action_type` of a log entry. */
  datatype ActionType = Start | Blocked | FileAccess | Complete | Interrupted | Error {
    /** The string written to the log. */
    function Name(): string {
      match this
      case Start => "start"
      case Blocked => "blocked"
      case FileAccess => "file_access"
      case Complete => "complete"
      case Interrupted => "interrupted"
      case Error => "error"
    }
  }

  /** One entry of `self.actions` and of the JSONL log, without its timestamp. */
  datatype Entry = Entry(sessionId: string, actionType: ActionType, details: Details, allowed: bool)

  /** The process `run` started: the command under a sandbox configuration in `cwd`, or the
      command through the shell. */
  datatype Launch = Sandboxed(config: Sandbox.Sandbox, command: string, cwd: string) | Shell(command: string) {
    /** The command line the operating system runs: `run_sandboxed`'s `unshare` line, or
        `sh -c command` for `Popen(command, shell=True)`. */
    function Argv(): seq<string> {
      match this
      case Sandboxed(s, c, _) => Sandbox.BuildUnshareCommand(s, c)
      case Shell(c) => ["/bin/sh", "-c", c]
    }
  }

  /** What a monitor is created with and never changes: the command, the policy name, the
      session id and the sandbox configuration, if any. */
  datatype Settings = Settings(command: string, policy: string, sessionId: string, sandbox: Option<Sandbox.Sandbox>)

  /** The monitor's state. `logFile` is the content of the session's log file, one entry per line. */
  datatype AgentMonitor = AgentMonitor(
    settings: Settings,
    actions: seq<Entry>,
    logFile: seq<Entry>,
    blockedCount: nat,
    process: Option<Launch>,
    terminated: bool)

  /** The environment `run` reads: `os.getcwd()`, `os.getenv('USER')` and the home directory. */
  datatype Env = Env(cwd: string, user: Option<string>, home: string)

  /** An entry of `psutil.Process.open_files()`. */
  datatype OpenFile = OpenFile(path: string, mode: string)

  /** An exception reaching `run`'s handlers. */
  datatype Fault = KeyboardInterrupt | Failure(message: string)

  /** How `communicate()` ends. */
  datatype Completion = Exited(code: int) | Raised(fault: Fault)

  /** What happens once a command is launched: a fault while starting it (no process exists yet),
      a fault while attaching `psutil` to it, the open files (`None` when `psutil` refuses to
      list them), and the end of the process. */
  datatype Execution = Execution(
    launchFault: Option<Fault>,
    attachFault: Option<Fault>,
    openFiles: Option<seq<OpenFile>>,
    completion: Completion)

  /** The monitor after a piece of `run`, with the entries that piece logged, in order. */
  datatype Step = Step(monitor: AgentMonitor, emitted: seq<Entry>)

  /** The result of `run` (or of one of its exits): the exit code, the monitor and the entries
      logged on the way. */
  datatype RunOutcome = RunOutcome(exitCode: int, monitor: AgentMonitor, emitted: seq<Entry>)

  /** `AgentMonitor(command, policy, session_id, use_sandbox)`: `now` is the timestamp used when no
      session id (or an empty one) is given, `existingLog` what the log file already holds. */
  function NewMonitor(home: string, command: string, policy: string, sessionId: Option<string>,
                      now: string, useSandbox: bool, existingLog: seq<Entry>): (m: AgentMonitor)
    ensures m.actions == [] && m.blockedCount == 0 && m.process == None && !m.terminated
    ensures m.logFile == existingLog
    ensures m.settings.sessionId == if sessionId.Some? && sessionId.value != "" then sessionId.value else now
    ensures m.settings.sandbox == if useSandbox then Some(Sandbox.Standard(home)) else None
  {
    AgentMonitor(Settings(command, policy,
                          if sessionId.Some? && sessionId.value != "" then sessionId.value else now,
                          if useSandbox then Some(Sandbox.Standard(home)) else None),
                 [], existingLog, 0, None, false)
  }

  /** The log file holds what it held before the monitor started followed by every action, in
      order. */
  predicate LogMirrorsActions(m: AgentMonitor, existingLog: seq<Entry>) {
    m.logFile == existingLog + m.actions
  }

  /** `log_action`: the entry is appended to the action list and to the log file. */
  function LogAction(m: AgentMonitor, actionType: ActionType, details: Details, allowed: bool): (r: (AgentMonitor, Entry))
    ensures r.1 == Entry(m.settings.sessionId, actionType, details, allowed)
    ensures r.0.actions == m.actions + [r.1]
    ensures r.0.logFile == m.logFile + [r.1]
    ensures r.0 == m.(actions := r.0.actions, logFile := r.0.logFile)
  {
    var entry := Entry(m.settings.sessionId, actionType, details, allowed);
    (m.(actions := m.actions + [entry], logFile := m.logFile + [entry]), entry)
  }

  /** Logging one entry keeps the log file a mirror of the action list. */
  lemma LogActionKeepsMirror(m: AgentMonitor, existingLog: seq<Entry>, actionType: ActionType, details: Details, allowed: bool)
    requires LogMirrorsActions(m, existingLog)
    ensures LogMirrorsActions(LogAction(m, actionType, details, allowed).0, existingLog)
  {
  }

  /** A blocker verdict for one kind of action: whether the target should be blocked. */
  type Guard = string -> bool

  /** `should_block('file_read', path)[0]`: reads are checked by `check_file_read`. */
  function ReadGuard(home: string, search: Search): Guard {
    path => Blocker.ShouldBlock(home, search, "file_read", path).0
  }

  /** A path passes the read guard exactly when the read policy allows it. */
  lemma ReadGuardMeaning(home: string, search: Search, path: string)
    ensures !ReadGuard(home, search)(path) <==> Blocker.CheckFileRead(home, search, path).allowed
  {
  }

  /** What `check_policy` does with the blocker's verdict: count a block, answer the negation. */
  function CountBlock(m: AgentMonitor, block: bool): (r: (AgentMonitor, bool))
    ensures r.1 == !block
    ensures r.0.blockedCount == m.blockedCount + (if block then 1 else 0)
    ensures r.0 == m.(blockedCount := r.0.blockedCount)
  {
    (if block then m.(blockedCount := m.blockedCount + 1) else m, !block)
  }

  /** `check_policy`: the answer is the negation of the blocker's verdict, and the blocked
      counter grows exactly when the blocker says block. */
  function CheckPolicy(m: AgentMonitor, home: string, search: Search, actionType: string, target: string): (r: (AgentMonitor, bool))
    ensures r.1 == !Blocker.ShouldBlock(home, search, actionType, target).0
    ensures r.0.blockedCount == m.blockedCount + (if r.1 then 0 else 1)
    ensures r.0 == m.(blockedCount := r.0.blockedCount)
  {
    CountBlock(m, Blocker.ShouldBlock(home, search, actionType, target).0)
  }

  /** On reads, `check_policy` answers whether `check_file_read` allows the path, and counts a
      block otherwise. */
  lemma CheckPolicyOnRead(m: AgentMonitor, home: string, search: Search, path: string)
    ensures var r := CheckPolicy(m, home, search, "file_read", path);
      && r.1 == Blocker.CheckFileRead(home, search, path).allowed
      && r == CountBlock(m, ReadGuard(home, search)(path))
  {
  }

  /** The number of files the guard refuses. */
  function DeniedReads(guard: Guard, files: seq<OpenFile>): (n: nat)
    ensures n <= |files|
  {
    if |files| == 0 then 0
    else (if guard(files[0].path) then 1 else 0) + DeniedReads(guard, files[1..])
  }

  /** The entry logged for an open file. */
  function FileAccessEntry(sessionId: string, guard: Guard, f: OpenFile): Entry {
    Entry(sessionId, FileAccess, FileAccessDetails(f.path, f.mode), !guard(f.path))
  }

  /** `after` is `before` with `emitted` logged: appended to the action list and to the file. */
  predicate Logged(before: AgentMonitor, after: AgentMonitor, emitted: seq<Entry>) {
    after.actions == before.actions + emitted && after.logFile == before.logFile + emitted
  }

  /** Logging in two steps logs the concatenation. */
  lemma LoggedChain(a: AgentMonitor, b: AgentMonitor, c: AgentMonitor, e1: seq<Entry>, e2: seq<Entry>)
    requires Logged(a, b, e1) && Logged(b, c, e2)
    ensures Logged(a, c, e1 + e2)
  {
  }

  /** The monitor fields no logging or counting touches. */
  predicate SameSession(a: AgentMonitor, b: AgentMonitor) {
    a.settings == b.settings && a.process == b.process && a.terminated == b.terminated
  }

  /** The `for f in open_files` loop: one `file_access` entry per file, in order, each carrying the
      policy's answer, whether or not the read is refused. */
  function InspectFiles(m: AgentMonitor, guard: Guard, files: seq<OpenFile>): (r: Step)
    ensures Logged(m, r.monitor, r.emitted)
    ensures |r.emitted| == |files|
    ensures forall i :: 0 <= i < |files| ==> r.emitted[i] == FileAccessEntry(m.settings.sessionId, guard, files[i])
    ensures forall e :: e in r.emitted ==> e.actionType == FileAccess
    ensures r.monitor.blockedCount == m.blockedCount + DeniedReads(guard, files)
    ensures SameSession(r.monitor, m)
    decreases |files|
  {
    if |files| == 0 then Step(m, [])
    else
      var f := files[0];
      var (m1, allowed) := CountBlock(m, guard(f.path));
      var (m2, entry) := LogAction(m1, FileAccess, FileAccessDetails(f.path, f.mode), allowed);
      var r := InspectFiles(m2, guard, files[1..]);
      assert forall i :: 1 <= i < |files| ==> files[i] == files[1..][i - 1];
      Step(r.monitor, [entry] + r.emitted)
  }

  /** The exception handlers of `run`: an interrupt logs `interrupted`, terminates the process if
      there is one and exits 130; any other exception logs a refused `error` entry and exits 1. */
  function HandleFault(m: AgentMonitor, f: Fault): (r: RunOutcome)
    ensures Logged(m, r.monitor, r.emitted)
    ensures f == KeyboardInterrupt ==>
      && r.exitCode == 130
      && r.emitted == [Entry(m.settings.sessionId, Interrupted, InterruptedDetails("user_keyboard"), true)]
      && (r.monitor.terminated <==> m.terminated || m.process.Some?)
    ensures f.Failure? ==>
      && r.exitCode == 1
      && r.emitted == [Entry(m.settings.sessionId, Error, ErrorDetails(f.message), false)]
      && r.monitor.terminated == m.terminated
    ensures r.monitor.blockedCount == m.blockedCount && r.monitor.process == m.process
  {
    match f
    case KeyboardInterrupt =>
      var (m1, e) := LogAction(m, Interrupted, InterruptedDetails("user_keyboard"), true);
      RunOutcome(130, if m1.process.Some? then m1.(terminated := true) else m1, [e])
    case Failure(msg) =>
      var (m1, e) := LogAction(m, Error, ErrorDetails(msg), false);
      RunOutcome(1, m1, [e])
  }

  /** The process `run` starts: the command under the monitor's sandbox when it has one,
      otherwise the command through the shell. */
  function LaunchOf(sandbox: Option<Sandbox.Sandbox>, command: string, cwd: string): (l: Launch)
    ensures sandbox.Some? <==> l.Sandboxed?
    ensures l.command == command
    ensures l.Sandboxed? ==> l.config == sandbox.value && l.cwd == cwd
  {
    match sandbox
    case Some(s) => Sandboxed(s, command, cwd)
    case None => Shell(command)
  }

  /** A sandboxed launch runs `unshare` with the user namespace and ends with the command
      handed to `sh -c`. */
  lemma SandboxedLaunchArgv(sandbox: Sandbox.Sandbox, command: string, cwd: string)
    ensures var argv := LaunchOf(Some(sandbox), command, cwd).Argv();
      && |argv| >= 6 && argv[..2] == ["unshare", "--user"]
      && argv[|argv| - 4..] == ["--", "sh", "-c", command]
  {
  }

  /** The end of the `try` block: `communicate()` either raises or returns, and then `complete`
      is logged with the return code, the number of actions so far and the blocked count. */
  function Finish(m: AgentMonitor, completion: Completion): (r: RunOutcome)
    ensures Logged(m, r.monitor, r.emitted)
    ensures r.monitor.process == m.process
    ensures completion.Exited? ==>
      && r.exitCode == completion.code
      && r.emitted == [Entry(m.settings.sessionId, Complete, CompleteDetails(completion.code, |m.actions|, m.blockedCount), true)]
    ensures forall e :: e in r.emitted ==> e.actionType != Blocked
  {
    match completion
    case Raised(f) => HandleFault(m, f)
    case Exited(code) =>
      var (m1, e) := LogAction(m, Complete, CompleteDetails(code, |m.actions|, m.blockedCount), true);
      RunOutcome(code, m1, [e])
  }

  /** The `try` block once the process exists: attach to it, inspect its open files, finish. */
  function Supervise(m: AgentMonitor, guard: Guard, exec: Execution): (r: RunOutcome)
    ensures Logged(m, r.monitor, r.emitted)
    ensures r.monitor.process == m.process
    ensures forall e :: e in r.emitted ==> e.actionType != Blocked
  {
    match exec.attachFault
    case Some(f) => HandleFault(m, f)
    case None =>
      var inspected := match exec.openFiles
                       case None => Step(m, [])
                       case Some(files) => InspectFiles(m, guard, files);
      var r := Finish(inspected.monitor, exec.completion);
      RunOutcome(r.exitCode, r.monitor, inspected.emitted + r.emitted)
  }

  /** The monitor once the process is started. */
  function Launched(m: AgentMonitor, env: Env): (r: AgentMonitor)
    ensures r.actions == m.actions && r.logFile == m.logFile && r.blockedCount == m.blockedCount
    ensures r.settings.sessionId == m.settings.sessionId && r.process == Some(LaunchOf(m.settings.sandbox, m.settings.command, env.cwd))
  {
    m.(process := Some(LaunchOf(m.settings.sandbox, m.settings.command, env.cwd)))
  }

  /** The `try` block of `run`, entered once the gate lets the command through. */
  function Execute(m: AgentMonitor, env: Env, guard: Guard, exec: Execution): (r: RunOutcome)
    ensures Logged(m, r.monitor, r.emitted)
    ensures exec.launchFault.Some? ==> r.monitor.process == m.process
    ensures exec.launchFault.None? ==> r.monitor.process == Some(LaunchOf(m.settings.sandbox, m.settings.command, env.cwd))
    ensures forall e :: e in r.emitted ==> e.actionType != Blocked
  {
    match exec.launchFault
    case Some(f) => HandleFault(m, f)
    case None => Supervise(Launched(m, env), guard, exec)
  }

  /** The entry `run` logs first. */
  function StartEntry(m: AgentMonitor, env: Env): Entry {
    Entry(m.settings.sessionId, Start, StartDetails(m.settings.command, env.cwd, env.user), true)
  }

  /** The monitor once the start entry is logged. */
  function Started(m: AgentMonitor, env: Env): (r: AgentMonitor)
    ensures Logged(m, r, [StartEntry(m, env)])
    ensures SameSession(r, m) && r.blockedCount == m.blockedCount
  {
    LogAction(m, Start, StartDetails(m.settings.command, env.cwd, env.user), true).0
  }

  /** `run` as written. The first value of `check_command` is the ALLOWED flag, but monitor.py:79
      binds it to `should_block`: a command with no dangerous match is stopped and one with
      matches is launched. */
  function Run(m: AgentMonitor, env: Env, search: Search, exec: Execution): (r: RunOutcome)
    ensures Logged(m, r.monitor, r.emitted)
    ensures |r.emitted| > 0 && r.emitted[0] == Entry(m.settings.sessionId, Start, StartDetails(m.settings.command, env.cwd, env.user), true)
  {
    var d := Blocker.CheckCommand(search, m.settings.command);
    var shouldBlock := d.allowed;
    AfterGate(m, env, ReadGuard(env.home, search), exec, d, shouldBlock)
  }

  /** Everything `run` does once the gate has answered: the start entry, then either the blocked
      branch or the launch. */
  function AfterGate(m: AgentMonitor, env: Env, guard: Guard, exec: Execution,
                     d: Blocker.CommandDecision, shouldBlock: bool): (r: RunOutcome)
    ensures Logged(m, r.monitor, r.emitted)
    ensures |r.emitted| > 0 && r.emitted[0] == StartEntry(m, env)
    ensures shouldBlock ==>
      && r.exitCode == 1 && r.monitor.process == m.process
      && r.monitor.blockedCount == m.blockedCount + 1
      && r.emitted[1..] == [
           Entry(m.settings.sessionId, Blocked, BlockedDetails(m.settings.command, d.reason, d.matched), false),
           Entry(m.settings.sessionId, Complete, CompleteDetails(1, |m.actions| + 2, m.blockedCount + 1), true)]
    ensures !shouldBlock ==> exec.launchFault.None? ==> r.monitor.process == Some(LaunchOf(m.settings.sandbox, m.settings.command, env.cwd))
    ensures !shouldBlock ==> forall e :: e in r.emitted[1..] ==> e.actionType != Blocked
  {
    var m1 := Started(m, env);
    var start := StartEntry(m, env);
    var r := if shouldBlock then Refuse(m1, d) else Execute(m1, env, guard, exec);
    LoggedChain(m, m1, r.monitor, [start], r.emitted);
    assert ([start] + r.emitted)[1..] == r.emitted;
    RunOutcome(r.exitCode, r.monitor, [start] + r.emitted)
  }

  /** The blocked branch of `run`: count the block, log `blocked` and `complete`, exit 1 without
      starting anything. */
  function Refuse(m: AgentMonitor, d: Blocker.CommandDecision): (r: RunOutcome)
    ensures Logged(m, r.monitor, r.emitted)
    ensures r.exitCode == 1
    ensures r.monitor.blockedCount == m.blockedCount + 1
    ensures r.emitted == [
      Entry(m.settings.sessionId, Blocked, BlockedDetails(m.settings.command, d.reason, d.matched), false),
      Entry(m.settings.sessionId, Complete, CompleteDetails(1, |m.actions| + 1, m.blockedCount + 1), true)]
    ensures r.monitor.process == m.process && r.monitor.terminated == m.terminated
  {
    var m1 := m.(blockedCount := m.blockedCount + 1);
    var (m2, blocked) := LogAction(m1, Blocked, BlockedDetails(m.settings.command, d.reason, d.matched), false);
    var (m3, complete) := LogAction(m2, Complete, CompleteDetails(1, |m2.actions|, m2.blockedCount), true);
    RunOutcome(1, m3, [blocked, complete])
  }

  /** Whether any dangerous pattern matches the command. */
  predicate Dangerous(search: Search, command: string) {
    exists i :: 0 <= i < |Blocker.DangerousPatterns| && search(Pattern(Blocker.DangerousPatterns[i], true), command)
  }

  /** The blocked branch seen from the start of `run`: start, blocked, complete. */
  lemma RefusedRun(m: AgentMonitor, env: Env, guard: Guard, exec: Execution, d: Blocker.CommandDecision)
    ensures var r := AfterGate(m, env, guard, exec, d, true);
      && r.exitCode == 1
      && r.monitor.process == m.process
      && r.monitor.blockedCount == m.blockedCount + 1
      && r.monitor.actions == m.actions + [
           Entry(m.settings.sessionId, Start, StartDetails(m.settings.command, env.cwd, env.user), true),
           Entry(m.settings.sessionId, Blocked, BlockedDetails(m.settings.command, d.reason, d.matched), false),
           Entry(m.settings.sessionId, Complete, CompleteDetails(1, |m.actions| + 2, m.blockedCount + 1), true)]
  {
    var r := AfterGate(m, env, guard, exec, d, true);
    assert r.emitted == [r.emitted[0]] + r.emitted[1..];
  }

  /** A command matches a dangerous pattern exactly when `check_command` does not allow it;
      otherwise there is no reason and no matched pattern. */
  lemma DangerousMeansNotAllowed(search: Search, command: string)
    ensures Dangerous(search, command) <==> !Blocker.CheckCommand(search, command).allowed
    ensures !Dangerous(search, command) ==>
      Blocker.CheckCommand(search, command).reason == None && Blocker.CheckCommand(search, command).matched == []
  {
  }

  /** `run` binds the first value of `check_command` to `should_block`. */
  lemma RunGate(m: AgentMonitor, env: Env, search: Search, exec: Execution)
    ensures var d := Blocker.CheckCommand(search, m.settings.command);
      Run(m, env, search, exec) == AfterGate(m, env, ReadGuard(env.home, search), exec, d, d.allowed)
  {
  }

  /** The blocked branch on a fresh monitor, for a decision with no reason and no patterns. */
  lemma RefusedFreshRun(m: AgentMonitor, env: Env, guard: Guard, exec: Execution, d: Blocker.CommandDecision)
    requires m.actions == [] && m.blockedCount == 0
    requires d.reason == None && d.matched == []
    ensures var r := AfterGate(m, env, guard, exec, d, true);
      && r.exitCode == 1
      && r.monitor.process == m.process
      && r.monitor.blockedCount == 1
      && r.monitor.actions == [
           Entry(m.settings.sessionId, Start, StartDetails(m.settings.command, env.cwd, env.user), true),
           Entry(m.settings.sessionId, Blocked, BlockedDetails(m.settings.command, None, []), false),
           Entry(m.settings.sessionId, Complete, CompleteDetails(1, 2, 1), true)]
  {
    RefusedRun(m, env, guard, exec, d);
  }

  /** The inverted gate, first half: on a fresh monitor a command that matches no dangerous
      pattern is refused, with no reason and no patterns, and never started. */
  lemma SafeCommandIsBlocked(m: AgentMonitor, env: Env, search: Search, exec: Execution)
    requires m.actions == [] && m.blockedCount == 0 && m.process == None
    requires !Dangerous(search, m.settings.command)
    ensures var r := Run(m, env, search, exec);
      && r.exitCode == 1
      && r.monitor.process == None
      && r.monitor.blockedCount == 1
      && r.monitor.actions == [
           Entry(m.settings.sessionId, Start, StartDetails(m.settings.command, env.cwd, env.user), true),
           Entry(m.settings.sessionId, Blocked, BlockedDetails(m.settings.command, None, []), false),
           Entry(m.settings.sessionId, Complete, CompleteDetails(1, 2, 1), true)]
  {
    DangerousMeansNotAllowed(search, m.settings.command);
    RunGate(m, env, search, exec);
    RefusedFreshRun(m, env, ReadGuard(env.home, search), exec, Blocker.CheckCommand(search, m.settings.command));
  }

  /** The inverted gate, second half: a command that matches a dangerous pattern is started
      (unless starting it raises), and nothing is logged as blocked. */
  lemma DangerousCommandIsLaunched(m: AgentMonitor, env: Env, search: Search, exec: Execution)
    requires Dangerous(search, m.settings.command)
    ensures var r := Run(m, env, search, exec);
      && (exec.launchFault.None? ==> r.monitor.process == Some(LaunchOf(m.settings.sandbox, m.settings.command, env.cwd)))
      && (forall e :: e in r.emitted[1..] ==> e.actionType != Blocked)
  {
    DangerousMeansNotAllowed(search, m.settings.command);
    RunGate(m, env, search, exec);
  }

  /** A process that exits with `code`: `complete` is logged with the code, the number of
      actions so far and the blocked count, and `run` returns the code. */
  lemma FinishExited(m: AgentMonitor, code: int, sessionId: string, total: nat, blocked: nat)
    requires sessionId == m.settings.sessionId && total == |m.actions| && blocked == m.blockedCount
    ensures var r := Finish(m, Exited(code));
      && r.exitCode == code && r.monitor.blockedCount == blocked
      && r.emitted == [Entry(sessionId, Complete, CompleteDetails(code, total, blocked), true)]
  {
  }

  /** A command the gate lets through: the start entry, then whatever the `try` block logs. */
  lemma LaunchedRun(m: AgentMonitor, env: Env, guard: Guard, exec: Execution, d: Blocker.CommandDecision)
    ensures var x := Execute(Started(m, env), env, guard, exec);
      var r := AfterGate(m, env, guard, exec, d, false);
      && r.exitCode == x.exitCode
      && r.monitor.blockedCount == x.monitor.blockedCount
      && r.emitted == [StartEntry(m, env)] + x.emitted
  {
  }

  /** When starting the process does not raise, the `try` block supervises the started process. */
  lemma ExecuteLaunches(m: AgentMonitor, env: Env, guard: Guard, exec: Execution)
    requires exec.launchFault.None?
    ensures var x := Execute(m, env, guard, exec);
      var y := Supervise(Launched(m, env), guard, exec);
      x.exitCode == y.exitCode && x.monitor.blockedCount == y.monitor.blockedCount && x.emitted == y.emitted
  {
  }

  /** A process that runs to completion once attached: one `file_access` entry per open file,
      then `complete` with the return code, the number of actions before it and the blocked
      count. The caller names the fields of the `complete` entry. */
  lemma SupervisedCompletion(m: AgentMonitor, guard: Guard, files: seq<OpenFile>, code: int,
                             sessionId: string, total: nat, blocked: nat)
    requires sessionId == m.settings.sessionId && total == |m.actions| + |files|
    requires blocked == m.blockedCount + DeniedReads(guard, files)
    ensures var r := Supervise(m, guard, Execution(None, None, Some(files), Exited(code)));
      && r.exitCode == code
      && r.monitor.blockedCount == blocked
      && r.emitted == InspectFiles(m, guard, files).emitted + [Entry(sessionId, Complete, CompleteDetails(code, total, blocked), true)]
  {
    var inspected := InspectFiles(m, guard, files);
    FinishExited(inspected.monitor, code, sessionId, total, blocked);
  }

  /** Once the gate lets the command through and starting it does not raise, `run` logs the
      start entry and then exactly what supervising the started process logs, and returns its
      exit code. */
  lemma OpenGateRun(m: AgentMonitor, env: Env, guard: Guard, exec: Execution, d: Blocker.CommandDecision)
    requires exec.launchFault.None?
    ensures var r := AfterGate(m, env, guard, exec, d, false);
      var s := Supervise(Launched(Started(m, env), env), guard, exec);
      && r.exitCode == s.exitCode
      && r.monitor.blockedCount == s.monitor.blockedCount
      && r.emitted == [StartEntry(m, env)] + s.emitted
  {
    ExecuteLaunches(Started(m, env), env, guard, exec);
    LaunchedRun(m, env, guard, exec, d);
  }

  /** A process launched from a fresh monitor that runs to completion: after the start entry
      come one `file_access` entry per open file, allowed exactly when the guard does not refuse
      its path, and a final `complete` entry carrying the return code, the number of actions
      before it and the number of refused reads. */
  lemma LaunchedCompletion(m: AgentMonitor, env: Env, guard: Guard, files: seq<OpenFile>, code: int, d: Blocker.CommandDecision)
    requires m.actions == [] && m.blockedCount == 0
    ensures var r := AfterGate(m, env, guard, Execution(None, None, Some(files), Exited(code)), d, false);
      && r.exitCode == code
      && |r.emitted| == |files| + 2
      && r.monitor.blockedCount == DeniedReads(guard, files)
      && (forall i :: 0 <= i < |files| ==> r.emitted[i + 1] == FileAccessEntry(m.settings.sessionId, guard, files[i]))
      && r.emitted[|files| + 1] ==
           Entry(m.settings.sessionId, Complete, CompleteDetails(code, |files| + 1, DeniedReads(guard, files)), true)
  {
    var exec := Execution(None, None, Some(files), Exited(code));
    var m2 := Launched(Started(m, env), env);
    var complete := Entry(m.settings.sessionId, Complete, CompleteDetails(code, |files| + 1, DeniedReads(guard, files)), true);
    OpenGateRun(m, env, guard, exec, d);
    SupervisedCompletion(m2, guard, files, code, m.settings.sessionId, |files| + 1, DeniedReads(guard, files));
    var inspected := InspectFiles(m2, guard, files).emitted;
    FramedEntries(AfterGate(m, env, guard, exec, d, false).emitted, StartEntry(m, env), inspected, complete);
  }

  /** Indexing into a sequence framed by a first and a last element. */
  lemma FramedEntries(emitted: seq<Entry>, first: Entry, inner: seq<Entry>, last: Entry)
    requires emitted == [first] + (inner + [last])
    ensures |emitted| == |inner| + 2 && emitted[|inner| + 1] == last
    ensures forall i :: 0 <= i < |inner| ==> emitted[i + 1] == inner[i]
  {
  }

  /** A dangerous command whose process runs to completion on a fresh monitor: `run` logs the
      start entry, one `file_access` entry per open file, each allowed exactly when the read
      policy allows the path, and a final `complete` entry carrying the return code and the
      number of refused reads, and returns that code. */
  lemma NormalCompletion(m: AgentMonitor, env: Env, search: Search, files: seq<OpenFile>, code: int)
    requires m.actions == [] && m.blockedCount == 0
    requires Dangerous(search, m.settings.command)
    ensures var r := Run(m, env, search, Execution(None, None, Some(files), Exited(code)));
      var guard := ReadGuard(env.home, search);
      && r.exitCode == code
      && |r.emitted| == |files| + 2
      && r.monitor.blockedCount == DeniedReads(guard, files)
      && (forall i :: 0 <= i < |files| ==> r.emitted[i + 1] == FileAccessEntry(m.settings.sessionId, guard, files[i]))
      && r.emitted[|files| + 1] ==
           Entry(m.settings.sessionId, Complete, CompleteDetails(code, |files| + 1, DeniedReads(guard, files)), true)
  {
    DangerousMeansNotAllowed(search, m.settings.command);
    RunGate(m, env, search, Execution(None, None, Some(files), Exited(code)));
    LaunchedCompletion(m, env, ReadGuard(env.home, search), files, code, Blocker.CheckCommand(search, m.settings.command));
  }

  /** The `allowed` flag of a file-access entry is the read policy's answer for the path. */
  lemma FileAccessFollowsReadPolicy(sessionId: string, home: string, search: Search, f: OpenFile)
    ensures FileAccessEntry(sessionId, ReadGuard(home, search), f).allowed == Blocker.CheckFileRead(home, search, f.path).allowed
  {
    ReadGuardMeaning(home, search, f.path);
  }

  /** `run` with the gate the comment at monitor.py:77 describes: refuse when the command is NOT
      allowed. */
  function RunIntended(m: AgentMonitor, env: Env, search: Search, exec: Execution): (r: RunOutcome)
    ensures Logged(m, r.monitor, r.emitted)
    ensures |r.emitted| > 0 && r.emitted[0] == Entry(m.settings.sessionId, Start, StartDetails(m.settings.command, env.cwd, env.user), true)
  {
    var d := Blocker.CheckCommand(search, m.settings.command);
    AfterGate(m, env, ReadGuard(env.home, search), exec, d, !d.allowed)
  }

  /** With the intended gate a dangerous command is never started: `run` exits 1, logs the
      matched patterns and counts one block. */
  lemma IntendedGateStopsDangerous(m: AgentMonitor, env: Env, search: Search, exec: Execution)
    requires Dangerous(search, m.settings.command)
    ensures var r := RunIntended(m, env, search, exec);
      var d := Blocker.CheckCommand(search, m.settings.command);
      && r.exitCode == 1
      && r.monitor.process == m.process
      && r.monitor.blockedCount == m.blockedCount + 1
      && d.matched != []
      && r.monitor.actions == m.actions + [
           Entry(m.settings.sessionId, Start, StartDetails(m.settings.command, env.cwd, env.user), true),
           Entry(m.settings.sessionId, Blocked, BlockedDetails(m.settings.command, d.reason, d.matched), false),
           Entry(m.settings.sessionId, Complete, CompleteDetails(1, |m.actions| + 2, m.blockedCount + 1), true)]
  {
    var d := Blocker.CheckCommand(search, m.settings.command);
    assert !d.allowed;
    RefusedRun(m, env, ReadGuard(env.home, search), exec, d);
  }

  /** With the intended gate a safe command is started. */
  lemma IntendedGateLaunchesSafe(m: AgentMonitor, env: Env, search: Search, exec: Execution)
    requires !Dangerous(search, m.settings.command)
    requires exec.launchFault.None?
    ensures RunIntended(m, env, search, exec).monitor.process == Some(LaunchOf(m.settings.sandbox, m.settings.command, env.cwd))
  {
    var d := Blocker.CheckCommand(search, m.settings.command);
    assert d.allowed;
  }

  /** The as-written and intended gates disagree on every command: exactly one of them starts it. */
  lemma GatesDisagree(m: AgentMonitor, env: Env, search: Search, exec: Execution)
    requires m.process == None && exec.launchFault.None?
    ensures Run(m, env, search, exec).monitor.process.Some? != RunIntended(m, env, search, exec).monitor.process.Some?
  {
  }

  /** Logging keeps the log file a mirror of the action list. */
  lemma LoggedKeepsMirror(m: AgentMonitor, r: AgentMonitor, emitted: seq<Entry>, existingLog: seq<Entry>)
    requires Logged(m, r, emitted) && LogMirrorsActions(m, existingLog)
    ensures LogMirrorsActions(r, existingLog)
  {
  }

  /** `run` keeps the log file a mirror of the action list. */
  lemma RunKeepsMirror(m: AgentMonitor, existingLog: seq<Entry>, env: Env, search: Search, exec: Execution)
    requires LogMirrorsActions(m, existingLog)
    ensures LogMirrorsActions(Run(m, env, search, exec).monitor, existingLog)
  {
    var r := Run(m, env, search, exec);
    LoggedKeepsMirror(m, r.monitor, r.emitted, existingLog);
  }

  /** A session record of `sessions.json`, without its timestamp. */
  datatype SessionRecord = SessionRecord(sessionId: string, command: string, pid: int, started: string)

  /** `AgentSession.list_active`: the registry, empty when the file does not exist. */
  function ListActive(sessionsFile: Option<seq<SessionRecord>>): (r: seq<SessionRecord>)
    ensures sessionsFile.None? ==> r == []
    ensures sessionsFile.Some? ==> r == sessionsFile.value
  {
    match sessionsFile
    case None => []
    case Some(records) => records
  }

  /** `AgentSession.add_session`: the new registry content. */
  function AddSession(sessionsFile: Option<seq<SessionRecord>>, sessionId: string, command: string,
                      pid: int, now: string): (r: seq<SessionRecord>)
    ensures |r| == |ListActive(sessionsFile)| + 1
    ensures r[..|r| - 1] == ListActive(sessionsFile)
    ensures r[|r| - 1] == SessionRecord(sessionId, command, pid, now)
  {
    ListActive(sessionsFile) + [SessionRecord(sessionId, command, pid, now)]
  }

  /** The registry without the records of `sessionId`. */
  function Without(records: seq<SessionRecord>, sessionId: string): (r: seq<SessionRecord>)
    ensures IsSubsequence(r, records)
    ensures forall s :: s in r <==> s in records && s.sessionId != sessionId
    decreases |records|
  {
    if |records| == 0 then []
    else
      var rest := Without(records[1..], sessionId);
      assert forall s :: s in records[1..] ==> s in records;
      assert forall s :: s in records ==> s == records[0] || s in records[1..];
      if records[0].sessionId != sessionId then [records[0]] + rest else rest
  }

  /** `AgentSession.remove_session`: the new registry content; the other sessions keep their order. */
  function RemoveSession(sessionsFile: Option<seq<SessionRecord>>, sessionId: string): (r: seq<SessionRecord>)
    ensures IsSubsequence(r, ListActive(sessionsFile))
    ensures forall s :: s in r <==> s in ListActive(sessionsFile) && s.sessionId != sessionId
  {
    Without(ListActive(sessionsFile), sessionId)
  }

  /** Removing the records of an id that is not registered leaves the registry unchanged. */
  lemma {:induction false} WithoutAbsent(records: seq<SessionRecord>, sessionId: string)
    requires forall i :: 0 <= i < |records| ==> records[i].sessionId != sessionId
    ensures Without(records, sessionId) == records
    decreases |records|
  {
    if |records| > 0 {
      WithoutAbsent(records[1..], sessionId);
    }
  }

  /** `Without` distributes over concatenation. */
  lemma {:induction false} WithoutAppend(a: seq<SessionRecord>, b: seq<SessionRecord>, sessionId: string)
    ensures Without(a + b, sessionId) == Without(a, sessionId) + Without(b, sessionId)
    decreases |a|
  {
    if |a| > 0 {
      assert (a + b)[1..] == a[1..] + b;
      WithoutAppend(a[1..], b, sessionId);
    } else {
      assert a + b == b;
    }
  }

  /** Registering a new session and removing it again restores the registry. */
  lemma AddThenRemove(sessionsFile: Option<seq<SessionRecord>>, sessionId: string, command: string, pid: int, now: string)
    requires forall i :: 0 <= i < |ListActive(sessionsFile)| ==> ListActive(sessionsFile)[i].sessionId != sessionId
    ensures RemoveSession(Some(AddSession(sessionsFile, sessionId, command, pid, now)), sessionId) == ListActive(sessionsFile)
  {
    var before := ListActive(sessionsFile);
    var rec := SessionRecord(sessionId, command, pid, now);
    WithoutAppend(before, [rec], sessionId);
    WithoutAbsent(before, sessionId);
    assert Without([rec], sessionId) == [];
  }
}

=== FILE: rate_limiter.dfy ===
/** API rate-limit bookkeeping (`RateLimitTracker`): which limits apply to a provider and model,
    how a time window picks a limit, how many logged requests fall into the window, how close
    that count is to the limit, and how custom limits are recorded. Percentages are exact
    `real` values; the source rounds the reported percentage to one decimal, which is not
    modelled. The clock is the parameter `now`, in microseconds. */
module RateLimiter {
  import opened Wrappers
  import opened Text

  /** One limit table: limit key (`rpm`, `tpm`, `rpd`) to its value. */
  type Limits = map<string, int>

  /** A provider's limit tables by model name, `default` being the fallback. */
  type ModelLimits = map<string, Limits>

  datatype ProviderInfo = ProviderInfo(name: string, limits: ModelLimits)

  function Table(rpm: int, tpm: int, rpd: int): Limits {
    map["rpm" := rpm, "tpm" := tpm, "rpd" := rpd]
  }

  /** The built-in `PROVIDER_LIMITS`. */
  const ProviderLimits: map<string, ProviderInfo> := map[
    "openai" := ProviderInfo("OpenAI", map[
      "gpt-4" := Table(500, 30000, 10000),
      "gpt-3.5-turbo" := Table(3500, 90000, 10000),
      "default" := Table(500, 30000, 10000)]),
    "anthropic" := ProviderInfo("Anthropic", map[
      "claude-3-opus" := Table(1000, 80000, 50000),
      "claude-3-sonnet" := Table(2000, 160000, 100000),
      "default" := Table(1000, 80000, 50000)]),
    "google" := ProviderInfo("Google AI", map["default" := Table(60, 32000, 1500)]),
    "cohere" := ProviderInfo("Cohere", map["default" := Table(100, 40000, 10000)]),
    "huggingface" := ProviderInfo("HuggingFace", map["default" := Table(30, 10000, 1000)]),
    "replicate" := ProviderInfo("Replicate", map["default" := Table(50, 20000, 5000)])
  ]

  const WarningThreshold: real := 0.8
  const CriticalThreshold: real := 0.95

  /** The contents of `rate_limits.json`; a `None` field is a key the file does not have. */
  datatype Config = Config(
    customLimits: Option<map<string, ModelLimits>>,
    warningThreshold: Option<real>,
    criticalThreshold: Option<real>)

  /** `_load_limits_config()`: the stored configuration, or the default one when there is no
      file (which the source then writes out). */
  function LoadLimitsConfig(file: Option<Config>): (c: Config)
    ensures file.Some? ==> c == file.value
    ensures file.None? ==> c.customLimits == Some(map[])
    ensures file.None? ==> c.warningThreshold == Some(WarningThreshold)
    ensures file.None? ==> c.criticalThreshold == Some(CriticalThreshold)
  {
    match file
    case Some(stored) => stored
    case None => Config(Some(map[]), Some(WarningThreshold), Some(CriticalThreshold))
  }

  /** `config.get('custom_limits', {})`. */
  function Custom(config: Config): map<string, ModelLimits> {
    config.customLimits.GetOr(map[])
  }

  /** The table a lower-cased provider name selects: the custom one if there is one, else the
      built-in one, else nothing. */
  function TableFor(config: Config, p: string): (t: ModelLimits)
    ensures p in Custom(config) ==> t == Custom(config)[p]
    ensures p !in Custom(config) && p in ProviderLimits ==> t == ProviderLimits[p].limits
    ensures p !in Custom(config) && p !in ProviderLimits ==> t == map[]
  {
    var custom := Custom(config);
    if p in custom then custom[p]
    else if p in ProviderLimits then ProviderLimits[p].limits
    else map[]
  }

  /** Within one table: the model's own limits when a non-empty model name is listed, else the
      `default` limits, else none. */
  function ChooseModel(t: ModelLimits, model: Option<string>): (r: Limits)
    ensures model.Some? && model.value != "" && model.value in t ==> r == t[model.value]
    ensures (model.None? || model.value == "" || model.value !in t) && "default" in t ==>
      r == t["default"]
    ensures (model.None? || model.value == "" || model.value !in t) && "default" !in t ==>
      r == map[]
  {
    if model.Some? && model.value != "" && model.value in t then t[model.value]
    else if "default" in t then t["default"]
    else map[]
  }

  /** `get_provider_limits(provider, model)`. */
  function GetProviderLimits(config: Config, provider: string, model: Option<string>): (r: Limits)
    ensures Lower(provider) in Custom(config) ==> r == ChooseModel(Custom(config)[Lower(provider)], model)
    ensures Lower(provider) !in Custom(config) && Lower(provider) in ProviderLimits ==>
      r == ChooseModel(ProviderLimits[Lower(provider)].limits, model)
    ensures Lower(provider) !in Custom(config) && Lower(provider) !in ProviderLimits ==> r == map[]
  {
    ChooseModel(TableFor(config, Lower(provider)), model)
  }

  /** The lookup does not depend on the case of ASCII letters in the provider name. */
  lemma LookupIgnoresCase(config: Config, a: string, b: string, model: Option<string>)
    requires Lower(a) == Lower(b)
    ensures GetProviderLimits(config, a, model) == GetProviderLimits(config, b, model)
  {
  }

  /** A custom table hides the built-in one entirely, model-specific entries included. */
  lemma CustomOverridesBuiltIn(config: Config, provider: string, model: string)
    requires Lower(provider) in Custom(config) && Lower(provider) in ProviderLimits
    requires model != "" && model in ProviderLimits[Lower(provider)].limits
    requires model !in Custom(config)[Lower(provider)]
    requires "default" !in Custom(config)[Lower(provider)]
    ensures GetProviderLimits(config, provider, Some(model)) == map[]
  {
  }

  /** With a fresh configuration the built-in table answers: a listed model gets its own
      limits, an unlisted one the provider's default. */
  lemma FreshConfigUsesBuiltIn()
    ensures var t := GetProviderLimits(LoadLimitsConfig(None), "openai", Some("gpt-4")); "rpm" in t && t["rpm"] == 500
    ensures GetProviderLimits(LoadLimitsConfig(None), "openai", Some("gpt-5")) == Table(500, 30000, 10000)
  {
    assert Lower("openai") == "openai";
  }

  /** With a fresh configuration a provider without models answers with its default, and an
      unknown provider has no limits. */
  lemma FreshConfigDefaults()
    ensures var t := GetProviderLimits(LoadLimitsConfig(None), "google", None); "rpd" in t && t["rpd"] == 1500
    ensures GetProviderLimits(LoadLimitsConfig(None), "mistral", None) == map[]
  {
    assert Lower("google") == "google";
  }

  // ----- Time windows -----

  const MinuteMicros: int := 60 * 1000000
  const HourMicros: int := 60 * MinuteMicros
  const DayMicros: int := 24 * HourMicros

  /** What a time window selects: how far back it reaches and which limit it reads. */
  datatype WindowSpec = WindowSpec(length: int, limitKey: string)

  /** The window mapping of `analyze_usage`: minute reads `rpm`, hour reads `tpm` (a token
      limit, for an hourly request count), day reads `rpd`; anything else raises. */
  function WindowOf(window: string): (r: Result<WindowSpec>)
    ensures r.Ok? <==> window in {"minute", "hour", "day"}
    ensures window == "minute" ==> r == Ok(WindowSpec(MinuteMicros, "rpm"))
    ensures window == "hour" ==> r == Ok(WindowSpec(HourMicros, "tpm"))
    ensures window == "day" ==> r == Ok(WindowSpec(DayMicros, "rpd"))
    ensures r.Err? ==> r.error == "ValueError: Invalid time_window: " + window
  {
    if window == "minute" then Ok(WindowSpec(MinuteMicros, "rpm"))
    else if window == "hour" then Ok(WindowSpec(HourMicros, "tpm"))
    else if window == "day" then Ok(WindowSpec(DayMicros, "rpd"))
    else Err("ValueError: Invalid time_window: " + window)
  }

  // ----- Reading the HTTP logs -----

  /** A `timestamp` field as `datetime.fromisoformat` reads it: absent, unparseable, or a
      point in time in microseconds. */
  datatype Stamp = NoStamp | BadStamp | At(micros: int)

  /** One line of an `*_http.jsonl` file: undecodable, or an object with its `provider`,
      `timestamp` and `type` fields; `tokens` is what the response body's
      `usage.total_tokens` adds (0 when it has none or cannot be read). The lines of all log
      files are given as one sequence. */
  datatype LogLine =
    | Undecodable
    | Entry(provider: Option<string>, timestamp: Stamp, kind: Option<string>, tokens: int)

  /** A line of this provider that is inside the window. */
  predicate InWindow(line: LogLine, provider: string, start: int) {
    line.Entry? && line.provider == Some(provider) && line.timestamp.At? &&
    line.timestamp.micros >= start
  }

  /** A line whose reading raises `KeyError`: a missing timestamp, or a missing type on a line
      inside the window. */
  predicate Raises(line: LogLine, provider: string, start: int) {
    line.Entry? && line.provider == Some(provider) &&
    (line.timestamp.NoStamp? || (InWindow(line, provider, start) && line.kind.None?))
  }

  predicate IsRequestIn(line: LogLine, provider: string, start: int) {
    InWindow(line, provider, start) && line.kind == Some("http_request")
  }

  predicate IsResponseIn(line: LogLine, provider: string, start: int) {
    InWindow(line, provider, start) && line.kind == Some("http_response")
  }

  datatype Counts = Counts(requests: nat, tokens: int)

  /** The number of request lines of this provider inside the window. */
  function RequestsIn(lines: seq<LogLine>, provider: string, start: int): nat {
    if |lines| == 0 then 0
    else (if IsRequestIn(lines[0], provider, start) then 1 else 0) + RequestsIn(lines[1..], provider, start)
  }

  /** The tokens reported by the response lines of this provider inside the window. */
  function TokensIn(lines: seq<LogLine>, provider: string, start: int): int {
    if |lines| == 0 then 0
    else (if IsResponseIn(lines[0], provider, start) then lines[0].tokens else 0) + TokensIn(lines[1..], provider, start)
  }

  /** The counting loop of `analyze_usage`: requests and tokens of one provider since
      `start`; the first line that raises ends the loop with that error. */
  function CountUsage(lines: seq<LogLine>, provider: string, start: int): (r: Result<Counts>)
    ensures r.Err? <==> exists i :: 0 <= i < |lines| && Raises(lines[i], provider, start)
    ensures r.Ok? ==> r.value.requests == RequestsIn(lines, provider, start) <= |lines|
    ensures r.Ok? ==> r.value.tokens == TokensIn(lines, provider, start)
    decreases |lines|
  {
    if |lines| == 0 then Ok(Counts(0, 0))
    else
      var line := lines[0];
      if Raises(line, provider, start) then
        Err(if line.timestamp.NoStamp? then "KeyError: 'timestamp'" else "KeyError: 'type'")
      else
        match CountUsage(lines[1..], provider, start)
        case Err(e) =>
          assert forall i :: 0 < i < |lines| ==> lines[i] == lines[1..][i - 1];
          Err(e)
        case Ok(rest) =>
          assert forall i :: 0 < i < |lines| ==> lines[i] == lines[1..][i - 1];
          Ok(Counts(
            rest.requests + (if IsRequestIn(line, provider, start) then 1 else 0),
            rest.tokens + (if IsResponseIn(line, provider, start) then line.tokens else 0)))
  }

  /** Counting two batches of lines one after the other adds their counts. */
  lemma {:induction false} CountUsageAppend(a: seq<LogLine>, b: seq<LogLine>, provider: string, start: int)
    requires CountUsage(a, provider, start).Ok? && CountUsage(b, provider, start).Ok?
    ensures CountUsage(a + b, provider, start).Ok?
    ensures CountUsage(a + b, provider, start).value.requests ==
      CountUsage(a, provider, start).value.requests + CountUsage(b, provider, start).value.requests
    ensures CountUsage(a + b, provider, start).value.tokens ==
      CountUsage(a, provider, start).value.tokens + CountUsage(b, provider, start).value.tokens
    decreases |a|
  {
    if |a| == 0 {
      assert a + b == b;
    } else {
      assert (a + b)[1..] == a[1..] + b;
      assert (a + b)[0] == a[0];
      CountUsageAppend(a[1..], b, provider, start);
    }
  }

  /** The order in which the log files are globbed does not change the counts. */
  lemma CountUsageOrderFree(a: seq<LogLine>, b: seq<LogLine>, provider: string, start: int)
    requires CountUsage(a, provider, start).Ok? && CountUsage(b, provider, start).Ok?
    ensures CountUsage(a + b, provider, start) == CountUsage(b + a, provider, start)
  {
    CountUsageAppend(a, b, provider, start);
    CountUsageAppend(b, a, provider, start);
  }

  // ----- Usage analysis -----

  datatype Warning = Warn | Critical

  /** What `analyze_usage` reports: the short answer when the log directory is missing, else
      the full report. */
  datatype Usage =
    | NoLogs(provider: string, window: string)
    | Report(
        provider: string,
        providerName: string,
        requests: nat,
        tokens: int,
        window: string,
        limit: int,
        usagePercent: real,
        warning: Option<Warning>,
        remaining: Option<int>)

  /** `limits.get(limit_key, 0)`. */
  function LimitValue(limits: Limits, key: string): int {
    if key in limits then limits[key] else 0
  }

  /** The share of the limit used, in percent; 0 when there is no positive limit. */
  function UsagePercent(requests: nat, limit: int): (p: real)
    ensures p >= 0.0
    ensures limit <= 0 ==> p == 0.0
    ensures limit > 0 ==> p * (limit as real) == 100.0 * (requests as real)
  {
    if limit > 0 then (requests as real) / (limit as real) * 100.0 else 0.0
  }

  /** Requests left before the limit, never negative; `None` when there is no positive limit. */
  function Remaining(limit: int, requests: nat): (r: Option<int>)
    ensures r.Some? <==> limit > 0
    ensures r.Some? ==> r.value >= 0
    ensures r.Some? ==> (r.value == 0 <==> requests >= limit)
    ensures r.Some? && requests <= limit ==> r.value + requests == limit
  {
    if limit > 0 then Some(if limit - requests > 0 then limit - requests else 0) else None
  }

  /** The warning level of a percentage, critical checked first. */
  function Classify(percent: real, warn: real, critical: real): (w: Option<Warning>)
    ensures w == Some(Critical) <==> percent >= critical * 100.0
    ensures w == Some(Warn) <==> warn * 100.0 <= percent < critical * 100.0
    ensures w.None? <==> percent < warn * 100.0 && percent < critical * 100.0
  {
    if percent >= critical * 100.0 then Some(Critical)
    else if percent >= warn * 100.0 then Some(Warn)
    else None
  }

  function Severity(w: Option<Warning>): nat {
    match w
    case None => 0
    case Some(Warn) => 1
    case Some(Critical) => 2
  }

  /** More usage never lowers the warning level, whatever the thresholds. */
  lemma ClassifyMonotone(p: real, q: real, warn: real, critical: real)
    requires p <= q
    ensures Severity(Classify(p, warn, critical)) <= Severity(Classify(q, warn, critical))
  {
  }

  /** `PROVIDER_LIMITS.get(provider, {}).get('name', provider)`: the display name, looked up
      without lower-casing. */
  function ProviderName(provider: string): (n: string)
    ensures provider !in ProviderLimits ==> n == provider
  {
    if provider in ProviderLimits then ProviderLimits[provider].name else provider
  }

  /** `analyze_usage(provider, time_window)`; `logs` is `None` when the log directory does not
      exist, in which case the window is not even checked. */
  function AnalyzeUsage(config: Config, provider: string, window: string, logs: Option<seq<LogLine>>, now: int): (r: Result<Usage>)
    ensures logs.None? ==> r == Ok(NoLogs(provider, window))
    ensures logs.Some? && WindowOf(window).Err? ==> r.Err?
    ensures logs.Some? && WindowOf(window).Ok? ==>
      r == UsageFor(provider, window, logs.value, now - WindowOf(window).value.length,
                    LimitValue(GetProviderLimits(config, provider, None), WindowOf(window).value.limitKey),
                    config.warningThreshold.GetOr(WarningThreshold), config.criticalThreshold.GetOr(CriticalThreshold))
  {
    match logs
    case None => Ok(NoLogs(provider, window))
    case Some(lines) =>
      match WindowOf(window)
      case Err(e) => Err(e)
      case Ok(spec) =>
        UsageFor(provider, window, lines, now - spec.length,
                 LimitValue(GetProviderLimits(config, provider, None), spec.limitKey),
                 config.warningThreshold.GetOr(WarningThreshold), config.criticalThreshold.GetOr(CriticalThreshold))
  }

  /** The counting and the report of `analyze_usage` once the window start, the limit and the
      thresholds are known: it raises exactly when some line raises, and otherwise reports the
      requests and tokens inside the window against the limit. */
  function UsageFor(provider: string, window: string, lines: seq<LogLine>, start: int, limit: int, warn: real, critical: real): (r: Result<Usage>)
    ensures r.Err? <==> exists i :: 0 <= i < |lines| && Raises(lines[i], provider, start)
    ensures r.Ok? ==> r.value.Report? && r.value.provider == provider && r.value.window == window && r.value.limit == limit
    ensures r.Ok? ==> r.value.requests == RequestsIn(lines, provider, start) && r.value.tokens == TokensIn(lines, provider, start)
    ensures r.Ok? ==>
      && (limit > 0 ==> r.value.usagePercent * (limit as real) == 100.0 * (r.value.requests as real))
      && (limit <= 0 ==> r.value.usagePercent == 0.0 && r.value.remaining == None)
      && (limit > 0 && r.value.requests <= limit ==> r.value.remaining == Some(limit - r.value.requests))
      && (limit > 0 && r.value.requests >= limit ==> r.value.remaining == Some(0))
    ensures r.Ok? ==> (r.value.warning == Some(Critical) <==> r.value.usagePercent >= critical * 100.0)
    ensures r.Ok? ==> (r.value.warning == Some(Warn) <==> warn * 100.0 <= r.value.usagePercent < critical * 100.0)
    ensures r.Ok? ==> (r.value.warning.None? <==> r.value.usagePercent < warn * 100.0 && r.value.usagePercent < critical * 100.0)
  {
    match CountUsage(lines, provider, start)
    case Err(e) => Err(e)
    case Ok(counts) => Ok(MakeReport(provider, window, counts, limit, warn, critical))
  }

  /** The report for the counted requests and tokens against `limit`. */
  function MakeReport(provider: string, window: string, counts: Counts, limit: int, warn: real, critical: real): (u: Usage)
    ensures u.Report? && u.provider == provider && u.window == window && u.limit == limit
    ensures u.requests == counts.requests && u.tokens == counts.tokens
    ensures limit > 0 ==> u.usagePercent * (limit as real) == 100.0 * (counts.requests as real)
    ensures limit <= 0 ==> u.usagePercent == 0.0 && u.remaining == None
    ensures limit > 0 && counts.requests <= limit ==> u.remaining == Some(limit - counts.requests)
    ensures limit > 0 && counts.requests >= limit ==> u.remaining == Some(0)
    ensures u.warning == Some(Critical) <==> u.usagePercent >= critical * 100.0
    ensures u.warning == Some(Warn) <==> warn * 100.0 <= u.usagePercent < critical * 100.0
    ensures u.warning.None? <==> u.usagePercent < warn * 100.0 && u.usagePercent < critical * 100.0
  {
    var percent := UsagePercent(counts.requests, limit);
    Report(provider, ProviderName(provider), counts.requests, counts.tokens, window, limit, percent,
           Classify(percent, warn, critical), Remaining(limit, counts.requests))
  }

  /** `x / y >= 1` for `x >= y > 0`. */
  lemma QuotientAtLeastOne(x: real, y: real)
    requires x >= y > 0.0
    ensures x / y >= 1.0
  {
    assert x / y * y == x;
  }

  /** Once the limit is reached, nothing remains and the report is critical, as long as the
      critical threshold is at most 100%. */
  lemma ExhaustedIsCritical(config: Config, provider: string, window: string, lines: seq<LogLine>, now: int)
    requires config.criticalThreshold.GetOr(CriticalThreshold) <= 1.0
    requires AnalyzeUsage(config, provider, window, Some(lines), now).Ok?
    requires AnalyzeUsage(config, provider, window, Some(lines), now).value.limit > 0
    requires AnalyzeUsage(config, provider, window, Some(lines), now).value.requests >=
             AnalyzeUsage(config, provider, window, Some(lines), now).value.limit
    ensures AnalyzeUsage(config, provider, window, Some(lines), now).value.remaining == Some(0)
    ensures AnalyzeUsage(config, provider, window, Some(lines), now).value.warning == Some(Critical)
  {
    var u := AnalyzeUsage(config, provider, window, Some(lines), now).value;
    QuotientAtLeastOne(u.requests as real, u.limit as real);
    assert u.usagePercent == (u.requests as real) / (u.limit as real) * 100.0;
  }

  /** `remaining` is 0 exactly when the usage percentage has reached 100. */
  lemma {:induction false} RemainingAgreesWithPercent(limit: int, requests: nat)
    requires limit > 0
    ensures Remaining(limit, requests) == Some(0) <==> UsagePercent(requests, limit) >= 100.0
  {
    var p := UsagePercent(requests, limit);
    if requests >= limit {
      QuotientAtLeastOne(requests as real, limit as real);
    } else {
      assert p * (limit as real) == 100.0 * (requests as real) < 100.0 * (limit as real);
    }
  }

  // ----- Custom limits -----

  /** `set_custom_limit(provider, limit_type, value)`: the provider name is stored as given.
      A provider entry without a `default` table makes the assignment raise. */
  function SetCustomLimit(config: Config, provider: string, limitType: string, value: int): (r: Result<Config>)
    ensures r.Err? <==> provider in Custom(config) && "default" !in Custom(config)[provider]
    ensures r.Ok? ==> r.value.warningThreshold == config.warningThreshold
    ensures r.Ok? ==> r.value.criticalThreshold == config.criticalThreshold
    ensures r.Ok? ==> Custom(r.value).Keys == Custom(config).Keys + {provider}
    ensures r.Ok? ==>
      && provider in Custom(r.value)
      && "default" in Custom(r.value)[provider]
      && limitType in Custom(r.value)[provider]["default"]
      && Custom(r.value)[provider]["default"][limitType] == value
    ensures r.Ok? ==> forall p :: p in Custom(config) && p != provider ==>
      Custom(r.value)[p] == Custom(config)[p]
    ensures r.Ok? && provider in Custom(config) ==>
      Custom(r.value)[provider].Keys == Custom(config)[provider].Keys &&
      forall m :: m in Custom(config)[provider] && m != "default" ==>
        Custom(r.value)[provider][m] == Custom(config)[provider][m]
    ensures r.Ok? && provider in Custom(config) ==>
      Custom(r.value)[provider]["default"].Keys == Custom(config)[provider]["default"].Keys + {limitType} &&
      forall k :: k in Custom(config)[provider]["default"] && k != limitType ==>
        Custom(r.value)[provider]["default"][k] == Custom(config)[provider]["default"][k]
    ensures r.Ok? && provider !in Custom(config) ==>
      Custom(r.value)[provider] == map["default" := map[limitType := value]]
  {
    var custom := Custom(config);
    var entry := if provider in custom then custom[provider] else map["default" := map[]];
    if "default" !in entry then Err("KeyError: 'default'")
    else
      var table := entry["default"][limitType := value];
      Ok(config.(customLimits := Some(custom[provider := entry["default" := table]])))
  }

  /** A limit stored under a lower-case provider name is the one the lookup then returns. */
  lemma SetThenGet(config: Config, provider: string, limitType: string, value: int)
    requires Lower(provider) == provider
    requires SetCustomLimit(config, provider, limitType, value).Ok?
    ensures limitType in GetProviderLimits(SetCustomLimit(config, provider, limitType, value).value, provider, None)
    ensures GetProviderLimits(SetCustomLimit(config, provider, limitType, value).value, provider, None)[limitType] == value
  {
  }

  /** A limit set for `OpenAI` is stored under that name, but the lookup lower-cases the name
      and keeps answering from the built-in `openai` table. */
  lemma MixedCaseLimitIgnored()
    ensures SetCustomLimit(LoadLimitsConfig(None), "OpenAI", "rpm", 1000).Ok?
    ensures var t := GetProviderLimits(SetCustomLimit(LoadLimitsConfig(None), "OpenAI", "rpm", 1000).value, "OpenAI", None);
      "rpm" in t && t["rpm"] == 500
  {
    var c := SetCustomLimit(LoadLimitsConfig(None), "OpenAI", "rpm", 1000).value;
    assert Lower("OpenAI") == "openai";
    assert "openai" !in Custom(c);
  }

  /** `set_custom_limit` storing the provider under the lower-cased name the lookup uses. */
  function SetCustomLimitIntended(config: Config, provider: string, limitType: string, value: int): (r: Result<Config>)
    ensures r.Err? <==> Lower(provider) in Custom(config) && "default" !in Custom(config)[Lower(provider)]
    ensures r.Ok? ==>
      && Lower(provider) in Custom(r.value)
      && "default" in Custom(r.value)[Lower(provider)]
      && limitType in Custom(r.value)[Lower(provider)]["default"]
      && Custom(r.value)[Lower(provider)]["default"][limitType] == value
    ensures r.Ok? ==> forall p :: p in Custom(config) && p != Lower(provider) ==> p in Custom(r.value) && Custom(r.value)[p] == Custom(config)[p]
  {
    SetCustomLimit(config, Lower(provider), limitType, value)
  }

  /** With the name lower-cased on the way in, every spelling of the provider finds the limit. */
  lemma IntendedSetThenGet(config: Config, provider: string, spelling: string, limitType: string, value: int)
    requires Lower(spelling) == Lower(provider)
    requires SetCustomLimitIntended(config, provider, limitType, value).Ok?
    ensures GetProviderLimits(SetCustomLimitIntended(config, provider, limitType, value).value, spelling, None)[limitType] == value
  {
  }

  // ----- All providers -----

  /** The providers named by decodable log lines, leaving out empty names and `unknown`. */
  function UsedProviders(lines: seq<LogLine>): set<string> {
    set i | 0 <= i < |lines| && lines[i].Entry? && lines[i].provider.Some? &&
      lines[i].provider.value != "" && lines[i].provider.value != "unknown" :: lines[i].provider.value
  }

  /** `order` lists the members of `s` once each: the iteration order of the Python set. */
  predicate Enumerates(order: seq<string>, s: set<string>) {
    (forall i :: 0 <= i < |order| ==> order[i] in s) &&
    (forall p :: p in s ==> p in order) &&
    (forall i, j :: 0 <= i < j < |order| ==> order[i] != order[j])
  }

  /** `[f(x) for x in xs]` where any call may raise; the first failure ends the list. */
  function Collect<T>(f: string -> Result<T>, xs: seq<string>): (r: Result<seq<T>>)
    ensures r.Err? <==> exists i :: 0 <= i < |xs| && f(xs[i]).Err?
    ensures r.Ok? ==> |r.value| == |xs| && forall i :: 0 <= i < |xs| ==> f(xs[i]) == Ok(r.value[i])
    decreases |xs|
  {
    if |xs| == 0 then Ok([])
    else
      match f(xs[0])
      case Err(e) => Err(e)
      case Ok(y) =>
        assert forall i :: 0 < i < |xs| ==> xs[i] == xs[1..][i - 1];
        match Collect(f, xs[1..])
        case Err(e) => Err(e)
        case Ok(ys) => Ok([y] + ys)
  }

  /** The minute report of each provider, in the given order; the first failure ends it. */
  function Reports(config: Config, order: seq<string>, lines: seq<LogLine>, now: int): (r: Result<seq<Usage>>)
    ensures r.Err? <==> exists i :: 0 <= i < |order| && AnalyzeUsage(config, order[i], "minute", Some(lines), now).Err?
    ensures r.Ok? ==> |r.value| == |order|
    ensures r.Ok? ==> forall i :: 0 <= i < |order| ==>
      AnalyzeUsage(config, order[i], "minute", Some(lines), now) == Ok(r.value[i])
  {
    Collect(p => AnalyzeUsage(config, p, "minute", Some(lines), now), order)
  }

  function Requests(u: Usage): nat {
    if u.Report? then u.requests else 0
  }

  function Percent(u: Usage): real {
    if u.Report? then u.usagePercent else 0.0
  }

  /** The reports with at least one request, in order. */
  function Busy(us: seq<Usage>): (r: seq<Usage>)
    ensures forall u :: u in r <==> u in us && Requests(u) > 0
    ensures multiset(r) <= multiset(us)
    ensures |r| <= |us|
    decreases |us|
  {
    if |us| == 0 then []
    else
      assert us == [us[0]] + us[1..];
      if Requests(us[0]) > 0 then [us[0]] + Busy(us[1..])
    else Busy(us[1..])
  }

  /** `us` ordered by `key`, largest first. */
  predicate Descending<T>(us: seq<T>, key: T -> real) {
    forall i, j :: 0 <= i < j < |us| ==> key(us[i]) >= key(us[j])
  }

  /** Puts `u` before the first element whose key is not above its own. */
  function Insert<T>(u: T, us: seq<T>, key: T -> real): (r: seq<T>)
    requires Descending(us, key)
    ensures multiset(r) == multiset(us) + multiset{u}
    ensures Descending(r, key)
    ensures |r| == |us| + 1 && (r[0] == u || (|us| > 0 && r[0] == us[0]))
    decreases |us|
  {
    if |us| == 0 || key(us[0]) <= key(u) then [u] + us
    else
      var rest := Insert(u, us[1..], key);
      assert us == [us[0]] + us[1..];
      ConsDescending(us[0], rest, key);
      [us[0]] + rest
  }

  lemma ConsDescending<T>(a: T, rest: seq<T>, key: T -> real)
    requires Descending(rest, key)
    requires |rest| > 0 ==> key(a) >= key(rest[0])
    ensures Descending([a] + rest, key)
  {
  }

  /** `sorted(us, key=key, reverse=True)`. */
  function SortBy<T>(us: seq<T>, key: T -> real): (r: seq<T>)
    ensures multiset(r) == multiset(us)
    ensures Descending(r, key)
    decreases |us|
  {
    if |us| == 0 then []
    else
      assert us == [us[0]] + us[1..];
      Insert(us[0], SortBy(us[1..], key), key)
  }

  /** `get_all_usage()`: the minute report of every provider seen in the logs that made a
      request, busiest first. `order` is the iteration order of the provider set. */
  function GetAllUsage(config: Config, logs: Option<seq<LogLine>>, now: int, order: seq<string>): (r: Result<seq<Usage>>)
    requires logs.Some? ==> Enumerates(order, UsedProviders(logs.value))
    ensures logs.None? ==> r == Ok([])
    ensures r.Ok? ==> Descending(r.value, Percent) && |r.value| <= |order|
    ensures logs.Some? ==> (r.Err? <==>
      exists p :: p in UsedProviders(logs.value) && AnalyzeUsage(config, p, "minute", logs, now).Err?)
    ensures logs.Some? && r.Ok? ==> forall u :: u in r.value ==>
      && u.Report?
      && u.requests > 0
      && u.provider in UsedProviders(logs.value)
      && AnalyzeUsage(config, u.provider, "minute", logs, now) == Ok(u)
    ensures logs.Some? && r.Ok? ==> forall p :: p in UsedProviders(logs.value) ==>
      (Requests(AnalyzeUsage(config, p, "minute", logs, now).value) > 0 <==>
       AnalyzeUsage(config, p, "minute", logs, now).value in r.value)
    ensures logs.Some? && r.Ok? ==> forall i, j :: 0 <= i < j < |r.value| ==> r.value[i].provider != r.value[j].provider
  {
    match logs
    case None => Ok([])
    case Some(lines) =>
      match Reports(config, order, lines, now)
      case Err(e) =>
        UsedProviderFails(config, order, lines, now);
        Err(e)
      case Ok(us) =>
        var sorted := SortBy(Busy(us), Percent);
        AllUsageMeaning(config, order, lines, now, us, sorted);
        SortedProvidersDistinct(config, order, lines, now, us, sorted);
        Ok(sorted)
  }

  lemma UsedProviderFails(config: Config, order: seq<string>, lines: seq<LogLine>, now: int)
    requires Enumerates(order, UsedProviders(lines))
    requires Reports(config, order, lines, now).Err?
    ensures exists p :: p in UsedProviders(lines) && AnalyzeUsage(config, p, "minute", Some(lines), now).Err?
  {
    var i :| 0 <= i < |order| && AnalyzeUsage(config, order[i], "minute", Some(lines), now).Err?;
    assert order[i] in order;
  }

  lemma AllUsageMeaning(config: Config, order: seq<string>, lines: seq<LogLine>, now: int, us: seq<Usage>, sorted: seq<Usage>)
    requires Enumerates(order, UsedProviders(lines))
    requires Reports(config, order, lines, now) == Ok(us)
    requires sorted == SortBy(Busy(us), Percent)
    ensures !exists p :: p in UsedProviders(lines) && AnalyzeUsage(config, p, "minute", Some(lines), now).Err?
    ensures forall u :: u in sorted ==>
      && u.Report?
      && u.requests > 0
      && u.provider in UsedProviders(lines)
      && AnalyzeUsage(config, u.provider, "minute", Some(lines), now) == Ok(u)
    ensures forall p :: p in UsedProviders(lines) ==>
      (Requests(AnalyzeUsage(config, p, "minute", Some(lines), now).value) > 0 <==>
       AnalyzeUsage(config, p, "minute", Some(lines), now).value in sorted)
  {
    forall p | p in UsedProviders(lines)
      ensures AnalyzeUsage(config, p, "minute", Some(lines), now).Ok?
      ensures Requests(AnalyzeUsage(config, p, "minute", Some(lines), now).value) > 0 <==>
              AnalyzeUsage(config, p, "minute", Some(lines), now).value in sorted
    {
      ListedProvider(config, order, lines, now, us, sorted, p);
    }
    forall u | u in sorted
      ensures u.Report? && u.requests > 0 && u.provider in UsedProviders(lines)
      ensures AnalyzeUsage(config, u.provider, "minute", Some(lines), now) == Ok(u)
    {
      SortedReport(config, order, lines, now, us, sorted, u);
    }
  }

  /** Each provider seen in the logs has a report, which is kept exactly when it is busy. */
  lemma ListedProvider(config: Config, order: seq<string>, lines: seq<LogLine>, now: int, us: seq<Usage>, sorted: seq<Usage>, p: string)
    requires Enumerates(order, UsedProviders(lines))
    requires Reports(config, order, lines, now) == Ok(us)
    requires sorted == SortBy(Busy(us), Percent)
    requires p in UsedProviders(lines)
    ensures AnalyzeUsage(config, p, "minute", Some(lines), now).Ok?
    ensures Requests(AnalyzeUsage(config, p, "minute", Some(lines), now).value) > 0 <==>
            AnalyzeUsage(config, p, "minute", Some(lines), now).value in sorted
  {
    var i := IndexOf(order, p);
    var u := us[i];
    assert AnalyzeUsage(config, p, "minute", Some(lines), now) == Ok(u);
    assert u in us;
    assert u in Busy(us) <==> u in multiset(sorted);
  }

  /** Every kept report is the busy minute report of a provider seen in the logs. */
  lemma SortedReport(config: Config, order: seq<string>, lines: seq<LogLine>, now: int, us: seq<Usage>, sorted: seq<Usage>, u: Usage)
    requires Enumerates(order, UsedProviders(lines))
    requires Reports(config, order, lines, now) == Ok(us)
    requires sorted == SortBy(Busy(us), Percent)
    requires u in sorted
    ensures u.Report? && u.requests > 0 && u.provider in UsedProviders(lines)
    ensures AnalyzeUsage(config, u.provider, "minute", Some(lines), now) == Ok(u)
  {
    assert u in multiset(sorted);
    assert u in Busy(us);
    var i :| 0 <= i < |us| && us[i] == u;
    var r := AnalyzeUsage(config, order[i], "minute", Some(lines), now);
    assert r == Ok(u);
    assert u.provider == order[i];
    assert order[i] in order;
  }

  /** No report of `get_all_usage` names the same provider twice: the reports come one per
      provider, filtering drops some and sorting only reorders them. */
  lemma SortedProvidersDistinct(config: Config, order: seq<string>, lines: seq<LogLine>, now: int, us: seq<Usage>, sorted: seq<Usage>)
    requires Enumerates(order, UsedProviders(lines))
    requires Reports(config, order, lines, now) == Ok(us)
    requires sorted == SortBy(Busy(us), Percent)
    ensures forall i, j :: 0 <= i < j < |sorted| ==> sorted[i].provider != sorted[j].provider
  {
    forall i, j | 0 <= i < j < |us| ensures us[i] != us[j] {
      ReportNames(config, order, lines, now, us, i);
      ReportNames(config, order, lines, now, us, j);
    }
    OnceEach(us);
    assert multiset(sorted) <= multiset(us);
    OnceEachDistinct(sorted);
    forall i, j | 0 <= i < j < |sorted| ensures sorted[i].provider != sorted[j].provider {
      if sorted[i].provider == sorted[j].provider {
        SortedReport(config, order, lines, now, us, sorted, sorted[i]);
        SortedReport(config, order, lines, now, us, sorted, sorted[j]);
      }
    }
  }

  /** The `i`-th minute report is the report of the `i`-th provider. */
  lemma ReportNames(config: Config, order: seq<string>, lines: seq<LogLine>, now: int, us: seq<Usage>, i: int)
    requires Reports(config, order, lines, now) == Ok(us)
    requires 0 <= i < |us|
    ensures us[i].provider == order[i]
  {
    assert AnalyzeUsage(config, order[i], "minute", Some(lines), now) == Ok(us[i]);
  }

  /** A sequence without repeats holds each value at most once. */
  lemma {:induction false} OnceEach<T>(s: seq<T>)
    requires forall i, j :: 0 <= i < j < |s| ==> s[i] != s[j]
    ensures forall x :: multiset(s)[x] <= 1
  {
    if |s| > 0 {
      assert s == [s[0]] + s[1..];
      OnceEach(s[1..]);
      assert s[0] !in s[1..];
    }
  }

  /** A sequence holding each value at most once has no repeats. */
  lemma OnceEachDistinct<T>(s: seq<T>)
    requires forall x :: multiset(s)[x] <= 1
    ensures forall i, j :: 0 <= i < j < |s| ==> s[i] != s[j]
  {
    forall i, j | 0 <= i < j < |s| ensures s[i] != s[j] {
      assert s == s[..j] + s[j..];
      var x := s[j];
      assert multiset(s)[x] == multiset(s[..j])[x] + multiset(s[j..])[x];
      assert x in s[j..] && s[i] in s[..j];
    }
  }

  function IndexOf(order: seq<string>, p: string): (i: nat)
    requires p in order
    ensures i < |order| && order[i] == p
  {
    if order[0] == p then 0 else 1 + IndexOf(order[1..], p)
  }
}

=== FILE: re.dfy ===
/** Python's `re` module as the model sees it. Regular-expression semantics are not modelled:
    matching and substitution are parameters of every operation that uses them, so each
    property holds for whatever the regex engine answers. */
module Re {

  /** A compiled pattern: its source text and whether it was compiled with `re.IGNORECASE`. */
  datatype Pattern = Pattern(source: string, ignoreCase: bool)

  /** `re.search(pattern, subject) is not None`. */
  type Search = (Pattern, string) -> bool

  /** `re.sub(pattern, replacement, subject)`. */
  type Substitute = (Pattern, string, string) -> string

  /** What any regex engine guarantees of `re.sub`: a subject the pattern does not match is
      returned unchanged. */
  ghost predicate SubstitutionRespectsSearch(search: Search, sub: Substitute) {
    forall p, repl, s :: !search(p, s) ==> sub(p, repl, s) == s
  }
}

=== FILE: rollback.dfy ===
/** `FileRollback`: an operation log of file creations and modifications with before-images in
    a per-session backup directory, undone newest-first. The file system is a map from path to
    content; `broken` holds the paths whose copy or removal raises an I/O error. */
module FileRollback {
  import opened Wrappers
  import opened Text

  type Path = string
  type Content = seq<bv8>

  datatype Disk = Disk(files: map<Path, Content>, broken: set<Path>)

  /** One logged operation: `{'type': 'create', 'backup': None}` or `{'type': 'modify', 'backup': ...}`. */
  datatype Operation = Create(path: Path) | Modify(path: Path, backup: Path)

  datatype Rollback = Rollback(sessionId: string, backupDir: Path, operations: seq<Operation>)

  /** The result of `backup_file`: its boolean answer and the new log and disk. */
  datatype BackupOutcome = BackupOutcome(ok: bool, log: Rollback, disk: Disk)

  /** A failed undo: the operation's path and the I/O error that stopped it. */
  datatype RollbackError = RollbackError(path: Path, cause: string) {
    function Message(): string {
      "Failed to rollback " + path + ": " + cause
    }
  }

  /** The result of `rollback`: the number of undone operations, the errors and the new disk. */
  datatype RollbackOutcome = RollbackOutcome(count: nat, errors: seq<RollbackError>, disk: Disk)

  /** `FileRollback(session_id)`: an empty log whose backups go to `~/.sudodog/backups/<id>`. */
  function NewRollback(home: string, sessionId: string): (r: Rollback)
    ensures r.operations == []
    ensures r.sessionId == sessionId
  {
    Rollback(sessionId, RStrip(home, '/') + "/.sudodog/backups/" + sessionId, [])
  }

  /** `Path(p).name`: the last component, trailing slashes ignored. */
  function BaseName(p: Path): (r: string)
    ensures '/' !in r
  {
    AfterLastSlash(RStrip(p, '/'))
  }

  function AfterLastSlash(s: string): (r: string)
    ensures '/' !in r
    decreases |s|
  {
    if |s| == 0 then ""
    else if s[|s| - 1] == '/' then ""
    else AfterLastSlash(s[..|s| - 1]) + [s[|s| - 1]]
  }

  /** Position of the last `.` in `name`, or -1 (`str.rfind('.')`). */
  function LastDot(name: string): (i: int)
    ensures -1 <= i < |name|
    ensures i >= 0 ==> name[i] == '.'
    decreases |name|
  {
    if |name| == 0 then -1
    else if name[|name| - 1] == '.' then |name| - 1
    else LastDot(name[..|name| - 1])
  }

  /** `PurePath.suffix`: from the last dot on, unless that dot leads or ends the name. */
  function Suffix(name: string): string {
    var i := LastDot(name);
    if 0 < i < |name| - 1 then name[i..] else ""
  }

  /** `PurePath.stem`: the name without its suffix. */
  function Stem(name: string): (r: string)
    ensures r + Suffix(name) == name
  {
    var i := LastDot(name);
    if 0 < i < |name| - 1 then name[..i] else name
  }

  /** The `k`-th backup name tried for `name`: the name itself, then `stem_k.suffix`. */
  function CandidateName(name: string, k: nat): string {
    if k == 0 then name else Stem(name) + "_" + NatToString(k) + Suffix(name)
  }

  function BackupPath(dir: Path, name: string, k: nat): Path {
    dir + "/" + CandidateName(name, k)
  }

  /** Different counters give different backup paths, so no candidate is tried twice. */
  lemma {:induction false} BackupPathInjective(dir: Path, name: string, a: nat, b: nat)
    requires BackupPath(dir, name, a) == BackupPath(dir, name, b)
    ensures a == b
  {
    var pre := dir + "/";
    assert CandidateName(name, a) == BackupPath(dir, name, a)[|pre|..];
    assert CandidateName(name, b) == BackupPath(dir, name, b)[|pre|..];
    var stem, suf := Stem(name), Suffix(name);
    if a != 0 && b != 0 {
      var ca, cb := CandidateName(name, a), CandidateName(name, b);
      var da, db := NatToString(a), NatToString(b);
      assert |da| == |db|;
      assert da == ca[|stem| + 1..|stem| + 1 + |da|];
      assert db == cb[|stem| + 1..|stem| + 1 + |db|];
      NatToStringInjective(a, b);
    }
  }

  /** No backup name is tried twice. */
  lemma BackupPathsInjective(dir: Path, name: string)
    ensures forall a: nat, b: nat :: BackupPath(dir, name, a) == BackupPath(dir, name, b) ==> a == b
  {
    forall a: nat, b: nat | BackupPath(dir, name, a) == BackupPath(dir, name, b) ensures a == b {
      BackupPathInjective(dir, name, a, b);
    }
  }

  /** The candidates numbered below `k`. */
  ghost function Tried(candidate: nat -> Path, k: nat): set<Path> {
    set j: nat | j < k :: candidate(j)
  }

  /** Trying one more candidate that is taken leaves fewer untried paths among the taken ones. */
  lemma TriedShrinks(candidate: nat -> Path, files: set<Path>, k: nat)
    requires forall a: nat, b: nat :: candidate(a) == candidate(b) ==> a == b
    requires candidate(k) in files
    ensures files - Tried(candidate, k + 1) < files - Tried(candidate, k)
  {
    assert candidate(k) !in Tried(candidate, k);
    assert Tried(candidate, k + 1) == Tried(candidate, k) + {candidate(k)};
  }

  /** A `while candidate.exists()` loop over candidates that never repeat: the first one from
      `k` on that is not taken. */
  function FirstFree(candidate: nat -> Path, files: set<Path>, k: nat): (r: nat)
    requires forall a: nat, b: nat :: candidate(a) == candidate(b) ==> a == b
    requires forall j: nat :: j < k ==> candidate(j) in files
    ensures k <= r
    ensures candidate(r) !in files
    ensures forall j: nat :: j < r ==> candidate(j) in files
    decreases files - Tried(candidate, k)
  {
    if candidate(k) !in files then k
    else
      TriedShrinks(candidate, files, k);
      FirstFree(candidate, files, k + 1)
  }

  /** The loop of `backup_file`: the first backup name that is not on disk. */
  function FreeBackupIndex(dir: Path, name: string, files: set<Path>): (r: nat)
    ensures BackupPath(dir, name, r) !in files
    ensures forall j: nat :: j < r ==> BackupPath(dir, name, j) in files
  {
    BackupPathsInjective(dir, name);
    var candidate := (j: nat) => BackupPath(dir, name, j);
    var r := FirstFree(candidate, files, 0);
    assert forall j: nat {:trigger BackupPath(dir, name, j)} :: j < r ==> candidate(j) in files;
    r
  }

  /** The backup path `backup_file` chooses for `path`. */
  function ChosenBackup(log: Rollback, disk: Disk, path: Path): Path {
    var name := BaseName(path);
    BackupPath(log.backupDir, name, FreeBackupIndex(log.backupDir, name, disk.files.Keys))
  }

  /** `str()` of the `FileNotFoundError` an operation on a missing `p` raises. */
  function NotFound(p: Path): string {
    "[Errno 2] No such file or directory: '" + p + "'"
  }

  /** `str()` of the `PermissionError` an operation on a broken `p` raises. */
  function PermissionDenied(p: Path): string {
    "[Errno 13] Permission denied: '" + p + "'"
  }

  /** `shutil.copy2(src, dst)`: fails when the source is missing or either path is broken; the
      source is opened first, so its error is the one reported. */
  function Copy(disk: Disk, src: Path, dst: Path): (r: Result<Disk>)
    ensures r.Ok? <==> src in disk.files && src !in disk.broken && dst !in disk.broken
    ensures r.Ok? ==> r.value == disk.(files := disk.files[dst := disk.files[src]])
    ensures src !in disk.files ==> r == Err(NotFound(src))
  {
    if src !in disk.files then Err(NotFound(src))
    else if src in disk.broken then Err(PermissionDenied(src))
    else if dst in disk.broken then Err(PermissionDenied(dst))
    else Ok(disk.(files := disk.files[dst := disk.files[src]]))
  }

  /** `backup_file(path)`. */
  function BackupFile(log: Rollback, disk: Disk, path: Path): (r: BackupOutcome)
    ensures path !in disk.files ==>
      r == BackupOutcome(true, log.(operations := log.operations + [Create(path)]), disk)
    ensures path in disk.files ==>
      var b := ChosenBackup(log, disk, path);
      && b !in disk.files
      && (r.ok <==> path !in disk.broken && b !in disk.broken)
      && (r.ok ==> (r.log == log.(operations := log.operations + [Modify(path, b)])
                    && r.disk == disk.(files := disk.files[b := disk.files[path]])))
      && (!r.ok ==> r.log == log && r.disk == disk)
    ensures forall p :: p in disk.files ==> p in r.disk.files && r.disk.files[p] == disk.files[p]
  {
    if path !in disk.files then
      BackupOutcome(true, log.(operations := log.operations + [Create(path)]), disk)
    else
      var b := ChosenBackup(log, disk, path);
      match Copy(disk, path, b)
      case Err(_) => BackupOutcome(false, log, disk)
      case Ok(disk') => BackupOutcome(true, log.(operations := log.operations + [Modify(path, b)]), disk')
  }

  /** Undoing one operation: nothing to do, the new disk, or the error it raised. */
  datatype Undo = Skipped | Undone(disk: Disk) | Failed(error: RollbackError)

  /** One pass of the loop body: a `create` deletes its file and counts only when the file still
      exists; a `modify` copies its backup over the file, and one without a backup is skipped; an
      I/O error becomes one error naming the operation's path. */
  function UndoOne(disk: Disk, op: Operation): (u: Undo)
    ensures u.Failed? ==> u.error.path == op.path
    ensures u.Undone? ==> u.disk.broken == disk.broken
    ensures op.Create? ==> (u.Skipped? <==> op.path !in disk.files)
    ensures op.Create? ==> (u.Undone? <==> op.path in disk.files && op.path !in disk.broken)
    ensures op.Create? && u.Undone? ==> op.path !in u.disk.files && u.disk.files.Keys == disk.files.Keys - {op.path}
    ensures op.Create? && u.Undone? ==> forall q :: q in u.disk.files ==> u.disk.files[q] == disk.files[q]
    ensures op.Modify? ==> (u.Skipped? <==> op.backup == "")
    ensures op.Modify? ==>
      (u.Undone? <==> op.backup != "" && op.backup in disk.files && op.backup !in disk.broken && op.path !in disk.broken)
    ensures op.Modify? && u.Undone? ==>
      && op.path in u.disk.files && u.disk.files[op.path] == disk.files[op.backup]
      && u.disk.files.Keys == disk.files.Keys + {op.path}
      && forall q :: q in disk.files && q != op.path ==> u.disk.files[q] == disk.files[q]
    ensures op.Modify? && op.backup != "" && op.backup !in disk.files ==> u == Failed(RollbackError(op.path, NotFound(op.backup)))
  {
    match op
    case Create(p) =>
      if p !in disk.files then Skipped
      else if p in disk.broken then Failed(RollbackError(p, PermissionDenied(p)))
      else Undone(disk.(files := disk.files - {p}))
    case Modify(p, b) =>
      if b == "" then Skipped
      else match Copy(disk, b, p)
        case Err(e) => Failed(RollbackError(p, e))
        case Ok(d) => Undone(d)
  }

  /** Undo `ops` newest-first; a failure is recorded and the rest still runs. Only the paths of
      the operations are touched. */
  function UndoAll(disk: Disk, ops: seq<Operation>): (r: RollbackOutcome)
    ensures r.count + |r.errors| <= |ops|
    ensures forall e :: e in r.errors ==> exists op :: op in ops && op.path == e.path
    decreases |ops|
  {
    if |ops| == 0 then RollbackOutcome(0, [], disk)
    else
      var last := ops[|ops| - 1];
      var rest := ops[..|ops| - 1];
      assert forall op :: op in rest ==> op in ops;
      match UndoOne(disk, last)
      case Skipped => UndoAll(disk, rest)
      case Undone(d) =>
        var r := UndoAll(d, rest);
        RollbackOutcome(r.count + 1, r.errors, r.disk)
      case Failed(e) =>
        var r := UndoAll(disk, rest);
        RollbackOutcome(r.count, [e] + r.errors, r.disk)
  }

  /** No operation of `ops` is about path `q`. */
  predicate Untouched(ops: seq<Operation>, q: Path) {
    forall op :: op in ops ==> op.path != q
  }

  /** Rolling back touches only the paths of the undone operations and never repairs a broken
      path. */
  lemma {:induction false} UndoAllFrame(disk: Disk, ops: seq<Operation>)
    ensures UndoAll(disk, ops).disk.broken == disk.broken
    ensures forall q :: Untouched(ops, q) ==>
      var r := UndoAll(disk, ops);
      (q in r.disk.files <==> q in disk.files) && (q in disk.files ==> r.disk.files[q] == disk.files[q])
    decreases |ops|
  {
    if |ops| > 0 {
      var last := ops[|ops| - 1];
      var rest := ops[..|ops| - 1];
      assert forall op :: op in rest ==> op in ops;
      assert forall q :: Untouched(ops, q) ==> Untouched(rest, q) && last.path != q;
      match UndoOne(disk, last)
      case Undone(d) => UndoAllFrame(d, rest);
      case Skipped => UndoAllFrame(disk, rest);
      case Failed(_) => UndoAllFrame(disk, rest);
    }
  }

  /** The loop is newest-first: the last operation is undone first, on the disk as given, and the
      older ones then run on the disk it leaves; a failure is reported before the older ones'. */
  lemma UndoAllNewestFirst(disk: Disk, ops: seq<Operation>, op: Operation)
    ensures var u := UndoOne(disk, op);
      var r := UndoAll(disk, ops + [op]);
      && (u.Skipped? ==> r == UndoAll(disk, ops))
      && (u.Undone? ==> r == UndoAll(u.disk, ops).(count := UndoAll(u.disk, ops).count + 1))
      && (u.Failed? ==> r == UndoAll(disk, ops).(errors := [u.error] + UndoAll(disk, ops).errors))
  {
    assert (ops + [op])[..|ops|] == ops;
  }

  /** Undoing `older + newer` is undoing `newer` and then `older` on the disk it leaves: counts
      add up and the newer operations' errors come first. */
  lemma {:induction false} UndoAllAppend(disk: Disk, older: seq<Operation>, newer: seq<Operation>)
    ensures AppendSplits(disk, older, newer)
    decreases |newer|
  {
    if |newer| == 0 {
      assert older + newer == older;
    } else {
      var last := newer[|newer| - 1];
      var rest := newer[..|newer| - 1];
      assert rest + [last] == newer;
      var u := UndoOne(disk, last);
      UndoAllAppend(if u.Undone? then u.disk else disk, older, rest);
      AppendStep(disk, older, rest, last);
    }
  }

  ghost predicate AppendSplits(disk: Disk, older: seq<Operation>, newer: seq<Operation>) {
    var n := UndoAll(disk, newer);
    var o := UndoAll(n.disk, older);
    UndoAll(disk, older + newer) == RollbackOutcome(n.count + o.count, n.errors + o.errors, o.disk)
  }

  /** One step of the induction: the split after the newest operation carries over to it. */
  lemma AppendStep(disk: Disk, older: seq<Operation>, rest: seq<Operation>, last: Operation)
    requires AppendSplits(if UndoOne(disk, last).Undone? then UndoOne(disk, last).disk else disk, older, rest)
    ensures AppendSplits(disk, older, rest + [last])
  {
    var u := UndoOne(disk, last);
    if u.Skipped? {
      AppendKept(disk, older, rest, last);
    } else if u.Undone? {
      AppendUndone(disk, older, rest, last);
    } else {
      AppendFailed(disk, older, rest, last);
    }
  }

  lemma AppendKept(disk: Disk, older: seq<Operation>, rest: seq<Operation>, last: Operation)
    requires UndoOne(disk, last).Skipped?
    requires AppendSplits(disk, older, rest)
    ensures AppendSplits(disk, older, rest + [last])
  {
    AppendAssoc(older, rest, [last]);
    UndoAllNewestFirst(disk, older + rest, last);
    UndoAllNewestFirst(disk, rest, last);
  }

  lemma AppendUndone(disk: Disk, older: seq<Operation>, rest: seq<Operation>, last: Operation)
    requires UndoOne(disk, last).Undone?
    requires AppendSplits(UndoOne(disk, last).disk, older, rest)
    ensures AppendSplits(disk, older, rest + [last])
  {
    AppendAssoc(older, rest, [last]);
    UndoAllNewestFirst(disk, older + rest, last);
    UndoAllNewestFirst(disk, rest, last);
  }

  lemma AppendAssoc<T>(x: seq<T>, y: seq<T>, z: seq<T>)
    ensures x + (y + z) == (x + y) + z
  {
  }

  lemma ConsAppend<T>(e: T, x: seq<T>, y: seq<T>)
    ensures [e] + (x + y) == ([e] + x) + y
  {
  }

  lemma FailedStep(disk: Disk, ops: seq<Operation>, op: Operation)
    requires UndoOne(disk, op).Failed?
    ensures var r := UndoAll(disk, ops);
      UndoAll(disk, ops + [op]) == RollbackOutcome(r.count, [UndoOne(disk, op).error] + r.errors, r.disk)
  {
    assert (ops + [op])[..|ops|] == ops;
  }

  lemma AppendFailed(disk: Disk, older: seq<Operation>, rest: seq<Operation>, last: Operation)
    requires UndoOne(disk, last).Failed?
    requires AppendSplits(disk, older, rest)
    ensures AppendSplits(disk, older, rest + [last])
  {
    var e := UndoOne(disk, last).error;
    var n := UndoAll(disk, rest);
    var o := UndoAll(n.disk, older);
    var a := UndoAll(disk, older + rest);
    assert a == RollbackOutcome(n.count + o.count, n.errors + o.errors, o.disk);
    FailedStep(disk, rest, last);
    var n' := UndoAll(disk, rest + [last]);
    assert n' == RollbackOutcome(n.count, [e] + n.errors, n.disk);
    var ops := older + rest;
    FailedStep(disk, ops, last);
    AppendAssoc(older, rest, [last]);
    var all := UndoAll(disk, older + (rest + [last]));
    ConsAppend(e, n.errors, o.errors);
    assert all == RollbackOutcome(n'.count + o.count, n'.errors + o.errors, o.disk);
  }

  /** Every undo in `ops` can succeed: no path is broken, and every backup is on disk and is not
      the path of any logged operation, so no undo removes or overwrites it. */
  predicate Restorable(disk: Disk, ops: seq<Operation>) {
    && disk.broken == {}
    && forall op :: op in ops && op.Modify? && op.backup != "" ==> op.backup in disk.files && Untouched(ops, op.backup)
  }

  /** On a restorable disk nothing fails: every `modify` with a backup is undone, and every
      `create` whose file exists when its turn comes. */
  lemma {:induction false} RestorableRollsBackCleanly(disk: Disk, ops: seq<Operation>)
    ensures Restorable(disk, ops) ==> UndoAll(disk, ops).errors == []
    ensures Restorable(disk, ops) ==> UndoAll(disk, ops).count >= ModifyCount(ops)
    decreases |ops|
  {
    if |ops| > 0 && Restorable(disk, ops) {
      var last := ops[|ops| - 1];
      var rest := ops[..|ops| - 1];
      assert ops == rest + [last];
      UndoAllNewestFirst(disk, rest, last);
      assert forall op :: op in rest ==> op in ops;
      match UndoOne(disk, last)
      case Skipped =>
        assert Restorable(disk, rest);
        RestorableRollsBackCleanly(disk, rest);
      case Undone(d) =>
        assert forall q :: q != last.path && q in disk.files ==> q in d.files;
        assert Restorable(d, rest);
        RestorableRollsBackCleanly(d, rest);
      case Failed(e) =>
        assert false;
    }
  }

  /** The number of `modify` operations that have a backup. */
  function ModifyCount(ops: seq<Operation>): (n: nat)
    ensures n <= |ops|
  {
    if |ops| == 0 then 0
    else ModifyCount(ops[..|ops| - 1]) + (if ops[|ops| - 1].Modify? && ops[|ops| - 1].backup != "" then 1 else 0)
  }

  /** The operations `rollback(steps)` selects: `operations[-steps:]`, all of them for `None`. */
  function Selected(log: Rollback, steps: Option<int>): (s: seq<Operation>)
    ensures steps.None? ==> s == log.operations
    ensures steps == Some(0) ==> s == log.operations
    ensures (steps.Some? && 0 < steps.value <= |log.operations|) ==>
      s == log.operations[|log.operations| - steps.value..]
    ensures (steps.Some? && steps.value > |log.operations|) ==> s == log.operations
    ensures (steps.Some? && -|log.operations| <= steps.value < 0) ==> s == log.operations[-steps.value..]
  {
    var k := match steps case None => |log.operations| case Some(n) => n;
    PyDrop(log.operations, -k)
  }

  /** `rollback(steps)`: undoes the selected operations, most recent first. The log itself is
      not part of the result: rolling back never changes it. */
  function DoRollback(log: Rollback, disk: Disk, steps: Option<int>): (r: RollbackOutcome)
    ensures r.count + |r.errors| <= |Selected(log, steps)|
    ensures forall e :: e in r.errors ==> exists op :: op in Selected(log, steps) && op.path == e.path
    ensures r.disk.broken == disk.broken
    ensures forall q :: Untouched(Selected(log, steps), q) ==>
      (q in r.disk.files <==> q in disk.files) && (q in disk.files ==> r.disk.files[q] == disk.files[q])
    ensures Restorable(disk, Selected(log, steps)) ==> r.errors == [] && r.count >= ModifyCount(Selected(log, steps))
  {
    var ops := Selected(log, steps);
    UndoAllFrame(disk, ops);
    RestorableRollsBackCleanly(disk, ops);
    UndoAll(disk, ops)
  }

  /** Backing up a file, overwriting it and rolling back one step restores the disk to its state
      right after the backup: the file has its old content again and the backup copy stays. */
  lemma BackupThenRollbackRestores(log: Rollback, disk: Disk, path: Path, content: Content)
    requires path in disk.files && disk.broken == {}
    ensures var r := BackupFile(log, disk, path);
      && r.ok
      && var written := r.disk.(files := r.disk.files[path := content]);
         var rb := DoRollback(r.log, written, Some(1));
         && rb == RollbackOutcome(1, [], r.disk)
         && rb.disk.files[path] == disk.files[path]
  {
    var r := BackupFile(log, disk, path);
    var b := ChosenBackup(log, disk, path);
    var written := r.disk.(files := r.disk.files[path := content]);
    assert Selected(r.log, Some(1)) == [Modify(path, b)];
    RestoreFromBackup(written, path, b, r.disk);
    assert UndoAll(written, [Modify(path, b)]) == RollbackOutcome(1, [], r.disk);
  }

  /** Undoing a modification whose backup is intact puts the backed-up content back. */
  lemma RestoreFromBackup(disk: Disk, path: Path, b: Path, before: Disk)
    requires b != path && b in disk.files && disk.broken == {}
    requires before.broken == {} && before.files == disk.files[path := disk.files[b]]
    ensures b != "" ==> UndoOne(disk, Modify(path, b)) == Undone(before)
  {
  }

  /** Rolling back the creation of a file removes it again, and only it. */
  lemma CreateThenRollbackRemoves(log: Rollback, disk: Disk, path: Path, content: Content)
    requires path !in disk.files && path !in disk.broken
    ensures var r := BackupFile(log, disk, path);
      && r.ok
      && var written := r.disk.(files := r.disk.files[path := content]);
         DoRollback(r.log, written, Some(1)) == RollbackOutcome(1, [], disk)
  {
    var r := BackupFile(log, disk, path);
    var written := r.disk.(files := r.disk.files[path := content]);
    assert Selected(r.log, Some(1)) == [Create(path)];
    assert written.files - {path} == disk.files;
    assert UndoOne(written, Create(path)) == Undone(disk);
    assert UndoAll(written, [Create(path)]) == RollbackOutcome(1, [], disk);
  }

  /** Two modifications of one file: rolling back one step gives the content after the first
      modification, rolling back two steps gives the original content. */
  lemma RollbackUnwindsNewestFirst(log: Rollback, disk: Disk, path: Path, first: Content, second: Content)
    requires path in disk.files && disk.broken == {}
    ensures var r1 := BackupFile(log, disk, path);
      var d1 := r1.disk.(files := r1.disk.files[path := first]);
      var r2 := BackupFile(r1.log, d1, path);
      var d2 := r2.disk.(files := r2.disk.files[path := second]);
      && r1.ok && r2.ok
      && path in DoRollback(r2.log, d2, Some(1)).disk.files
      && DoRollback(r2.log, d2, Some(1)).disk.files[path] == first
      && path in DoRollback(r2.log, d2, Some(2)).disk.files
      && DoRollback(r2.log, d2, Some(2)).disk.files[path] == disk.files[path]
      && DoRollback(r2.log, d2, Some(2)).count == 2
  {
    var r1 := BackupFile(log, disk, path);
    var b1 := ChosenBackup(log, disk, path);
    var d1 := r1.disk.(files := r1.disk.files[path := first]);
    var r2 := BackupFile(r1.log, d1, path);
    var b2 := ChosenBackup(r1.log, d1, path);
    var d2 := r2.disk.(files := r2.disk.files[path := second]);
    assert b1 in d1.files && b2 !in d1.files;
    assert r2.log.operations == log.operations + [Modify(path, b1), Modify(path, b2)];
    assert Selected(r2.log, Some(1)) == [Modify(path, b2)];
    assert Selected(r2.log, Some(2)) == [Modify(path, b1), Modify(path, b2)];
    UndoTwoModifications(d2, path, b1, b2, first, disk.files[path]);
  }

  /** Undoing two intact backups of one file, newest first: one step gives the newer backup's
      content, two steps the older one's. */
  lemma UndoTwoModifications(disk: Disk, path: Path, b1: Path, b2: Path, newer: Content, older: Content)
    requires disk.broken == {} && b1 != "" && b2 != ""
    requires path != b1 && path != b2 && b1 != b2
    requires b1 in disk.files && b2 in disk.files
    requires disk.files[b2] == newer && disk.files[b1] == older
    ensures var r := UndoAll(disk, [Modify(path, b2)]);
      path in r.disk.files && r.disk.files[path] == newer
    ensures var r := UndoAll(disk, [Modify(path, b1), Modify(path, b2)]);
      && r.count == 2 && path in r.disk.files && r.disk.files[path] == older
  {
    var m1, m2 := Modify(path, b1), Modify(path, b2);
    var e2 := disk.(files := disk.files[path := newer]);
    RestoreFromBackup(disk, path, b2, e2);
    assert UndoAll(disk, [m2]) == RollbackOutcome(1, [], e2);
    var e1 := e2.(files := e2.files[path := older]);
    RestoreFromBackup(e2, path, b1, e1);
    assert [m1, m2][..1] == [m1];
    assert UndoAll(e2, [m1]) == RollbackOutcome(1, [], e1);
  }

  /** A missing backup fails only its own operation: the other one is still restored and exactly
      one error, naming the failed path, is reported. */
  lemma PartialRollback(disk: Disk, p1: Path, b1: Path, p2: Path, b2: Path)
    requires disk.broken == {}
    requires b1 != "" && b2 != "" && b1 !in disk.files && b2 in disk.files && b1 != p2
    ensures var r := UndoAll(disk, [Modify(p1, b1), Modify(p2, b2)]);
      && r.count == 1
      && r.errors == [RollbackError(p1, NotFound(b1))]
      && p2 in r.disk.files
      && r.disk.files[p2] == disk.files[b2]
  {
    var m1, m2 := Modify(p1, b1), Modify(p2, b2);
    assert [m1, m2][..1] == [m1];
    var d := disk.(files := disk.files[p2 := disk.files[b2]]);
    assert UndoOne(disk, m2) == Undone(d);
    assert UndoOne(d, m1) == Failed(RollbackError(p1, NotFound(b1)));
    assert UndoAll(d, [m1]) == RollbackOutcome(0, [RollbackError(p1, NotFound(b1))], d);
  }
}

=== FILE: sandbox.dfy ===
/** Namespace sandbox configuration (`Sandbox`, `SandboxPresets`): the argument vectors handed to
    `unshare` and `docker run`. Starting the processes is not modelled. */
module Sandbox {
  import opened Wrappers
  import opened Text

  datatype Sandbox = Sandbox(
    isolateNetwork: bool,
    isolatePid: bool,
    isolateIpc: bool,
    readOnlyPaths: seq<string>,
    writablePaths: seq<string>)

  /** Python truthiness of an optional list: `None` and `[]` are both false. */
  predicate Truthy<T>(xs: Option<seq<T>>) {
    xs.Some? && |xs.value| > 0
  }

  /** `Sandbox(...)`; `home` is `str(Path.home())`. A missing or empty list falls back to the
      default, because the constructor uses `or`. */
  function NewSandbox(home: string, net: bool, pid: bool, ipc: bool,
                      readOnly: Option<seq<string>>, writable: Option<seq<string>>): (s: Sandbox)
    ensures (s.isolateNetwork, s.isolatePid, s.isolateIpc) == (net, pid, ipc)
    ensures Truthy(readOnly) ==> s.readOnlyPaths == readOnly.value
    ensures !Truthy(readOnly) ==> s.readOnlyPaths == []
    ensures Truthy(writable) ==> s.writablePaths == writable.value
    ensures !Truthy(writable) ==> s.writablePaths == ["/tmp", home]
  {
    Sandbox(net, pid, ipc,
            if Truthy(readOnly) then readOnly.value else [],
            if Truthy(writable) then writable.value else ["/tmp", home])
  }

  /** The namespace flags `unshare` can receive, in the order `build_unshare_command` emits them. */
  const FlagOrder: seq<string> := ["--net", "--pid", "--fork", "--ipc", "--mount"]

  /** The flags between `--user` and `--`. */
  function NamespaceFlags(s: Sandbox): seq<string> {
    (if s.isolateNetwork then ["--net"] else [])
    + (if s.isolatePid then ["--pid", "--fork"] else [])
    + (if s.isolateIpc then ["--ipc"] else [])
    + ["--mount"]
  }

  /** `build_unshare_command(command)`. */
  function BuildUnshareCommand(s: Sandbox, command: string): (argv: seq<string>)
    ensures |argv| == 7 + (if s.isolateNetwork then 1 else 0) + (if s.isolatePid then 2 else 0)
                        + (if s.isolateIpc then 1 else 0)
    ensures argv[..2] == ["unshare", "--user"]
    ensures argv[|argv| - 4..] == ["--", "sh", "-c", command]
    ensures IsSubsequence(argv[2..|argv| - 4], FlagOrder)
    ensures argv[|argv| - 5] == "--mount"
    ensures ("--net" in argv[2..|argv| - 4]) <==> s.isolateNetwork
    ensures ("--pid" in argv[2..|argv| - 4]) <==> s.isolatePid
    ensures ("--fork" in argv[2..|argv| - 4]) <==> s.isolatePid
    ensures ("--ipc" in argv[2..|argv| - 4]) <==> s.isolateIpc
  {
    var flags := NamespaceFlags(s);
    var argv := ["unshare", "--user"] + flags + ["--", "sh", "-c", command];
    ArgvLayout(flags, command, argv);
    FlagsInOrder(s);
    FlagsPresent(s);
    argv
  }

  /** Where the parts of an `unshare` command line sit. */
  lemma ArgvLayout(flags: seq<string>, command: string, argv: seq<string>)
    requires argv == ["unshare", "--user"] + flags + ["--", "sh", "-c", command]
    ensures |argv| == |flags| + 6
    ensures argv[..2] == ["unshare", "--user"]
    ensures argv[2..|argv| - 4] == flags
    ensures argv[|argv| - 4..] == ["--", "sh", "-c", command]
  {
  }

  /** Which flags the settings turn on; `--mount` always comes last. */
  lemma FlagsPresent(s: Sandbox)
    ensures var flags := NamespaceFlags(s);
      && |flags| == 1 + (if s.isolateNetwork then 1 else 0) + (if s.isolatePid then 2 else 0)
                      + (if s.isolateIpc then 1 else 0)
      && flags[|flags| - 1] == "--mount"
      && (("--net" in flags) <==> s.isolateNetwork)
      && (("--pid" in flags) <==> s.isolatePid)
      && (("--fork" in flags) <==> s.isolatePid)
      && (("--ipc" in flags) <==> s.isolateIpc)
  {
  }

  lemma FlagsInOrder(s: Sandbox)
    ensures IsSubsequence(NamespaceFlags(s), FlagOrder)
  {
    var n, p, i := s.isolateNetwork, s.isolatePid, s.isolateIpc;
    var tail := (if i then ["--ipc"] else []) + ["--mount"];
    assert IsSubsequence(tail, ["--ipc", "--mount"]);
    var mid := (if p then ["--pid", "--fork"] else []) + tail;
    assert IsSubsequence(mid, ["--pid", "--fork", "--ipc", "--mount"]) by {
      if p {
        assert mid[1..][1..] == tail;
      } else {
        assert mid == tail;
        assert IsSubsequence(mid, ["--fork", "--ipc", "--mount"]);
      }
    }
    assert NamespaceFlags(s) == (if n then ["--net"] else []) + mid;
    if n {
      assert NamespaceFlags(s)[1..] == mid;
    }
  }

  /** Reads the isolation settings back from an `unshare` argument vector. */
  function IsolationOf(argv: seq<string>): (bool, bool, bool)
    requires |argv| >= 7
  {
    var flags := argv[2..|argv| - 4];
    ("--net" in flags, "--pid" in flags, "--ipc" in flags)
  }

  /** The argument vector determines the isolation settings and the command it was built from. */
  lemma UnshareRoundTrip(s: Sandbox, command: string)
    ensures var argv := BuildUnshareCommand(s, command);
      && IsolationOf(argv) == (s.isolateNetwork, s.isolatePid, s.isolateIpc)
      && argv[|argv| - 1] == command
  {
  }

  /** Two sandboxes with the same flags run the same `unshare` command line exactly when the
      commands are equal. */
  lemma UnshareInjective(s: Sandbox, t: Sandbox, c: string, d: string)
    requires BuildUnshareCommand(s, c) == BuildUnshareCommand(t, d)
    ensures (s.isolateNetwork, s.isolatePid, s.isolateIpc) == (t.isolateNetwork, t.isolatePid, t.isolateIpc)
    ensures c == d
  {
    UnshareRoundTrip(s, c);
    UnshareRoundTrip(t, d);
  }

  /** `SandboxPresets.paranoid()`: all three namespaces and read-only system directories. */
  function Paranoid(home: string): (s: Sandbox)
    ensures s.isolateNetwork && s.isolatePid && s.isolateIpc
    ensures s.readOnlyPaths == ["/etc", "/usr", "/bin", "/lib", "/lib64"]
    ensures s.writablePaths == ["/tmp", home]
  {
    NewSandbox(home, true, true, true, Some(["/etc", "/usr", "/bin", "/lib", "/lib64"]), None)
  }

  /** `SandboxPresets.standard()`: network and PID isolation. */
  function Standard(home: string): (s: Sandbox)
    ensures s.isolateNetwork && s.isolatePid && !s.isolateIpc
    ensures s.readOnlyPaths == [] && s.writablePaths == ["/tmp", home]
  {
    NewSandbox(home, true, true, false, None, None)
  }

  /** `SandboxPresets.minimal()`: PID isolation only. */
  function Minimal(home: string): (s: Sandbox)
    ensures !s.isolateNetwork && s.isolatePid && !s.isolateIpc
    ensures s.readOnlyPaths == [] && s.writablePaths == ["/tmp", home]
  {
    NewSandbox(home, false, true, false, None, None)
  }

  /** `SandboxPresets.testing()`: no namespace isolation beyond user and mount. */
  function Testing(home: string): (s: Sandbox)
    ensures !s.isolateNetwork && !s.isolatePid && !s.isolateIpc
    ensures s.readOnlyPaths == [] && s.writablePaths == ["/tmp", home]
  {
    NewSandbox(home, false, false, false, None, None)
  }

  /** The presets are ordered by isolation: each one's `unshare` flags are among the flags of the
      next stricter one, and the command lines grow accordingly. */
  lemma PresetsNested(home: string, command: string)
    ensures var t, m, s, p := Testing(home), Minimal(home), Standard(home), Paranoid(home);
      && IsSubsequence(NamespaceFlags(t), NamespaceFlags(m))
      && IsSubsequence(NamespaceFlags(m), NamespaceFlags(s))
      && IsSubsequence(NamespaceFlags(s), NamespaceFlags(p))
      && |BuildUnshareCommand(t, command)| == 7
      && |BuildUnshareCommand(m, command)| == 9
      && |BuildUnshareCommand(s, command)| == 10
      && |BuildUnshareCommand(p, command)| == 11
  {
    assert NamespaceFlags(Testing(home)) == ["--mount"];
    assert NamespaceFlags(Minimal(home)) == ["--pid", "--fork", "--mount"];
    assert NamespaceFlags(Standard(home)) == ["--net", "--pid", "--fork", "--mount"];
    assert NamespaceFlags(Paranoid(home)) == ["--net", "--pid", "--fork", "--ipc", "--mount"];
    assert IsSubsequence(["--mount"], ["--fork", "--mount"]);
    assert IsSubsequence(["--mount"], ["--ipc", "--mount"]);
  }

  /** The argument vector of `run_docker_sandbox(command, image)`; `cwd` is `os.getcwd()`. */
  function DockerRunArgv(cwd: string, image: string, command: string): (argv: seq<string>)
    ensures |argv| == 17
    ensures argv[..3] == ["docker", "run", "--rm"]
    ensures "--network=none" in argv[..|argv| - 4]
    ensures "--read-only" in argv[..|argv| - 4]
    ensures "--cap-drop=ALL" in argv[..|argv| - 4]
    ensures "--security-opt=no-new-privileges" in argv[..|argv| - 4]
    ensures argv[|argv| - 4..] == [image, "sh", "-c", command]
  {
    var argv := ["docker", "run", "--rm", "--network=none", "--read-only",
                 "--tmpfs", "/tmp:rw,noexec,nosuid,size=100m",
                 "--security-opt=no-new-privileges", "--cap-drop=ALL",
                 "-w", "/workspace", "-v", cwd + ":/workspace",
                 image, "sh", "-c", command];
    assert argv[..|argv| - 4][3] == "--network=none";
    assert argv[..|argv| - 4][4] == "--read-only";
    assert argv[..|argv| - 4][8] == "--cap-drop=ALL";
    assert argv[..|argv| - 4][7] == "--security-opt=no-new-privileges";
    argv
  }

  /** The current directory is mounted as the container's working directory, whatever it is. */
  lemma DockerMountsCwd(cwd: string, image: string, command: string)
    ensures var argv := DockerRunArgv(cwd, image, command);
      exists i :: 0 <= i < |argv| - 1 && argv[i] == "-v" && argv[i + 1] == cwd + ":/workspace"
  {
    var argv := DockerRunArgv(cwd, image, command);
    assert argv[11] == "-v" && argv[12] == cwd + ":/workspace";
  }

  /** The directory a `-v <dir>:/workspace` argument mounts. */
  function MountedDir(volume: string): (dir: Option<string>)
    ensures dir.Some? ==> dir.value + ":/workspace" == volume
  {
    if EndsWith(volume, ":/workspace") then Some(volume[..|volume| - 11]) else None
  }

  /** Image, command and working directory are read back from the argument vector: the image
      is the fourth argument from the end, the command the last one, and the `-v` argument mounts
      the current directory. */
  lemma DockerRunRoundTrip(cwd: string, image: string, command: string)
    ensures var argv := DockerRunArgv(cwd, image, command);
      && argv[|argv| - 4] == image
      && argv[|argv| - 1] == command
      && argv[11] == "-v"
      && MountedDir(argv[12]) == Some(cwd)
  {
    var argv := DockerRunArgv(cwd, image, command);
    var v := cwd + ":/workspace";
    assert argv[12] == v;
    assert v[|v| - 11..] == ":/workspace";
    assert v[..|v| - 11] == cwd;
  }

  /** Different runs give different argument vectors. */
  lemma DockerRunInjective(cwd: string, image: string, command: string, cwd': string, image': string, command': string)
    requires DockerRunArgv(cwd, image, command) == DockerRunArgv(cwd', image', command')
    ensures cwd == cwd' && image == image' && command == command'
  {
    DockerRunRoundTrip(cwd, image, command);
    DockerRunRoundTrip(cwd', image', command');
  }
}

=== FILE: secret_manager.dfy ===
/** Credential handling (`SecretManager`): which names and values are accepted, how a secrets
    file is filtered, how secrets become `NAME=value` environment strings, and how a value is
    masked. Audit logging is not modelled. Character classes are ASCII: `isupper`, `isdigit` and
    `isalpha` also accept non-ASCII letters and digits in Python, which the model does not. */
module SecretManager {
  import opened Wrappers
  import opened Text

  const MinNameLength: nat := 2
  const MaxNameLength: nat := 64
  const MaxValueLength: nat := 4096

  /** A character allowed in a secret name: an upper-case letter, a digit or `_`. */
  predicate NameChar(c: char) {
    IsUpperAscii(c) || IsDigit(c) || c == '_'
  }

  /** `validate_secret_name(name)`, check by check in the order the source makes them. */
  function ValidateSecretName(name: string): (ok: bool)
    ensures ok <==>
      && MinNameLength <= |name| <= MaxNameLength
      && IsUpperAscii(name[0])
      && forall i :: 0 <= i < |name| ==> NameChar(name[i])
  {
    if |name| == 0 then false
    else if !(forall i :: 0 <= i < |name| ==> NameChar(name[i])) then false
    else if !IsUpperAscii(name[0]) then false
    else if |name| < MinNameLength || |name| > MaxNameLength then false
    else true
  }

  /** Names of one character, or starting with a digit or `_`, are refused. */
  lemma RejectedNames(name: string)
    requires |name| == 1 || (|name| > 0 && (IsDigit(name[0]) || name[0] == '_'))
    ensures !ValidateSecretName(name)
  {
  }

  /** `validate_secret_value(value)`. */
  function ValidateSecretValue(value: string): (ok: bool)
    ensures ok <==> 0 < |value| <= MaxValueLength && '\n' !in value && '\0' !in value
  {
    if |value| == 0 then false
    else if '\n' in value || '\0' in value then false
    else if |value| > MaxValueLength then false
    else true
  }

  /** A JSON value as `str(value)` renders it: strings as themselves, anything else by its
      Python representation, which is given. */
  datatype JsonValue = JsonString(s: string) | JsonOther(repr: string)

  function Str(v: JsonValue): string {
    match v
    case JsonString(s) => s
    case JsonOther(r) => r
  }

  /** What `json.load` gives for the secrets file: an object, with its entries in file order,
      or some other value. */
  datatype SecretsFile = JsonObject(entries: seq<(string, JsonValue)>) | NotAnObject

  /** Secrets in insertion order, as a Python dict keeps them. */
  type Secrets = seq<(string, string)>

  /** Whether an entry survives the filter. */
  predicate Accepted(entry: (string, JsonValue)) {
    ValidateSecretName(entry.0) && ValidateSecretValue(Str(entry.1))
  }

  /** Names that appear at most once, as in a JSON object once decoded. */
  predicate DistinctNames<T>(entries: seq<(string, T)>) {
    forall i, j :: 0 <= i < j < |entries| ==> entries[i].0 != entries[j].0
  }

  /** `load_secrets_from_file(path)`; `file` is `None` when the file cannot be opened or decoded.
      The loop keeps, in order, exactly the entries whose name and stringified value validate. */
  method LoadSecrets(file: Option<SecretsFile>) returns (r: Result<Secrets>)
    requires file.Some? && file.value.JsonObject? ==> DistinctNames(file.value.entries)
    ensures file.None? ==> r.Err?
    ensures file == Some(NotAnObject) ==> r == Err("Secrets file must contain a JSON object")
    ensures file.Some? && file.value.JsonObject? ==> r.Ok?
    ensures r.Ok? ==> forall k :: 0 <= k < |r.value| ==>
      ValidateSecretName(r.value[k].0) && ValidateSecretValue(r.value[k].1)
    ensures r.Ok? ==> var entries := file.value.entries;
      forall i :: 0 <= i < |entries| ==> (Accepted(entries[i]) <==> (entries[i].0, Str(entries[i].1)) in r.value)
    ensures r.Ok? ==> IsSubsequence(r.value, Stringified(file.value.entries))
  {
    if file.None? {
      return Err("could not read the secrets file");
    }
    if file.value.NotAnObject? {
      return Err("Secrets file must contain a JSON object");
    }
    var entries := file.value.entries;
    var kept: Secrets := [];
    for i := 0 to |entries|
      invariant kept == KeepAccepted(entries[..i])
    {
      assert entries[..i + 1] == entries[..i] + [entries[i]];
      KeepAcceptedSnoc(entries[..i], entries[i]);
      if Accepted(entries[i]) {
        kept := kept + [(entries[i].0, Str(entries[i].1))];
      }
    }
    assert entries[..|entries|] == entries;
    KeepAcceptedMeaning(entries);
    return Ok(kept);
  }

  /** Every entry with its value stringified. */
  function Stringified(entries: seq<(string, JsonValue)>): (r: Secrets)
    ensures |r| == |entries|
    ensures forall i :: 0 <= i < |entries| ==> r[i] == (entries[i].0, Str(entries[i].1))
  {
    seq(|entries|, i requires 0 <= i < |entries| => (entries[i].0, Str(entries[i].1)))
  }

  /** The reference filter: the accepted entries, stringified, in order. */
  function KeepAccepted(entries: seq<(string, JsonValue)>): Secrets
    decreases |entries|
  {
    if |entries| == 0 then []
    else (if Accepted(entries[0]) then [(entries[0].0, Str(entries[0].1))] else []) + KeepAccepted(entries[1..])
  }

  /** The filter handles one more entry at the end the way the loop does. */
  lemma {:induction false} KeepAcceptedSnoc(entries: seq<(string, JsonValue)>, e: (string, JsonValue))
    ensures KeepAccepted(entries + [e]) == KeepAccepted(entries) + (if Accepted(e) then [(e.0, Str(e.1))] else [])
    decreases |entries|
  {
    if |entries| > 0 {
      assert (entries + [e])[1..] == entries[1..] + [e];
      KeepAcceptedSnoc(entries[1..], e);
    }
  }

  /** What the filter keeps: only accepted entries, every accepted entry, in order. */
  lemma {:induction false} KeepAcceptedMeaning(entries: seq<(string, JsonValue)>)
    requires DistinctNames(entries)
    ensures var r := KeepAccepted(entries);
      && (forall k :: 0 <= k < |r| ==> ValidateSecretName(r[k].0) && ValidateSecretValue(r[k].1))
      && (forall i :: 0 <= i < |entries| ==> (Accepted(entries[i]) <==> (entries[i].0, Str(entries[i].1)) in r))
      && IsSubsequence(r, Stringified(entries))
    decreases |entries|
  {
    if |entries| > 0 {
      var rest := entries[1..];
      assert DistinctNames(rest) by {
        forall i, j | 0 <= i < j < |rest| ensures rest[i].0 != rest[j].0 {
          assert rest[i] == entries[i + 1] && rest[j] == entries[j + 1];
        }
      }
      KeepAcceptedMeaning(rest);
      var r := KeepAccepted(entries);
      var tail := KeepAccepted(rest);
      assert Stringified(entries)[1..] == Stringified(rest);
      forall i | 0 <= i < |entries|
        ensures Accepted(entries[i]) <==> (entries[i].0, Str(entries[i].1)) in r
      {
        if i > 0 {
          assert entries[i] == rest[i - 1];
          assert entries[i].0 != entries[0].0;
        } else {
          forall j | 0 <= j < |rest| ensures rest[j].0 != entries[0].0 {
            assert rest[j] == entries[j + 1];
          }
          UnlistedNameNotKept(rest, entries[0].0, Str(entries[0].1));
        }
      }
      if Accepted(entries[0]) {
        assert r[1..] == tail;
      } else {
        assert r == tail;
        SubsequenceSkipHead(tail, Stringified(entries));
      }
    }
  }

  /** A name no entry carries is not kept. */
  lemma {:induction false} UnlistedNameNotKept(entries: seq<(string, JsonValue)>, name: string, value: string)
    requires forall j :: 0 <= j < |entries| ==> entries[j].0 != name
    ensures (name, value) !in KeepAccepted(entries)
    decreases |entries|
  {
    if |entries| > 0 {
      assert forall j :: 0 <= j < |entries[1..]| ==> entries[1..][j] == entries[j + 1];
      UnlistedNameNotKept(entries[1..], name, value);
    }
  }

  /** One `NAME=value` string. */
  function EnvString(name: string, value: string): string {
    name + "=" + value
  }

  /** `inject_secrets(secrets)`: one environment string per secret, in order. */
  function InjectSecrets(secrets: Secrets): (env: seq<string>)
    ensures |env| == |secrets|
    ensures forall i :: 0 <= i < |secrets| ==> env[i] == EnvString(secrets[i].0, secrets[i].1)
  {
    seq(|secrets|, i requires 0 <= i < |secrets| => EnvString(secrets[i].0, secrets[i].1))
  }

  /** The position of the first `=`, or the length when there is none. */
  function FirstEquals(s: string): (k: nat)
    ensures k <= |s| && '=' !in s[..k]
    ensures k < |s| ==> s[k] == '='
    decreases |s|
  {
    if |s| == 0 then 0
    else if s[0] == '=' then 0
    else
      var k := FirstEquals(s[1..]);
      assert s[..k + 1] == [s[0]] + s[1..][..k];
      k + 1
  }

  /** Splitting an environment string at its first `=`, as a shell reads it. */
  function ParseEnv(s: string): (string, string) {
    var k := FirstEquals(s);
    (s[..k], if k < |s| then s[k + 1..] else "")
  }

  /** A valid name contains no `=`. */
  lemma ValidNameHasNoEquals(name: string)
    requires ValidateSecretName(name)
    ensures '=' !in name
  {
  }

  /** Reading an environment string back gives the name and value it was built from, whatever
      the value contains, provided the name has no `=`. */
  lemma {:induction false} EnvStringRoundTrip(name: string, value: string)
    requires '=' !in name
    ensures ParseEnv(EnvString(name, value)) == (name, value)
  {
    var s := EnvString(name, value);
    FirstEqualsAfter(name, value);
    assert s[..|name|] == name;
    assert s[|name| + 1..] == value;
  }

  lemma {:induction false} FirstEqualsAfter(name: string, value: string)
    requires '=' !in name
    ensures FirstEquals(name + "=" + value) == |name|
    decreases |name|
  {
    if |name| > 0 {
      assert (name + "=" + value)[1..] == name[1..] + "=" + value;
      FirstEqualsAfter(name[1..], value);
    }
  }

  /** Injected secrets with valid names can be read back exactly. */
  lemma InjectRoundTrip(secrets: Secrets)
    requires forall i :: 0 <= i < |secrets| ==> ValidateSecretName(secrets[i].0)
    ensures forall i :: 0 <= i < |secrets| ==> ParseEnv(InjectSecrets(secrets)[i]) == secrets[i]
  {
    forall i | 0 <= i < |secrets| ensures ParseEnv(InjectSecrets(secrets)[i]) == secrets[i] {
      ValidNameHasNoEquals(secrets[i].0);
      EnvStringRoundTrip(secrets[i].0, secrets[i].1);
    }
  }

  /** `mask_secret(value, show_chars)`: with a non-negative `show_chars`, the first `show_chars`
      characters are kept and every other one becomes `*`; a value no longer than that is all
      `*`. */
  function MaskSecret(value: string, showChars: int): (r: string)
    ensures showChars >= 0 ==> |r| == |value|
    ensures |value| <= showChars ==> forall i :: 0 <= i < |r| ==> r[i] == '*'
    ensures 0 <= showChars < |value| ==>
      r[..showChars] == value[..showChars] && forall i :: showChars <= i < |r| ==> r[i] == '*'
  {
    if |value| <= showChars then Repeat('*', |value|)
    else PyTake(value, showChars) + Repeat('*', |value| - showChars)
  }

  /** Masking a masked value changes nothing. */
  lemma MaskIdempotent(value: string, showChars: nat)
    ensures MaskSecret(MaskSecret(value, showChars), showChars) == MaskSecret(value, showChars)
  {
    var m := MaskSecret(value, showChars);
    var mm := MaskSecret(m, showChars);
    assert forall i :: 0 <= i < |m| ==> mm[i] == m[i] by {
      if showChars < |value| {
        assert forall i :: 0 <= i < showChars ==> mm[i] == mm[..showChars][i] && m[i] == m[..showChars][i];
      }
    }
  }

  /** The mask shows nothing beyond the length and the first `show_chars` characters: values
      that agree on those are masked alike. */
  lemma MaskRevealsOnlyPrefix(a: string, b: string, showChars: nat)
    requires |a| == |b|
    requires |a| <= showChars || a[..showChars] == b[..showChars]
    ensures MaskSecret(a, showChars) == MaskSecret(b, showChars)
  {
    var ma, mb := MaskSecret(a, showChars), MaskSecret(b, showChars);
    if showChars < |a| {
      assert forall i :: 0 <= i < showChars ==> ma[i] == ma[..showChars][i] && mb[i] == mb[..showChars][i];
    }
    assert forall i :: 0 <= i < |ma| ==> ma[i] == mb[i];
  }
}

=== FILE: text.dfy ===
/** String helpers with the meaning of the Python built-ins the source uses. Case mapping is
    ASCII-only; the model does not follow Unicode case rules. */
module Text {

  predicate StartsWith(s: string, prefix: string) {
    |prefix| <= |s| && s[..|prefix|] == prefix
  }

  predicate EndsWith(s: string, suffix: string) {
    |suffix| <= |s| && s[|s| - |suffix|..] == suffix
  }

  /** Python's `sub in s`. */
  predicate Contains(s: string, sub: string)
    decreases |s|
  {
    StartsWith(s, sub) || (|s| > 0 && Contains(s[1..], sub))
  }

  predicate IsUpperAscii(c: char) {
    'A' <= c <= 'Z'
  }

  predicate IsDigit(c: char) {
    '0' <= c <= '9'
  }

  function LowerChar(c: char): char {
    if IsUpperAscii(c) then (c as int + 32) as char else c
  }

  function UpperChar(c: char): char {
    if 'a' <= c <= 'z' then (c as int - 32) as char else c
  }

  /** `str.lower()` on ASCII letters. */
  function Lower(s: string): (r: string)
    ensures |r| == |s|
    ensures forall i :: 0 <= i < |s| ==> r[i] == LowerChar(s[i])
  {
    seq(|s|, i requires 0 <= i < |s| => LowerChar(s[i]))
  }

  /** `str.upper()` on ASCII letters. */
  function Upper(s: string): (r: string)
    ensures |r| == |s|
    ensures forall i :: 0 <= i < |s| ==> r[i] == UpperChar(s[i])
  {
    seq(|s|, i requires 0 <= i < |s| => UpperChar(s[i]))
  }

  /** `c * n` for a one-character string `c`. */
  function Repeat(c: char, n: nat): (r: string)
    ensures |r| == n
    ensures forall i :: 0 <= i < n ==> r[i] == c
  {
    seq(n, _ => c)
  }

  /** `sep.join(xs)`. */
  function Join(sep: string, xs: seq<string>): string
    decreases |xs|
  {
    if |xs| == 0 then ""
    else if |xs| == 1 then xs[0]
    else xs[0] + sep + Join(sep, xs[1..])
  }

  /** `xs` is `ys` with some elements left out, order kept. */
  predicate IsSubsequence<T(==)>(xs: seq<T>, ys: seq<T>)
    decreases |ys|
  {
    if |xs| == 0 then true
    else if |ys| == 0 then false
    else if xs[0] == ys[0] then IsSubsequence(xs[1..], ys[1..])
    else IsSubsequence(xs, ys[1..])
  }

  /** Dropping the first element of the longer sequence keeps a subsequence when it was
      skipped. */
  lemma SubsequenceSkipHead<T>(xs: seq<T>, ys: seq<T>)
    requires |ys| > 0 && IsSubsequence(xs, ys[1..])
    ensures IsSubsequence(xs, ys)
  {
    SubsequenceFromTail(xs, ys[1..], ys[0]);
    assert [ys[0]] + ys[1..] == ys;
  }

  /** A subsequence stays one when an element is put in front of the longer sequence. */
  lemma {:induction false} SubsequenceFromTail<T>(xs: seq<T>, ys: seq<T>, y: T)
    requires IsSubsequence(xs, ys)
    ensures IsSubsequence(xs, [y] + ys)
    decreases |ys|, 1
  {
    if |xs| > 0 {
      assert ([y] + ys)[1..] == ys;
      if xs[0] == y {
        SubsequenceDropHead(xs, ys);
      }
    }
  }

  /** Dropping the first element of a subsequence keeps a subsequence. */
  lemma {:induction false} SubsequenceDropHead<T>(xs: seq<T>, ys: seq<T>)
    requires |xs| > 0 && IsSubsequence(xs, ys)
    ensures IsSubsequence(xs[1..], ys)
    decreases |ys|, 0
  {
    if xs[0] != ys[0] {
      SubsequenceDropHead(xs, ys[1..]);
      SubsequenceFromTail(xs[1..], ys[1..], ys[0]);
      assert [ys[0]] + ys[1..] == ys;
    } else {
      SubsequenceFromTail(xs[1..], ys[1..], ys[0]);
      assert [ys[0]] + ys[1..] == ys;
    }
  }

  /** A prefix of a subsequence is a subsequence. */
  lemma {:induction false} SubsequencePrefix<T>(xs: seq<T>, ys: seq<T>, k: nat)
    requires IsSubsequence(xs, ys) && k <= |xs|
    ensures IsSubsequence(xs[..k], ys)
    decreases |ys|
  {
    if k > 0 {
      if xs[0] == ys[0] {
        SubsequencePrefix(xs[1..], ys[1..], k - 1);
        assert xs[..k][1..] == xs[1..][..k - 1];
      } else {
        SubsequencePrefix(xs, ys[1..], k);
      }
    }
  }

  /** Python's normalisation of a slice bound `i` against a sequence of length `len`. */
  function PyIndex(len: nat, i: int): (k: nat)
    ensures k <= len
    ensures 0 <= i <= len ==> k == i
    ensures i > len ==> k == len
    ensures i < 0 ==> k == if len + i < 0 then 0 else len + i
  {
    if i < 0 then (if len + i < 0 then 0 else len + i)
    else if i > len then len
    else i
  }

  /** Python's `xs[:j]`. */
  function PyTake<T>(xs: seq<T>, j: int): seq<T> {
    xs[..PyIndex(|xs|, j)]
  }

  /** Python's `xs[i:]`. */
  function PyDrop<T>(xs: seq<T>, i: int): seq<T> {
    xs[PyIndex(|xs|, i)..]
  }

  /** `s.rstrip(c)` for one character. */
  function RStrip(s: string, c: char): (r: string)
    ensures StartsWith(s, r)
    ensures |r| == 0 || r[|r| - 1] != c
    decreases |s|
  {
    if |s| > 0 && s[|s| - 1] == c then RStrip(s[..|s| - 1], c) else s
  }

  function DigitChar(d: int): char
    requires 0 <= d < 10
  {
    (48 + d) as char
  }

  /** `str(n)` for a natural number. */
  function NatToString(n: nat): (r: string)
    ensures 1 <= |r|
    ensures n >= 10 ==> 2 <= |r|
    ensures forall i :: 0 <= i < |r| ==> IsDigit(r[i])
  {
    if n < 10 then [DigitChar(n)] else NatToString(n / 10) + [DigitChar(n % 10)]
  }

  /** `str(n)` for any integer. */
  function IntToString(n: int): string {
    if n < 0 then "-" + NatToString(-n) else NatToString(n)
  }

  /** Distinct numbers render as distinct strings. */
  lemma {:induction false} NatToStringInjective(a: nat, b: nat)
    requires NatToString(a) == NatToString(b)
    ensures a == b
  {
    var sa, sb := NatToString(a), NatToString(b);
    if a >= 10 && b >= 10 {
      assert sa[|sa| - 1] == sb[|sb| - 1];
      assert a % 10 == b % 10;
      assert sa[..|sa| - 1] == NatToString(a / 10);
      assert sb[..|sb| - 1] == NatToString(b / 10);
      NatToStringInjective(a / 10, b / 10);
    }
  }
}

/** Counting maps (`d[k] = d.get(k, 0) + 1`) and the sum of their counts. */
module Tally {

  function Increment<K>(m: map<K, nat>, k: K): (r: map<K, nat>)
    ensures r.Keys == m.Keys + {k}
    ensures r[k] == (if k in m then m[k] else 0) + 1
    ensures forall j :: j in m && j != k ==> r[j] == m[j]
  {
    m[k := (if k in m then m[k] else 0) + 1]
  }

  ghost function Pick<K>(m: map<K, nat>): K
    requires m != map[]
  {
    assert exists k :: k in m.Keys;
    var k :| k in m; k
  }

  /** The sum of all counts of a counting map. */
  ghost function MapSum<K>(m: map<K, nat>): nat
    decreases |m|
  {
    if m == map[] then 0
    else
      var k := Pick(m);
      m[k] + MapSum(m - {k})
  }

  /** The sum does not depend on which key is taken out first. */
  lemma {:induction false} MapSumRemove<K>(m: map<K, nat>, k: K)
    requires k in m
    ensures MapSum(m) == m[k] + MapSum(m - {k})
    decreases |m|
  {
    var p := Pick(m);
    if p != k {
      MapSumRemove(m - {p}, k);
      MapSumRemove(m - {k}, p);
      assert m - {p} - {k} == m - {k} - {p};
    }
  }

  /** Counting one more item raises the sum by exactly one. */
  lemma MapSumIncrement<K>(m: map<K, nat>, k: K)
    ensures MapSum(Increment(m, k)) == MapSum(m) + 1
  {
    var r := Increment(m, k);
    MapSumRemove(r, k);
    if k in m {
      MapSumRemove(m, k);
    } else {
      assert m - {k} == m;
    }
    assert r - {k} == m - {k};
  }
}

=== FILE: wrappers.dfy ===
/** Failure-carrying values used across the model: Python's `None` and raised exceptions. */
module Wrappers {

  /** Python's `Optional[T]`: `None` or a value. */
  datatype Option<+T> = None | Some(value: T) {

    function GetOr(default: T): T {
      match this
      case Some(v) => v
      case None => default
    }
  }

  /** The outcome of a call that may raise: `Err` carries the exception's text. */
  datatype Result<+T> = Ok(value: T) | Err(error: string) {

    predicate IsFailure() {
      Err?
    }

    function PropagateFailure<U>(): Result<U>
      requires Err?
    {
      Err(error)
    }

    function Extract(): T
      requires Ok?
    {
      value
    }
  }
}
